=== FILE: README.md ===
# QUITTR browser scripts — a Dafny model of the decision logic

The QUITTR app runs a set of browser scripts. This project models their decision and bookkeeping code:

- **Offline layer:** the page's TTL cache with its in-memory fallback, and the queue of actions taken offline and replayed on reconnection. In the service worker: precaching, cache pruning on activation, and the per-request strategy.
- **Validators and limiters:** HTML escaping, password scoring, two sliding-window rate limiters, the 32-bit rolling checksum, card-number, card-form and payment-data checks, and the failed-attempt lockout.
- **Bounded lists:** search history and suggestions, subscription history, the production error log, and the TTL map and loaded-image set of the performance helpers.
- **Small state machines:** subscription status and auto-renewal, membership expiry, the subscribe and pay buttons, privacy-consent validity, and the splash screen's visit record.

Every operation is a pure function over immutable values, or a method without side effects whose loop is proved equal to such a function. The things the scripts read from the browser are explicit parameters:

- the clock (`now`, in milliseconds);
- the `localStorage` contents and whether a call on it throws;
- the outcome of each `fetch`;
- calendar fields already split into year, month, day and so on.

One module per script. Two shared modules support them:

- `Values`: `Option` for `null`/`undefined`/`NaN`, and a small `JsValue` for dynamic values.
- `Strings`: trimming, digit filtering, `parseInt`, `split`, `replace`.

| module | script |
|---|---|
| `Offline` | `src/js/offline.js` |
| `ServiceWorker` | `src/sw.js` |
| `Validation` | `src/js/validation.js` |
| `Security` | `src/js/security.js` |
| `Search` | `src/js/search.js` |
| `Performance` | `src/js/performance.js` (and the identical `throttle` of `src/js/utils.js`) |
| `Subscription` | `src/js/subscription.js` |
| `Payment` | `src/js/payment.js` |
| `Utils` | `src/js/utils.js` |
| `PrivacyConsent` | `src/js/privacy-consent.js` |
| `Splash` | `src/js/splash.js` |
| `ProductionOptimizer` | `src/js/production-optimizer.js` |

## Model

| member | source | states |
|---|---|---|
| Offline.CacheData | src/js/offline.js:142-155 | the item `{data, now, expiry}` is written under `cache_<key>`; only when the write throws does it go to the memory map; every other key, in either store, is unchanged |
| Offline.RemoveCachedData | src/js/offline.js:183-189 | removes the `cache_` entry, or the memory entry when storage throws; no other storage key changes |
| Offline.RemoveThenGet | src/js/offline.js:158-189 | after a removal the key reads as null on the same store, and every other key reads as before |
| Offline.GetCachedData | src/js/offline.js:158-180 | the data is returned iff an item is found and `now - timestamp <= expiry`; a stale item is removed and reads as null; a miss changes nothing |
| Offline.GetAtBoundary | src/js/offline.js:173-177 | the expiry boundary is inclusive: a read exactly `expiry` ms after storing succeeds, one ms later it fails |
| Offline.MemoryIgnoredOnStorageMiss | src/js/offline.js:161-171 | while storage is readable, a key it does not hold reads as null, whatever the memory map holds |
| Offline.CacheThenGet | src/js/offline.js:142-180 | with working storage, a value cached at `t` reads back exactly while `now - t <= expiry` |
| Offline.CacheThenGetUnavailable | src/js/offline.js:142-180 | the same round trip holds through the memory map when storage throws on every call |
| Offline.QuotaFallbackUnreadable | src/js/offline.js:149-171 | as written, a value sent to memory because storage was full can never be read back (see Findings) |
| Offline.GetCachedDataFixed | src/js/offline.js:158-180 | the corrected read, which also consults memory on a storage miss, returns exactly the fresh item it finds |
| Offline.CacheThenGetFixed | src/js/offline.js:142-180 | with the corrected read, a freshly cached value reads back in every storage condition, full storage included |
| Offline.CleanExpiredCache | src/js/offline.js:356-389 | removes exactly the `cache_` keys whose text is corrupt or whose item is stale, and exactly the stale memory items; kept entries are unchanged; nothing changes when storage throws |
| Offline.CleanPreservesReads | src/js/offline.js:356-389 | the sweep never changes what a read at the same time returns, for any key that is not corrupt |
| Offline.SaveSyncQueue | src/js/offline.js:205-211 | a successful write persists the queue; a failed one leaves the previous copy |
| Offline.LoadSyncQueue | src/js/offline.js:214-224 | a stored queue replaces the in-memory one; unparsable text or a read that throws empties it; no stored text leaves it alone |
| Offline.SaveThenLoad | src/js/offline.js:205-224 | loading after saving restores the saved queue, whatever the in-memory queue became meanwhile |
| Offline.AddToSyncQueue | src/js/offline.js:192-211 | the queue grows by exactly one item at the back; earlier items are unchanged; the new queue is saved when the write succeeds, and a failed write leaves the stored copy as it was |
| Offline.UnknownActionFails | src/js/offline.js:255-265 | `processSyncItem` rejects an action other than `post_comment`, `like_post` or `save_progress`, so it is never replayed successfully |
| Offline.Drain | src/js/offline.js:232-241 | the loop collects exactly the items whose replay failed, in queue order |
| Offline.SyncOfflineData | src/js/offline.js:227-252 | offline or with an empty queue nothing changes; otherwise the queue becomes the failed items, and the failure count is its length |
| Offline.FailedIsOrderedSubsequence | src/js/offline.js:232-245 | the remaining queue is a strictly increasing selection of original positions, and a position is selected iff its replay failed |
| Offline.AllDeliveredEmpties | src/js/offline.js:232-245 | when every replay succeeds the queue ends empty |
| Offline.UnknownStaysQueued | src/js/offline.js:234-241 | an item with an unknown action survives every drain |
| Offline.ExecuteOnlineAction | src/js/offline.js:336-353 | the action is sent iff it is known and its POST succeeds; on any failure it is queued and the promise rejects |
| Offline.HandleOfflineAction | src/js/offline.js:323-333 | offline, the action is queued and acknowledged as `{offline: true}`; online it goes through `executeOnlineAction`; unless sent, the queue grows by one |
| Offline.OfflineNeedsNoNetwork | src/js/offline.js:323-333 | offline, the network outcome has no effect on the result |
| Offline.GoOnline | src/js/offline.js:18-21 | the `online` listener sets the flag and then drains: an empty queue stays empty with count 0; otherwise the queue becomes exactly the failed items, the count is their number, and the result is saved when the write succeeds |
| Offline.OfflineActionReplayedOnReconnect | src/js/offline.js:323-333 | an action taken offline is queued, and on reconnection it leaves the queue iff its replay succeeds |
| ServiceWorker.Open | src/sw.js:27 | `caches.open` returns an existing cache as it is, or appends an empty one; no entry changes |
| ServiceWorker.Put | src/sw.js:83-86 | after `open` then `put`, the named cache maps the URL to the response; every other (cache, URL) entry is unchanged |
| ServiceWorker.Match | src/sw.js:91 | `caches.match` finds a response iff some cache holds the URL, and the response is one a cache holds |
| ServiceWorker.AddAll | src/sw.js:30 | `addAll` succeeds iff every URL fetches ok; on success each URL maps to its fetched response and every other entry keeps its value |
| ServiceWorker.Install | src/sw.js:26-39 | the static cache exists afterwards; precaching succeeds iff every asset fetches ok, and then each asset maps to its fetched response; other entries and other caches are unchanged; a failure is swallowed and leaves just the opened cache |
| ServiceWorker.Activate | src/sw.js:47-57 | exactly the caches named `STATIC_CACHE` or `DYNAMIC_CACHE` survive, with their entries unchanged |
| ServiceWorker.ActivateLeavesOnlyCurrent | src/sw.js:47-57 | after activation only current names remain, `CACHE_NAME` is gone, and existing current caches are kept |
| ServiceWorker.MatchRequest | src/sw.js:91 | `caches.match(request)` never matches a request that is not a GET; for a GET it is `caches.match` on the full URL (path and query) |
| ServiceWorker.PutRequest | src/sw.js:83-86 | `put` stores a GET response under its full URL in `DYNAMIC_CACHE`; a non-GET request is rejected and the caches stay as they were; no other entry changes |
| ServiceWorker.NetworkFirst | src/sw.js:77-100 | a navigation's network response is returned and put into the cache as it is; on a network error the cached match is returned, else the cached `/index.html`, and the caches do not change |
| ServiceWorker.StoreIfOk | src/sw.js:112-118 | a fetched response is put into `DYNAMIC_CACHE` iff it is ok; otherwise nothing changes |
| ServiceWorker.CacheFirst | src/sw.js:105-157 | a cache hit is returned as cached; a miss returns the network response; a failed image fetch gets the placeholder and any other failure rejects; only ok responses are stored |
| ServiceWorker.HandleFetch | src/sw.js:67-158 | cross-origin requests are not intercepted; a same-origin navigation goes network first and every other same-origin request cache first, each fetching the request's URL |
| ServiceWorker.NonGetAlwaysReachesNetwork | src/sw.js:67-158 | a same-origin request that is not a GET (the queued API POSTs) never changes the caches, and a delivered one gets the network's own response |
| ServiceWorker.QueryStringIsPartOfKey | src/sw.js:77-88 | a GET navigation is cached under its full URL; a URL differing only in its query keeps its own entry |
| ServiceWorker.CacheHitIgnoresRefresh | src/sw.js:106-125 | on a cache hit the reply does not depend on what the background refresh fetches |
| ServiceWorker.NavigationCachesAnyStatus | src/sw.js:77-88 | a navigation response is returned, and for a GET it is cached even when it is not ok |
| ServiceWorker.MissCachedIffOk | src/sw.js:128-138 | a non-navigation GET miss returns the network response and caches it exactly when it is ok |
| ServiceWorker.InstalledShellServesOfflineNavigation | src/sw.js:26-39 | after a successful install and an activation, every same-origin navigation is answered while offline |
| ServiceWorker.CacheStats | src/sw.js:242-255 | one `{name, count}` per cache, in order, where count is the number of cached URLs |
| ServiceWorker.OnMessage | src/sw.js:238-261 | `SKIP_WAITING` triggers `skipWaiting`, and only `GET_CACHE_STATS` is answered, with one statistic per cache |
| ServiceWorker.StatsAfterActivate | src/sw.js:47-57 | after activation the statistics list at most the two current caches |
| Validation.EscapeHtml | src/js/validation.js:10-19 | the output has no raw `<`, `>`, `"` or `'`; it is never shorter than the input, and it has the same length iff the input has no special character |
| Validation.UnescapeEscape | src/js/validation.js:10-19 | unescaping the escaped text gives back the input |
| Validation.EscapeInjective | src/js/validation.js:10-19 | two different texts never escape to the same output |
| Validation.EscapeIdentity | src/js/validation.js:10-19 | escaping leaves a text unchanged iff it holds none of `& < > " '` |
| Validation.EscapeAppend | src/js/validation.js:18 | escaping works character by character, so it distributes over concatenation |
| Validation.SanitizeText | src/js/validation.js:22-47 | a non-string gives `''`; with escaping on, the output holds no raw markup and unescapes to exactly the limited text; without escaping it is the limited text |
| Validation.SanitizeTruncatesBeforeEscaping | src/js/validation.js:36-44 | with a limit and escaping, the output unescapes to exactly `substring(0, maxLength)` of the cleaned text: all of it when shorter, its first `maxLength` characters otherwise, nothing for a negative limit |
| Validation.Limited | src/js/validation.js:36-41 | the limited text is a prefix of the cleaned text; without a limit it is all of it; with one its length is `min(maxLength, length)`, or 0 for a negative limit |
| Validation.EscapedOutputMayExceedMaxLength | src/js/validation.js:36-44 | because escaping runs after truncation, the output can be longer than `maxLength` (`<` with limit 1 gives `&lt;`) |
| Validation.PasswordScore | src/js/validation.js:74-84 | the score is at most 6 |
| Validation.ValidatePassword | src/js/validation.js:62-99 | under six characters: invalid, score 0 and the length message; otherwise the score counts the six checks, and the password is valid iff the score is at least 3 |
| Validation.PasswordScoreMonotone | src/js/validation.js:74-96 | appending characters never lowers the score, so a valid password stays valid |
| Validation.NewRateLimiter | src/js/validation.js:288-291 | the limits default to 10 calls and 60000 ms; a fresh limiter has `max(0, maxRequests)` requests left for everyone and allows a call iff `maxRequests > 0` |
| Validation.Recent | src/js/validation.js:299 | a timestamp is kept iff it is in the history and `now - t < timeWindow`; pruning never adds timestamps |
| Validation.IsAllowed | src/js/validation.js:294-308 | allowed iff fewer than `maxRequests` timestamps satisfy `now - t < timeWindow`; a rejection records nothing; an acceptance stores the pruned list plus `now`; other identifiers are untouched |
| Validation.RemainingRequests | src/js/validation.js:310-315 | exactly `max(0, maxRequests - validCount)`, and the limiter is not changed |
| Validation.AllowedIffRemaining | src/js/validation.js:294-315 | a call is allowed iff requests remain, and an allowed call uses one up |
| Validation.IdentifiersIndependent | src/js/validation.js:294-308 | calls for one identifier never change the decision for another |
| Validation.RecentTwice | src/js/validation.js:299 | pruning at `now` and then at a later time is the same as pruning once at the later time |
| Validation.RecentShrinks | src/js/validation.js:299 | a later window holds no more timestamps than an earlier one |
| Validation.AcceptKeepsWindowBound | src/js/validation.js:299-306 | accepting one call at `now` keeps every window within the cap |
| Validation.NeverMoreThanMaxInWindow | src/js/validation.js:294-308 | for calls in clock order, no `timeWindow`-long window ever holds more than `maxRequests` accepted calls |
| Validation.RunInvariant | src/js/validation.js:294-308 | the accepted times are ordered and bounded by the last call, and the stored history always prunes to the accepted times |
| Validation.EmailParts | src/js/validation.js:50-53 | a user part, `@`, a host part, `.` and a last part, each non-empty and free of whitespace and `@`, form an accepted address |
| Validation.EmailSplits | src/js/validation.js:50-53 | every accepted address splits into those three parts around its one `@` and a later `.` |
| Validation.PhoneShape | src/js/validation.js:56-59 | a phone number is accepted iff it is `1`, a digit from 3 to 9, and nine more digits |
| Validation.FieldErrors | src/js/validation.js:144-186 | a blank value yields only the required error (when required); a non-blank value passes iff it meets the minimum and (non-zero) maximum length, the e-mail, phone or URL format of its type, the custom validator, and, for a password, the strength check; a too-short value reports the length error first |
| Validation.ValidateField | src/js/validation.js:137-198 | a field with no rule passes and changes nothing; otherwise it passes iff no error arises, the error entry is removed on a pass and replaced by the errors on a failure |
| Validation.BlankValueOnlyRequired | src/js/validation.js:147-151 | a blank value fails iff its rule is required |
| Security.CheckRateLimit | src/js/security.js:77-99 | throws `RATE_LIMIT_EXCEEDED` iff at least 10 stored times are `> now - 60000`; otherwise `now` is appended to the stored history |
| Security.CleanupRequestHistory | src/js/security.js:111-116 | keeps exactly the stored times within the last minute, and for any later time gives the same recent timestamps as the original |
| Security.CleanupPreservesDecisions | src/js/security.js:77-116 | cleaning up never changes a later rate-limit decision |
| Security.RateLimitNeverExceeded | src/js/security.js:77-99 | for calls in clock order, no 60-second window ever holds more than 10 recorded requests |
| Security.IsValidCardNumber | src/js/security.js:197-211 | valid iff the masked number holds at least 10 digits and its first digit, wherever it stands, is 3, 4, 5 or 6 (no Luhn check) |
| Security.ValidateCardInfo | src/js/security.js:165-192 | no errors iff the name has two or more characters, the number passes the card check, both expiry fields are present, and the card is not expired |
| Security.UnparseableExpiryNeverExpired | src/js/security.js:184-189 | an expiry year that does not parse (NaN) never reports the card as expired |
| Security.HexExpiryYearReadAsHex | src/js/security.js:184-189 | `parseInt` without a radix reads an expiry year of `0x1F` in base sixteen, as year 31, and compares it so |
| Security.ValidatePaymentData | src/js/security.js:121-160 | a null request fails before any check; otherwise accepted iff 0 < amount <= 10000, the method is alipay, wechat, card or paypal, any card info on a card payment passes, and a (non-zero) timestamp lies within 300000 ms of `now` either way |
| Security.StaleRequestRejected | src/js/security.js:151-153 | a request more than five minutes old is always rejected with the expiry message |
| Security.ToInt32 | src/js/security.js:272 | the signed 32-bit value congruent to the input modulo 2^32 |
| Security.Checksum | src/js/security.js:267-275 | the checksum is always a signed 32-bit value |
| Security.StepIsWrappedPolyStep | src/js/security.js:271-272 | each loop step equals `31*h + c` wrapped to 32 bits |
| Security.ChecksumIsWrappedPolyHash | src/js/security.js:267-275 | the checksum is the polynomial hash `Σ c_i·31^(n-1-i)` reduced to a signed 32-bit value |
| Security.Encrypt | src/js/security.js:216-235 | the envelope carries the encoded payload, `now`, version `1.0`, and the checksum of payload plus timestamp |
| Security.Decrypt | src/js/security.js:240-262 | a checksum mismatch gives `INTEGRITY_CHECK_FAILED` first; then data older than 3600000 ms gives `ENCRYPTED_DATA_EXPIRED`; a success returns the decoded payload |
| Security.DecryptEncrypt | src/js/security.js:216-262 | within the hour, decrypting an envelope returns the decoded payload, or `DECRYPTION_FAILED` when the payload does not decode |
| Security.TamperedChecksumDetected | src/js/security.js:243-246 | any change to the checksum is detected, however fresh the envelope |
| Security.RecordFailedAttempt | src/js/security.js:323-330 | the counter goes up by one; from the fifth failure on, the lockout time is set to `now`; before that it is unchanged |
| Security.LockoutAfterFailures | src/js/security.js:323-338 | after `resetFailedAttempts`, k failures leave the counter at k, and the account is locked iff k >= 5, at the time of the last failure |
| Security.StrengthScore | src/js/security.js:432-440 | the score is at most 5 |
| Security.CheckPasswordStrength | src/js/security.js:431-447 | the score counts the five checks: weak iff below 3, medium iff 3, strong iff 4 or 5 |
| Security.ScoresAgree | src/js/security.js:431-447 | for six characters or more, the form validator's score is this score plus one point for twelve characters |
| Security.StrongButTooShort | src/js/security.js:431-447 | the two scorers disagree: `Aa1!` is strong here but invalid for the form validator |
| Security.SanitizeInput | src/js/security.js:452-461 | a non-string comes back unchanged; a string comes back with none of `< > " ' /` |
| Security.SanitizedTextIsSafe | src/js/security.js:455-460 | the chain of five replacements leaves none of the five characters |
| Security.SanitizeInputKeepsSafeText | src/js/security.js:452-461 | text without the five characters passes through unchanged |
| Security.SanitizeInputNotInjective | src/js/security.js:452-461 | `&` is not escaped, so `<` and a typed `&lt;` sanitise to the same text |
| Search.AddToHistory | src/js/search.js:661-670 | an empty or already-present query changes nothing; otherwise the query goes first, followed by the old items in order, cut to ten |
| Search.AddToHistoryKeepsInvariant | src/js/search.js:661-670 | a duplicate-free history of at most ten stays duplicate-free and at most ten long |
| Search.LoadSearchHistory | src/js/search.js:675-684 | a saved list replaces the history; a missing entry, or text that fails to parse, leaves the history as it was |
| Search.NewManager | src/js/search.js:7-16 | a new manager starts from an empty history and loads the saved list, if any |
| Search.SaveSearchHistory | src/js/search.js:689-695 | a successful write stores the history; a failed one is caught and leaves the entry as it was |
| Search.Add | src/js/search.js:661-670 | an ignored query changes nothing and saves nothing; otherwise the new history is the one `AddToHistory` gives, and it is saved |
| Search.ClearHistory | src/js/search.js:700-703 | the history is empty and the storage entry removed |
| Search.HistorySurvivesReload | src/js/search.js:661-703 | after a saved addition a reload sees the same history, and after a clear it sees an empty one |
| Search.FailedSaveLosesQuery | src/js/search.js:661-695 | when the save fails, a reload sees the old history without the new query |
| Search.HistoryPass | src/js/search.js:539-547 | every suggestion is a matching history item, every matching history item is suggested, and a repeat-free history gives distinct texts |
| Search.HistoryPassInOrder | src/js/search.js:539-547 | the first loop suggests the history items at the matching positions, in ascending position order |
| Search.MatchPositionsExact | src/js/search.js:539-547 | a position is among the matching positions iff its item contains the query |
| Search.HotPass | src/js/search.js:555-564 | keeps the earlier suggestions as a prefix, appends only matching hot searches whose text is new, and leaves no matching hot search unsuggested |
| Search.HotPassInOrder | src/js/search.js:555-564 | the appended suggestions are the hot searches at ascending positions, in list order |
| Search.HotPassMembership | src/js/search.js:555-564 | for a repeat-free hot list, a hot search is appended iff it matches and its text was not suggested before the pass |
| Search.HotPassDistinct | src/js/search.js:555-564 | the `some` check keeps suggestion texts distinct |
| Search.Suggestions | src/js/search.js:535-567 | at most eight suggestions |
| Search.SuggestionsShape | src/js/search.js:535-567 | every suggestion contains the query; history matches come first, then hot searches; texts are distinct |
| Search.SuggestionsComplete | src/js/search.js:535-567 | below the cap of eight nothing is lost: every matching history item and hot search is suggested |
| Search.SuggestionsInOrder | src/js/search.js:535-567 | the suggestions are the matching history items in history order, then the new matching hot searches in list order, cut to eight |
| Search.ClearedHistorySuggestsHotOnly | src/js/search.js:700-703 | after clearing, every suggestion is a hot search |
| Search.GetSuggestions | src/js/search.js:535-567 | the two `forEach` loops with their `some` scan, then the cut to eight, compute exactly the functional suggestion list |
| Search.HistoryLoop | src/js/search.js:539-547 | the first `forEach` computes exactly the history pass |
| Search.HotLoop | src/js/search.js:555-564 | the second `forEach` computes exactly the hot pass |
| Search.SomeHasText | src/js/search.js:558 | `some(s => s.text === item)` is true iff a suggestion has that text |
| Performance.SetCache | src/js/performance.js:275-278 | stores the value with expiry `now + ttl` (ttl defaults to 300000); other keys are unchanged |
| Performance.GetCache | src/js/performance.js:280-290 | the value is returned iff `now <= expiry`; an expired entry is deleted |
| Performance.ClearExpiredCache | src/js/performance.js:292-299 | removes exactly the entries with `now > expiry`; the rest are unchanged |
| Performance.SetThenGet | src/js/performance.js:275-290 | a stored value reads back exactly until its expiry instant |
| Performance.ClearExpiredPreservesReads | src/js/performance.js:280-299 | clearing never changes a read made at the same time or later |
| Performance.ClearExpiredIdempotent | src/js/performance.js:292-299 | clearing twice is clearing once |
| Performance.LoadImage | src/js/performance.js:119-149 | an image already loaded, or without a non-empty `data-src`, is skipped; otherwise it joins the set once, shown on load and marked failed on error |
| Performance.LoadImageOnce | src/js/performance.js:120 | a second request for the same image is skipped whatever its outcome |
| Performance.CleanupMemory | src/js/performance.js:164-167 | above 100 images the set loses 50; otherwise it is unchanged |
| Performance.CleanupForgetsOldest | src/js/performance.js:164-167 | an image stays iff it was not among the 50 added first |
| Performance.ThrottleCall | src/js/performance.js:27-38 | a call is invoked iff the throttle flag is clear, and an invoked call sets it |
| Performance.ThrottleSpacing | src/js/utils.js:518-527 | from a fresh throttle the first call is invoked, invoked calls are at least `limit` ms apart, each is one of the call times, and the flag remembers the latest one |
| Subscription.LoadCurrentSubscription | src/js/subscription.js:75-105 | no entry leaves the subscription alone; an unreadable entry clears it; a loaded record is marked expired iff its expiry date is in the past (or it already was), and is written back; when that write back throws, the `catch` clears the subscription and removes the entry |
| Subscription.LoadingExpiresStale | src/js/subscription.js:85-104 | a record whose expiry date is before `now` loads as expired, in memory and in storage, or is cleared when the write back throws; either way no feature is accessible |
| Subscription.InvalidExpiryNeverExpires | src/js/subscription.js:82-88 | a record whose expiry date is invalid is never marked expired |
| Subscription.ToggleAutoRenewal | src/js/subscription.js:457-464 | flips `autoRenewal` only on an active subscription and changes nothing else |
| Subscription.ToggleTwice | src/js/subscription.js:457-464 | toggling twice restores the subscription |
| Subscription.CancelSubscription | src/js/subscription.js:494-506 | on an active, confirmed subscription only `autoRenewal` becomes false; otherwise nothing changes |
| Subscription.CancelKeepsAccess | src/js/subscription.js:494-506 | cancelling never changes feature access, and cancelling twice is cancelling once |
| Subscription.HasFeatureAccess | src/js/subscription.js:631-646 | access iff the subscription is active and its plan is a known plan whose rank reaches the feature's tier: chat for every plan, analytics from premium, the other three for annual only, unknown features for none |
| Subscription.AccessMonotone | src/js/subscription.js:636-645 | a higher plan has every feature of a lower one (basic ⊆ premium ⊆ annual); an unknown feature is never granted |
| Subscription.ValidatePaymentData | src/js/subscription.js:295-313 | accepted iff the plan is basic, premium or annual, the method is alipay, wechat or apple, and 0 < amount <= 10000 |
| Subscription.ListPriceAccepted | src/js/subscription.js:20-24 | each plan at its list price passes validation |
| Subscription.SaveToHistory | src/js/subscription.js:409-426 | the new item goes first and the old items follow in order, cut to 20 in total |
| Subscription.SaveKeepsNewestFirst | src/js/subscription.js:409-426 | a history ordered newest first stays so |
| Subscription.Cleanup | src/js/subscription.js:651-664 | keeps exactly the items dated after 30 days ago |
| Subscription.CleanupKeepsNewAndIsIdempotent | src/js/subscription.js:651-664 | an item saved now survives cleanup, and cleaning twice is cleaning once |
| Subscription.CleanupAppend | src/js/subscription.js:657-659 | the filter works item by item, so it keeps the original order |
| Subscription.SubscribeButton | src/js/subscription.js:216-225 | enabled iff a plan and a payment method are chosen and nothing is processing, with the plan's price in the caption; while processing it is disabled with the processing caption |
| Subscription.SubscribeButtonShowsChargedPrice | src/js/subscription.js:216-225 | with a plan and a supported method chosen, the button is enabled, its caption's amount reads back as the plan price, and a request for that amount passes `validatePaymentData` |
| Payment.FormatCardNumber | src/js/payment.js:278-281 | the field holds digits in groups of four, with a space at exactly every fifth position |
| Payment.CardNumberRoundTrip | src/js/payment.js:278-281 | stripping the spaces gives the digits typed, and formatting is idempotent |
| Payment.FormatExpiry | src/js/payment.js:287-291 | fewer than two digits stay as they are; otherwise the field is `MM/` followed by at most two more digits |
| Payment.ExpiryFormatShape | src/js/payment.js:287-291 | the field has the `MM/YY` shape iff at least four digits were typed, and formatting is idempotent |
| Payment.ExpiryDigits | src/js/payment.js:287-291 | the field's digits are the first four typed |
| Payment.FormatCvv | src/js/payment.js:296-297 | the field keeps every digit typed, as often as it occurs, and drops everything else; a digit-only input is unchanged |
| Payment.CvvAppend | src/js/payment.js:296-297 | the filter works piece by piece: formatting a concatenation formats each part |
| Payment.CvvIdempotent | src/js/payment.js:296-297 | formatting the CVV twice is formatting it once |
| Payment.ExpiryCheckOnShape | src/js/payment.js:360-368 | `isValidExpiryDate` on `MM/YY`: valid iff the month is 1..12 and the year is later, or the same year at this month or later |
| Payment.ValidateCardForm | src/js/payment.js:388-400 | any method other than card passes; a passing card form has the `MM/YY` shape, a CVV of three or more, and 13 or more card digits |
| Payment.NormalisedFormCheck | src/js/payment.js:278-400 | on the normalised fields, the card form passes iff the name trims to two or more characters, 13 or more card digits and four expiry digits naming a current month were typed, and three or more CVV digits were typed |
| Payment.GetCurrentAmount | src/js/payment.js:1480-1489 | the plan price (19/39/299) for a subscription; the custom amount or `parseInt` of the donation when a non-empty donation is selected; 0 when no plan or no truthy donation is selected |
| Payment.UpdatePayButton | src/js/payment.js:224-251 | enabled iff a plan, a non-empty fixed donation or a positive custom amount is chosen, nothing is processing, and a card payment has a valid form; the caption shows the price, the donation, `请输入金额` or, without a plan or a truthy donation, `请选择计划` |
| Payment.PreparePaymentData | src/js/payment.js:1246-1273 | the amount is the current amount once a plan or a non-empty donation is chosen; a donation's amount is the custom amount or `parseInt` of the option even when it is empty (no truthiness test there); a subscription carries its plan key; a donation carries no plan |
| Payment.ValidatePaymentData | src/js/payment.js:1359-1373 | accepted iff type, method and a positive amount are present, a subscription has a plan, and a donation has a donation type |
| Payment.PreparedRequestValid | src/js/payment.js:1246-1373 | the request the page builds passes iff the method has a name and a plan is chosen (subscription) or a donation whose amount reads as a positive number is chosen (donation) |
| Payment.EnabledButtonGivesValidRequest | src/js/payment.js:224-251 | when the pay button is enabled, the method has a name, and a fixed donation (if that is the choice) reads as a positive number, the prepared request passes validation and its amount is the current amount |
| Payment.MaskedNumber | src/js/payment.js:1343 | the first six characters, six stars, the last four |
| Payment.MaskedNumberPassesSecurityCheck | src/js/payment.js:1343 | the mask of a card of ten or more digits keeps ten digits, so the security card check on it passes iff the card starts with 3, 4, 5 or 6 |
| Payment.ActivateMembership | src/js/payment.js:1200-1226 | a missing payment record changes nothing; otherwise the membership is active from `now`, ending after 365 days (annual), 30 days (basic, premium) or never set (anything else) |
| Payment.CheckMembershipStatus | src/js/payment.js:1277-1301 | active iff a record is stored as active and its end date lies ahead; a stored active record without that is flipped to expired; otherwise nothing changes |
| Payment.MembershipLasts | src/js/payment.js:1214-1218 | a paid plan activated at `start` is active exactly until its duration has passed, and once lapsed it stays lapsed |
| Payment.DonationMembershipLapsesAtOnce | src/js/payment.js:1206-1218 | a donation records an active membership without an end date, which the first status check reports as expired |
| Utils.UsernameGrowth | src/js/utils.js:290-297 | typing one more character into an accepted username keeps it accepted iff the character is a CJK ideograph, an ASCII letter, a digit or `_` and the name stays within 20 characters |
| Utils.UsernameIsSolid | src/js/utils.js:290-323 | a valid username passes `required`, has nothing to trim, and stays valid when lower-cased |
| Utils.Password | src/js/utils.js:300-308 | valid iff 6 to 20 characters, with separate messages for too short and too long |
| Utils.PasswordMessagesDistinct | src/js/utils.js:300-308 | two passwords get the same message iff they fall in the same length class |
| Utils.Required | src/js/utils.js:318-323 | passes iff the value is truthy and not a blank string; otherwise throws `<fieldName>不能为空` |
| Utils.Set | src/js/utils.js:347-365 | succeeds iff storage is available and the write does not throw; a failure changes nothing; other keys are unchanged |
| Utils.Get | src/js/utils.js:367-382 | gives the default when storage is unavailable, the key is missing, the text does not parse, or the value is missing; otherwise the stored value |
| Utils.SetThenGet | src/js/utils.js:347-382 | after a successful `set`, `get` returns the value after JSON (`NaN` as `null`); other keys, and every key after a failed `set`, read as before |
| Utils.DefaultFormatLayout | src/js/utils.js:532-548 | `formatDate` with the default format gives `YYYY-MM-DD HH:mm:ss`, with each field zero-padded to two digits that read back as its value |
| Utils.MonthDayLayout | src/js/utils.js:532-548 | `formatDate` with `MM-DD` gives the padded month and day only |
| Utils.FormatRelativeTime | src/js/utils.js:553-566 | under a minute (or in the future) gives 刚刚; then whole minutes, hours or days below 60 minutes, 24 hours or 7 days; after that `MM-DD` |
| PrivacyConsent.LoadConsent | src/js/privacy-consent.js:46-54 | a stored object is the record; a missing or unreadable entry gives none |
| PrivacyConsent.HasValidConsent | src/js/privacy-consent.js:33-41 | false without a record or with a version other than `1.0.0`; otherwise true iff `essential` is exactly `true` |
| PrivacyConsent.ConsentIsWhatWasSaved | src/js/privacy-consent.js:59-78 | after a successful save, `hasConsentFor` on a feature is true iff the saved record set it to exactly `true`, in memory and after a reload; after a failed save every answer is unchanged |
| PrivacyConsent.Serialised | src/js/privacy-consent.js:64 | JSON drops `undefined` fields, turns `NaN` into `null`, and keeps every other field |
| PrivacyConsent.SaveConsent | src/js/privacy-consent.js:59-78 | on success the record holds every given field, plus version and timestamp where the given fields lack them, and storage holds its JSON form; on failure nothing changes and the result is false |
| PrivacyConsent.HandleConsent | src/js/privacy-consent.js:290-297 | a saved consent with `essential: true` and no version of its own is valid afterwards |
| PrivacyConsent.AcceptAll | src/js/privacy-consent.js:251-256 | the record consents to essential, analytics and personalization |
| PrivacyConsent.AcceptSelected | src/js/privacy-consent.js:261-269 | the record consents to essential, and to analytics and personalization as ticked |
| PrivacyConsent.AcceptedConsentIsValid | src/js/privacy-consent.js:251-297 | after either button, consent is valid, each optional feature is consented to iff it was ticked, and a reload reaches the same decisions |
| PrivacyConsent.ReloadKeepsDecisions | src/js/privacy-consent.js:33-78 | serialising a record changes neither its validity nor any exact-`true` test |
| PrivacyConsent.OldVersionInvalid | src/js/privacy-consent.js:37 | a record from another version is never valid |
| PrivacyConsent.RevokeConsent | src/js/privacy-consent.js:465-468 | the stored entry and the record are both cleared |
| PrivacyConsent.RevokeClearsAll | src/js/privacy-consent.js:465-489 | after revoking, nothing is consented to, in memory or after a reload |
| Splash.ShouldSkipSplash | src/js/splash.js:46-61 | skip iff a valid last visit is recorded and `(now - lastVisit) / 3600000 < 24` in real division |
| Splash.VisitSkipsForADay | src/js/splash.js:46-61 | after a visit whose time was written at `t`, the splash is skipped exactly while `now < t + 24 h`; when that first write throws, the decision is unchanged |
| Splash.RecordVisit | src/js/splash.js:203-211 | records `now`, then the visited flag, then raises a readable count by exactly one (an unreadable count is written as `NaN`); the three writes have no `try`, so a write that throws leaves it and every later entry as it was |
| Splash.NaNCountIsSticky | src/js/splash.js:208-209 | once the count is `NaN`, every later visit leaves it `NaN`, whichever writes succeed |
| Splash.GetStats | src/js/splash.js:233-239 | reports the parsed count, the stored last visit, and whether visited is exactly `true` |
| Splash.Reset | src/js/splash.js:244-248 | all three entries are removed |
| Splash.ResetStats | src/js/splash.js:233-248 | after a reset the statistics are count 0, no last visit, not visited, and the splash is shown |
| Splash.NavigateToMain | src/js/splash.js:178-198 | the first call sets the guard and records the visit, and schedules the navigation exactly when every write of the visit succeeded; later calls change nothing |
| Splash.NavigateOnce | src/js/splash.js:178-211 | a second navigation changes nothing, so exactly one visit is counted when the writes succeed, and the splash is skipped for the next 24 hours once the visit time is written |
| Splash.ThrowingWriteStrandsPage | src/js/splash.js:178-211 | after a write of the first navigation throws, the guard stays set, no navigation is scheduled, and any run of later calls changes nothing |
| ProductionOptimizer.DetectEnvironment | src/js/production-optimizer.js:20-27 | production iff the host is neither `localhost` nor `127.0.0.1` and `debug=true` occurs at no position of the query |
| ProductionOptimizer.DebugParamDisablesProduction | src/js/production-optimizer.js:24-26 | `debug=true` anywhere in the query turns production off on every host |
| ProductionOptimizer.IsSensitive | src/js/production-optimizer.js:210-219 | a key is sensitive iff `payment`, `password` or `token` occurs at some position of it |
| ProductionOptimizer.SensitiveByWord | src/js/production-optimizer.js:210 | any key built around one of the three words is sensitive |
| ProductionOptimizer.CleanupTemp | src/js/production-optimizer.js:268-275 | removes exactly the keys starting with `temp_`; the rest are unchanged |
| ProductionOptimizer.CleanupExpiredData | src/js/production-optimizer.js:287-307 | removes exactly the `_expires_` keys whose JSON is malformed or whose truthy `expires` is before `now` |
| ProductionOptimizer.CleanupExpiredProperties | src/js/production-optimizer.js:287-307 | keys without the marker are never removed; cleaning is idempotent; a later cleanup removes at least as much |
| ProductionOptimizer.CleanupCache | src/js/production-optimizer.js:265-282 | what remains was in storage unchanged and is not temporary |
| ProductionOptimizer.CleanupCacheKeeps | src/js/production-optimizer.js:265-282 | no `temp_` key survives, and every key that is neither temporary nor marked is kept unchanged |
| ProductionOptimizer.LogError | src/js/production-optimizer.js:312-335 | the entry is appended and only the last 50 are kept, in order; an unreadable log, or a `setItem` that throws, leaves the stored log as it was |
| ProductionOptimizer.Last50 | src/js/production-optimizer.js:327-329 | at most 50, and a suffix of the log |
| ProductionOptimizer.LogKeepsMostRecent | src/js/production-optimizer.js:322-331 | starting from at most 50, any run of errors leaves exactly the 50 most recent of the whole history, in order |

## Left out

- Rendering: the DOM, modals, toasts, banners, styles and event wiring are not modelled. Only the values they display or the decisions they gate are.
- Browser APIs: real `fetch`, the Cache Storage API and `localStorage` are replaced by maps and outcome parameters. A storage call that throws is a parameter only where a member takes one: the `Backend` of Offline, `writeOk` in Search.SaveSearchHistory, PrivacyConsent.SaveConsent, ProductionOptimizer.LogError and Subscription.LoadCurrentSubscription, `ok` (the writes that land) in Splash.RecordVisit and Splash.NavigateToMain, and the `Unreadable` entries. Every other member assumes its storage calls succeed. Among those, Security.RecordFailedAttempt (src/js/security.js:324-329), Subscription.ToggleAutoRenewal (src/js/subscription.js:464), Subscription.SaveToHistory (src/js/subscription.js:410, 425), Subscription.Cleanup (src/js/subscription.js:653, 662) and Splash.Reset (src/js/splash.js:245-247) make theirs outside any `try`, so a throw there escapes with the writes before it applied. The members below are the ones where the lost effect matters most.
- Security.CheckRateLimit: the `setItem` of `recordRequest` (src/js/security.js:98) and the `JSON.parse` of the stored list (src/js/security.js:105) have no `try`; when either throws, the error escapes `checkRateLimit` and nothing is recorded, while the model always records an accepted request.
- Security.CleanupRequestHistory: likewise (src/js/security.js:105, 115); a throwing read or write escapes and the stored list stays as it was.
- Search.ClearHistory: the `removeItem` (src/js/search.js:702) is assumed to succeed; the in-memory history is emptied before it either way.
- PrivacyConsent.RevokeConsent: the `removeItem` (src/js/privacy-consent.js:466) is assumed to succeed; when it throws, the source leaves `consentData` set and fires no event.
- Payment.ActivateMembership: the `JSON.parse` and the two `setItem` calls (src/js/payment.js:1204, 1221-1222) have no `try`; a throw there leaves the membership unwritten or half written (the info without the status), which the model does not represent.
- Payment.CheckMembershipStatus: the `JSON.parse` of the stored info and the `setItem` of `expired` (src/js/payment.js:1282, 1295) have no `try`; when either throws, the source returns no status at all.
- Service worker handlers: `sync`, `push`, `notificationclick` and the error handlers are browser plumbing with no decision logic.
- Timing: timers and async interleaving are left out. This covers the `setTimeout` that clears the throttle flag (modelled as clearing exactly `limit` ms later), the 800 ms navigation delay and `performNavigation`, payment polling, and the race between a cache hit and its background refresh (the refresh is applied at once).
- Randomness and crypto: `Math.random` ids and `crypto` tokens become caller-supplied ids; device fingerprints are left out.
- Encodings: base64, `encodeURIComponent` and JSON are not modelled. The encrypted payload is an opaque string and decoding is the `decode` parameter. The `optimizeStorage` `btoa`/`atob` wrapper is represented only by its key predicate.
- Security.ChecksumStep: the checksum is the integer before `toString(16)`; the hexadecimal text is not modelled.
- Validation.SanitizeText: the three regular-expression removals (`<script>`, `javascript:`, `on…=`) are the `strip` parameter, not a regex engine.
- Validation.FieldErrors: URL syntax (`new URL`) is the `urlValid` parameter. A custom validator is given by its result.
- Strings: text is a sequence of UTF-16 code units, with non-BMP characters not special-cased. `trim` uses a fixed whitespace set, and lower-casing is ASCII-only.
- Floating point: amounts are integers. `parseFloat` custom donations and the 9.9/19.9 prices of `processPayment` are out.
- Calendar and locale: `formatDate` takes the local calendar fields as given, and card checks take the two-digit year and month as parameters. `toLocaleDateString` and `setMonth` renewal are out. Subscription.Cleanup: "30 days ago" is `now - 30 days` in milliseconds, ignoring daylight-saving shifts in `setDate`.
- Subscription.HasFeatureAccess: feature names are plain map keys. Names inherited from `Object.prototype` (such as `toString`, which would make the source throw) are not modelled.
- PrivacyConsent.LoadConsent: stored JSON that parses to a non-object (a number or string) is treated as unreadable.
- PrivacyConsent.HandleConsent: `initializeFeatures` and the thank-you message are left out; saving is its only modelled effect.
- Payment.ValidateCardForm: DOM fields that are missing (optional chaining giving `undefined`) are modelled as empty text.
- Offline.LoadSyncQueue: a stored queue that parses to something other than an array is not modelled.
- Search.LoadSearchHistory: likewise, a stored history that parses to something other than an array of strings is not modelled.
- ServiceWorker.PutRequest: the Cache API's other refusals (a partial `206` response, `Vary: *`) and the `ignoreSearch`/`ignoreVary` match options are not modelled; a URL is its path plus query, without the fragment.
- Payment.FormatCvv: the handler sets no length cap; a `maxlength` in the page markup is not part of this model, so the field keeps every digit typed.
- Offline: `getCacheStats`, `initServiceWorker` and `initLocalStorage` are left out; they report or register but decide nothing.
- Search: `highlightText` is left out, because it builds a regular expression from raw user input.
- `src/js/loading.js` and `src/js/darkmode.js` are DOM-only and are not part of this model.

## Findings

| source | as written | input that shows it | evidently intended | confidence | as-written member | corrected member |
|---|---|---|---|---|---|---|
| src/js/offline.js:149-171 | `cacheData` stores in the memory map when `localStorage.setItem` throws (quota full), but `getCachedData` consults memory only when `getItem` throws; a full store reads fine and returns null for the key | storage full, `cacheData('k', v)` then `getCachedData('k')` at the same instant returns null | values kept in the memory fallback are read back while fresh | not executed | Offline.QuotaFallbackUnreadable | Offline.CacheThenGetFixed |

=== FILE: offline.dfy ===
/** The page-side offline layer (`OfflineManager`): a TTL key/value cache kept in localStorage with an
    in-memory fallback, and a FIFO queue of user actions replayed when the connection returns.
    The clock, the health of localStorage and the outcome of each network call are parameters. */
module Offline {
  import opened Values
  import opened Strings

  /** Default lifetime of a cached value: 24 hours, in milliseconds. */
  const DefaultExpiry: int := 24 * 60 * 60 * 1000

  const CachePrefix: string := "cache_"

  /** The three action kinds that have a server endpoint. */
  const KnownActions: set<string> := {"post_comment", "like_post", "save_progress"}

  /** Health of localStorage. A full store refuses writes but still reads and removes; an
      unavailable store throws on every call. */
  datatype Backend = Working | QuotaExceeded | Unavailable

  predicate CanWrite(b: Backend) { b == Working }
  predicate CanRead(b: Backend) { b != Unavailable }

  // ---------------------------------------------------------------------------------------------
  // TTL cache

  datatype CacheItem<T> = CacheItem(data: T, timestamp: int, expiry: int)

  /** The text under a `cache_` key: JSON that parses to an item, or text that does not parse. */
  datatype Stored<T> = Corrupt | Entry(item: CacheItem<T>)

  /** localStorage (by full key) and the in-memory map (by logical key). */
  datatype TtlCache<T> = TtlCache(storage: map<string, Stored<T>>, memory: map<string, CacheItem<T>>)

  /** An item is stale once strictly more than `expiry` ms have passed since it was stored. */
  predicate Expired<T>(item: CacheItem<T>, now: int) {
    now - item.timestamp > item.expiry
  }

  function StorageKey(key: string): string {
    CachePrefix + key
  }

  function MapGet<K, V>(m: map<K, V>, k: K): Option<V> {
    if k in m then Some(m[k]) else None
  }

  /** `cacheData`: the item goes to localStorage under `cache_<key>`; only when that write throws does
      it go to the memory map instead. Everything else is left as it was. */
  function CacheData<T>(c: TtlCache<T>, key: string, data: T, expiry: int, now: int, b: Backend)
    : (c': TtlCache<T>)
    ensures CanWrite(b) ==>
              StorageKey(key) in c'.storage && c'.storage[StorageKey(key)] == Entry(CacheItem(data, now, expiry))
    ensures !CanWrite(b) ==> key in c'.memory && c'.memory[key] == CacheItem(data, now, expiry)
    ensures forall k :: k != StorageKey(key) ==> MapGet(c'.storage, k) == MapGet(c.storage, k)
    ensures forall k :: k != key ==> MapGet(c'.memory, k) == MapGet(c.memory, k)
    ensures CanWrite(b) ==> c'.memory == c.memory
    ensures !CanWrite(b) ==> c'.storage == c.storage
  {
    var item := CacheItem(data, now, expiry);
    if CanWrite(b) then c.(storage := c.storage[StorageKey(key) := Entry(item)])
    else c.(memory := c.memory[key := item])
  }

  /** Where `getCachedData` finds its item: in localStorage, unless reading it throws (the store is
      unavailable, or the text does not parse), and only then in memory. A plain miss in a readable
      store is a miss. */
  function Lookup<T>(c: TtlCache<T>, key: string, b: Backend): Option<CacheItem<T>> {
    if !CanRead(b) then MapGet(c.memory, key)
    else if StorageKey(key) !in c.storage then None
    else match c.storage[StorageKey(key)]
      case Corrupt => MapGet(c.memory, key)
      case Entry(item) => Some(item)
  }

  /** `removeCachedData`: deletes the storage key, or the memory entry when the store throws. */
  function RemoveCachedData<T>(c: TtlCache<T>, key: string, b: Backend): (c': TtlCache<T>)
    ensures CanRead(b) ==> StorageKey(key) !in c'.storage && c'.memory == c.memory
    ensures !CanRead(b) ==> key !in c'.memory && c'.storage == c.storage
    ensures forall k :: k != StorageKey(key) ==> MapGet(c'.storage, k) == MapGet(c.storage, k)
  {
    if CanRead(b) then c.(storage := c.storage - {StorageKey(key)})
    else c.(memory := c.memory - {key})
  }

  /** Distinct logical keys live under distinct storage keys. */
  lemma StorageKeyInjective(a: string, b: string)
    ensures StorageKey(a) == StorageKey(b) ==> a == b
  {
    assert StorageKey(a)[|CachePrefix|..] == a;
    assert StorageKey(b)[|CachePrefix|..] == b;
  }

  /** `getCachedData`: the data when an item is found and is not stale; a stale item is removed and
      reads as absent. */
  function GetCachedData<T>(c: TtlCache<T>, key: string, now: int, b: Backend)
    : (r: (Option<T>, TtlCache<T>))
    ensures r.0.Some? <==> Lookup(c, key, b).Some? && !Expired(Lookup(c, key, b).value, now)
    ensures r.0.Some? ==> r.0.value == Lookup(c, key, b).value.data && r.1 == c
    ensures Lookup(c, key, b).None? ==> r == (None, c)
    ensures (Lookup(c, key, b).Some? && Expired(Lookup(c, key, b).value, now)) ==>
              r.1 == RemoveCachedData(c, key, b)
  {
    match Lookup(c, key, b)
    case None => (None, c)
    case Some(item) =>
      if Expired(item, now) then (None, RemoveCachedData(c, key, b)) else (Some(item.data), c)
  }

  /** After a removal the key reads as absent on the same store, and every other key reads as it
      did before. */
  lemma RemoveThenGet<T>(c: TtlCache<T>, key: string, other: string, now: int, b: Backend)
    ensures GetCachedData(RemoveCachedData(c, key, b), key, now, b).0 == None
    ensures other != key ==>
              GetCachedData(RemoveCachedData(c, key, b), other, now, b).0 == GetCachedData(c, other, now, b).0
  {
    StorageKeyInjective(key, other);
  }

  /** The expiry boundary is inclusive: an item read exactly `expiry` ms after it was stored is
      still served. */
  lemma GetAtBoundary<T>(c: TtlCache<T>, key: string, data: T, expiry: int, t: int)
    requires StorageKey(key) in c.storage && c.storage[StorageKey(key)] == Entry(CacheItem(data, t, expiry))
    ensures GetCachedData(c, key, t + expiry, Working).0 == Some(data)
    ensures GetCachedData(c, key, t + expiry + 1, Working).0 == None
  {
  }

  /** While localStorage can be read, a key it does not hold reads as absent whatever the memory map
      holds. */
  lemma MemoryIgnoredOnStorageMiss<T>(c: TtlCache<T>, key: string, now: int, b: Backend)
    requires CanRead(b) && StorageKey(key) !in c.storage
    ensures GetCachedData(c, key, now, b) == (None, c)
  {
  }

  /** Round trip with a working store: a value cached at `t` is read back exactly while no more
      than `expiry` ms have passed. */
  lemma CacheThenGet<T>(c: TtlCache<T>, key: string, data: T, expiry: int, t: int, now: int)
    ensures GetCachedData(CacheData(c, key, data, expiry, t, Working), key, now, Working).0
            == (if now - t <= expiry then Some(data) else None)
  {
  }

  /** The same round trip when localStorage is wholly unavailable: both calls fall back to memory. */
  lemma CacheThenGetUnavailable<T>(c: TtlCache<T>, key: string, data: T, expiry: int, t: int, now: int)
    ensures GetCachedData(CacheData(c, key, data, expiry, t, Unavailable), key, now, Unavailable).0
            == (if now - t <= expiry then Some(data) else None)
  {
  }

  /** Defect as written: with a full localStorage the value goes to memory, but the read does not
      throw, finds no storage entry and never looks in memory, so the value is lost. */
  lemma QuotaFallbackUnreadable<T>(c: TtlCache<T>, key: string, data: T, expiry: int, t: int)
    requires StorageKey(key) !in c.storage
    ensures GetCachedData(CacheData(c, key, data, expiry, t, QuotaExceeded), key, t, QuotaExceeded).0
            == None
  {
  }

  /** The evidently intended read: memory is also consulted when localStorage holds no entry. */
  function LookupFixed<T>(c: TtlCache<T>, key: string, b: Backend): Option<CacheItem<T>> {
    if !CanRead(b) then MapGet(c.memory, key)
    else if StorageKey(key) !in c.storage then MapGet(c.memory, key)
    else match c.storage[StorageKey(key)]
      case Corrupt => MapGet(c.memory, key)
      case Entry(item) => Some(item)
  }

  /** `getCachedData` with the intended fallback. */
  function GetCachedDataFixed<T>(c: TtlCache<T>, key: string, now: int, b: Backend)
    : (r: (Option<T>, TtlCache<T>))
    ensures r.0.Some? <==> LookupFixed(c, key, b).Some? && !Expired(LookupFixed(c, key, b).value, now)
    ensures r.0.Some? ==> r.0.value == LookupFixed(c, key, b).value.data
  {
    match LookupFixed(c, key, b)
    case None => (None, c)
    case Some(item) =>
      if Expired(item, now) then (None, RemoveCachedData(c, key, b)) else (Some(item.data), c)
  }

  /** With the intended read the fallback works for every store condition: a value cached where
      storage held no entry for the key is read back while it is fresh. */
  lemma CacheThenGetFixed<T>(c: TtlCache<T>, key: string, data: T, expiry: int, t: int, now: int,
                             b: Backend)
    requires StorageKey(key) !in c.storage
    ensures GetCachedDataFixed(CacheData(c, key, data, expiry, t, b), key, now, b).0
            == (if now - t <= expiry then Some(data) else None)
  {
  }

  /** `cleanExpiredCache` decides a stored entry's fate this way: corrupt text or a stale item goes. */
  predicate Doomed<T>(s: Stored<T>, now: int) {
    match s
    case Corrupt => true
    case Entry(item) => Expired(item, now)
  }

  /** `cleanExpiredCache`: among `cache_` keys, corrupt or stale entries are deleted, as are stale
      memory items; nothing else is touched. With localStorage unavailable the sweep throws before
      changing anything. */
  function CleanExpiredCache<T>(c: TtlCache<T>, now: int, b: Backend): (c': TtlCache<T>)
    ensures !CanRead(b) ==> c' == c
    ensures CanRead(b) ==> forall k :: k in c'.storage <==>
                             k in c.storage && !(StartsWith(k, CachePrefix) && Doomed(c.storage[k], now))
    ensures CanRead(b) ==> forall k :: k in c'.memory <==> k in c.memory && !Expired(c.memory[k], now)
    ensures forall k :: k in c'.storage ==> c'.storage[k] == c.storage[k]
    ensures forall k :: k in c'.memory ==> c'.memory[k] == c.memory[k]
  {
    if !CanRead(b) then c
    else
      TtlCache(
        map k | k in c.storage && !(StartsWith(k, CachePrefix) && Doomed(c.storage[k], now)) :: c.storage[k],
        map k | k in c.memory && !Expired(c.memory[k], now) :: c.memory[k])
  }

  /** The sweep is invisible to readers: for any key whose storage text is not corrupt, a read
      after the sweep returns what a read before it would have. */
  lemma CleanPreservesReads<T>(c: TtlCache<T>, key: string, now: int, b: Backend)
    requires StorageKey(key) !in c.storage || c.storage[StorageKey(key)] != Corrupt
    ensures GetCachedData(CleanExpiredCache(c, now, b), key, now, b).0 == GetCachedData(c, key, now, b).0
  {
    assert StartsWith(StorageKey(key), CachePrefix);
  }

  // ---------------------------------------------------------------------------------------------
  // Sync queue

  /** A queued user action; `id` (clock plus a random fraction) is supplied by the caller. */
  datatype SyncItem<T> = SyncItem(id: int, action: string, data: T, timestamp: int)

  /** The text stored under `syncQueue`. */
  datatype SavedQueue<T> = CorruptQueue | QueueJson(items: seq<SyncItem<T>>)

  /** The manager's connection flag, its in-memory queue, and the persisted copy (if any). */
  datatype Manager<T> = Manager(isOnline: bool, queue: seq<SyncItem<T>>, saved: Option<SavedQueue<T>>)

  /** `saveSyncQueue`: best effort; a failed write leaves the previous persisted copy. */
  function SaveSyncQueue<T>(m: Manager<T>, b: Backend): (m': Manager<T>)
    ensures m'.queue == m.queue && m'.isOnline == m.isOnline
    ensures CanWrite(b) ==> m'.saved == Some(QueueJson(m.queue))
    ensures !CanWrite(b) ==> m'.saved == m.saved
  {
    if CanWrite(b) then m.(saved := Some(QueueJson(m.queue))) else m
  }

  /** `loadSyncQueue`: a stored queue replaces the in-memory one; unparsable text or an unreadable
      store empties it; no stored text leaves it alone. */
  function LoadSyncQueue<T>(m: Manager<T>, b: Backend): (m': Manager<T>)
    ensures m'.isOnline == m.isOnline && m'.saved == m.saved
    ensures !CanRead(b) ==> m'.queue == []
    ensures CanRead(b) && m.saved == None ==> m'.queue == m.queue
    ensures CanRead(b) && m.saved == Some(CorruptQueue) ==> m'.queue == []
    ensures CanRead(b) && m.saved.Some? && m.saved.value.QueueJson? ==> m'.queue == m.saved.value.items
  {
    if !CanRead(b) then m.(queue := [])
    else match m.saved
      case None => m
      case Some(CorruptQueue) => m.(queue := [])
      case Some(QueueJson(items)) => m.(queue := items)
  }

  /** Saving then loading (a new page) restores the queue. */
  lemma SaveThenLoad<T>(m: Manager<T>, other: seq<SyncItem<T>>)
    ensures LoadSyncQueue(SaveSyncQueue(m, Working).(queue := other), Working).queue == m.queue
  {
  }

  /** `addToSyncQueue`: one item at the back, earlier items untouched, then a save; a save that
      fails is only logged, so the stored copy stays as it was. */
  function AddToSyncQueue<T>(m: Manager<T>, action: string, data: T, id: int, now: int, b: Backend)
    : (m': Manager<T>)
    ensures |m'.queue| == |m.queue| + 1
    ensures m'.queue[..|m.queue|] == m.queue
    ensures m'.queue[|m.queue|] == SyncItem(id, action, data, now)
    ensures m'.isOnline == m.isOnline
    ensures CanWrite(b) ==> m'.saved == Some(QueueJson(m'.queue))
    ensures !CanWrite(b) ==> m'.saved == m.saved
  {
    SaveSyncQueue(m.(queue := m.queue + [SyncItem(id, action, data, now)]), b)
  }

  /** The network outcome of the i-th replay of a drain: success only where one is given. */
  predicate Delivered(ok: seq<bool>, i: nat) {
    i < |ok| && ok[i]
  }

  /** `processSyncItem`: an unknown action throws; a known one succeeds iff its POST succeeds. */
  predicate ProcessSyncItem<T>(item: SyncItem<T>, delivered: bool) {
    item.action in KnownActions && delivered
  }

  /** An unknown action can never be replayed successfully. */
  lemma UnknownActionFails<T>(item: SyncItem<T>, delivered: bool)
    requires item.action !in KnownActions
    ensures !ProcessSyncItem(item, delivered)
  {
  }

  /** The items among the first `n` whose replay fails, in queue order. */
  function FailedUpTo<T>(q: seq<SyncItem<T>>, ok: seq<bool>, n: nat): seq<SyncItem<T>>
    requires n <= |q|
  {
    if n == 0 then []
    else FailedUpTo(q, ok, n - 1) + (if ProcessSyncItem(q[n - 1], Delivered(ok, n - 1)) then [] else [q[n - 1]])
  }

  /** The drain loop of `syncOfflineData`: every item is tried once, in order; failures are collected. */
  method Drain<T>(q: seq<SyncItem<T>>, ok: seq<bool>) returns (failed: seq<SyncItem<T>>)
    ensures failed == FailedUpTo(q, ok, |q|)
    ensures |failed| <= |q|
  {
    failed := [];
    var i := 0;
    while i < |q|
      invariant 0 <= i <= |q|
      invariant failed == FailedUpTo(q, ok, i)
      invariant |failed| <= i
    {
      if !ProcessSyncItem(q[i], Delivered(ok, i)) {
        failed := failed + [q[i]];
      }
      i := i + 1;
    }
  }

  /** `syncOfflineData`: nothing happens offline or with an empty queue; otherwise the queue becomes
      exactly the items whose replay failed, and is saved. Also yields the failure count shown. */
  function SyncOfflineData<T>(m: Manager<T>, ok: seq<bool>, b: Backend): (r: (Manager<T>, nat))
    ensures !m.isOnline || m.queue == [] ==> r == (m, 0)
    ensures m.isOnline && m.queue != [] ==> r.0.queue == FailedUpTo(m.queue, ok, |m.queue|)
    ensures r.1 == |r.0.queue| || r.0 == m
    ensures r.0.isOnline == m.isOnline
  {
    if !m.isOnline || m.queue == [] then (m, 0)
    else
      var failed := FailedUpTo(m.queue, ok, |m.queue|);
      (SaveSyncQueue(m.(queue := failed), b), |failed|)
  }

  /** The positions of the failed replays among the first `n`, ascending. */
  function FailedPositions<T>(q: seq<SyncItem<T>>, ok: seq<bool>, n: nat): seq<nat>
    requires n <= |q|
  {
    if n == 0 then []
    else FailedPositions(q, ok, n - 1) + (if ProcessSyncItem(q[n - 1], Delivered(ok, n - 1)) then [] else [n - 1])
  }

  /** The drain result is the queue restricted to the failed positions: a subsequence in original
      order made of exactly the items whose own replay failed. */
  lemma {:induction false} FailedIsOrderedSubsequence<T>(q: seq<SyncItem<T>>, ok: seq<bool>, n: nat)
    requires n <= |q|
    ensures var idx := FailedPositions(q, ok, n);
      && |idx| == |FailedUpTo(q, ok, n)|
      && (forall j :: 0 <= j < |idx| ==> idx[j] < n && FailedUpTo(q, ok, n)[j] == q[idx[j]])
      && (forall j, k :: 0 <= j < k < |idx| ==> idx[j] < idx[k])
      && (forall i :: 0 <= i < n ==> (i in idx <==> !ProcessSyncItem(q[i], Delivered(ok, i))))
  {
    if n > 0 {
      FailedIsOrderedSubsequence(q, ok, n - 1);
    }
  }

  /** When every replay succeeds the queue ends empty. */
  lemma {:induction false} AllDeliveredEmpties<T>(q: seq<SyncItem<T>>, ok: seq<bool>, n: nat)
    requires n <= |q|
    requires forall i :: 0 <= i < n ==> q[i].action in KnownActions && Delivered(ok, i)
    ensures FailedUpTo(q, ok, n) == []
  {
    if n > 0 {
      AllDeliveredEmpties(q, ok, n - 1);
    }
  }

  /** An item with an unknown action survives every drain. */
  lemma {:induction false} UnknownStaysQueued<T>(q: seq<SyncItem<T>>, ok: seq<bool>, n: nat, i: nat)
    requires i < n <= |q| && q[i].action !in KnownActions
    ensures q[i] in FailedUpTo(q, ok, n)
  {
    if i < n - 1 {
      UnknownStaysQueued(q, ok, n - 1, i);
    }
  }

  /** What `handleOfflineAction` resolves or rejects with. */
  datatype ActionResult = Sent | SavedOffline | Rejected

  /** `executeOnlineAction`: a known action whose POST succeeds is sent; any failure (an unknown
      action included) queues the action and rethrows. */
  function ExecuteOnlineAction<T>(m: Manager<T>, action: string, data: T, id: int, now: int,
                                  delivered: bool, b: Backend): (r: (Manager<T>, ActionResult))
    ensures r.1 == Sent <==> action in KnownActions && delivered
    ensures r.1 == Sent ==> r.0 == m
    ensures r.1 == Rejected ==> r.0 == AddToSyncQueue(m, action, data, id, now, b)
    ensures r.1 != SavedOffline
  {
    if action in KnownActions && delivered then (m, Sent)
    else (AddToSyncQueue(m, action, data, id, now, b), Rejected)
  }

  /** `handleOfflineAction`: offline, the action is queued and acknowledged at once without any
      network call; online it is executed directly. */
  function HandleOfflineAction<T>(m: Manager<T>, action: string, data: T, id: int, now: int,
                                  delivered: bool, b: Backend): (r: (Manager<T>, ActionResult))
    ensures !m.isOnline ==> r == (AddToSyncQueue(m, action, data, id, now, b), SavedOffline)
    ensures m.isOnline ==> r.1 != SavedOffline
    ensures r.1 == Sent || |r.0.queue| == |m.queue| + 1
  {
    if m.isOnline then ExecuteOnlineAction(m, action, data, id, now, delivered, b)
    else (AddToSyncQueue(m, action, data, id, now, b), SavedOffline)
  }

  /** Offline, the network outcome plays no part in the result. */
  lemma OfflineNeedsNoNetwork<T>(m: Manager<T>, action: string, data: T, id: int, now: int, b: Backend)
    requires !m.isOnline
    ensures HandleOfflineAction(m, action, data, id, now, true, b)
            == HandleOfflineAction(m, action, data, id, now, false, b)
  {
  }

  /** The `online` listener: set the flag, then drain. */
  function GoOnline<T>(m: Manager<T>, ok: seq<bool>, b: Backend): (r: (Manager<T>, nat))
    ensures r.0.isOnline
    ensures m.queue == [] ==> r == (m.(isOnline := true), 0)
    ensures m.queue != [] ==> r.0.queue == FailedUpTo(m.queue, ok, |m.queue|) && r.1 == |r.0.queue|
    ensures m.queue != [] && CanWrite(b) ==> r.0.saved == Some(QueueJson(r.0.queue))
    ensures m.queue != [] && !CanWrite(b) ==> r.0.saved == m.saved
  {
    SyncOfflineData(m.(isOnline := true), ok, b)
  }

  /** An action taken offline is replayed once on reconnection and, when that replay succeeds,
      leaves nothing queued. */
  lemma OfflineActionReplayedOnReconnect<T>(m: Manager<T>, action: string, data: T, id: int, now: int,
                                             b: Backend)
    requires !m.isOnline && m.queue == [] && action in KnownActions
    ensures var (m1, res) := HandleOfflineAction(m, action, data, id, now, false, b);
            res == SavedOffline && m1.queue == [SyncItem(id, action, data, now)]
            && GoOnline(m1, [true], b).0.queue == []
            && GoOnline(m1, [false], b).0.queue == m1.queue
  {
    var m1 := HandleOfflineAction(m, action, data, id, now, false, b).0;
    assert m1.queue == [SyncItem(id, action, data, now)];
    assert FailedUpTo(m1.queue, [true], 1) == [];
    assert FailedUpTo(m1.queue, [false], 1) == m1.queue;
  }
}

=== FILE: payment.dfy ===
/** The payment page's pure logic: the card, expiry and CVV input normalisers, the expiry and card
    form checks, the amount shown and charged, the pay button, the request check before sending,
    the masked card number, and the membership granted after a successful payment with its status
    check. The form's fields are passed in as strings; today's two-digit year and month and the
    clock are parameters. */
module Payment {
  import opened Values
  import opened Strings
  import Subscription
  import Security

  const DayMs: int := 86400000

  // ---------------------------------------------------------------------------------------------
  // input normalisers

  /** The digit string cut into groups of four joined by single spaces. */
  function Group4(d: string): (r: string)
    decreases |d|
  {
    if |d| <= 4 then d else d[..4] + " " + Group4(d[4..])
  }

  /** The card-number field after an input event: whitespace and non-digits dropped, then grouped
      by four (an empty value stays empty). */
  function FormatCardNumber(input: string): (r: string)
    ensures forall i :: 0 <= i < |r| ==> (r[i] == ' ' <==> i % 5 == 4)
    ensures forall i :: 0 <= i < |r| && r[i] != ' ' ==> IsDigit(r[i])
  {
    GroupShape(Digits(StripWhitespace(input)));
    Group4(Digits(StripWhitespace(input)))
  }

  lemma {:induction false} GroupShape(d: string)
    requires AllDigits(d)
    ensures forall i :: 0 <= i < |Group4(d)| ==> (Group4(d)[i] == ' ' <==> i % 5 == 4)
    ensures forall i :: 0 <= i < |Group4(d)| && Group4(d)[i] != ' ' ==> IsDigit(Group4(d)[i])
    decreases |d|
  {
    if |d| > 4 {
      var rest := Group4(d[4..]);
      GroupShape(d[4..]);
      var r := Group4(d);
      assert r == d[..4] + " " + rest;
      forall i | 0 <= i < |r| ensures (r[i] == ' ' <==> i % 5 == 4) && (r[i] != ' ' ==> IsDigit(r[i])) {
        if i >= 5 {
          assert r[i] == rest[i - 5];
        }
      }
    }
  }

  /** Removing the spaces of a formatted card number gives back exactly the digits typed, and
      formatting again changes nothing. */
  lemma CardNumberRoundTrip(input: string)
    ensures StripWhitespace(FormatCardNumber(input)) == Digits(input)
    ensures FormatCardNumber(FormatCardNumber(input)) == FormatCardNumber(input)
  {
    var d := Digits(StripWhitespace(input));
    DigitsStrip(input);
    StripGroup(d);
    DigitsOfDigits(d);
  }

  lemma {:induction false} StripGroup(d: string)
    requires AllDigits(d)
    ensures StripWhitespace(Group4(d)) == d
    decreases |d|
  {
    if |d| <= 4 {
      StripDigits(d);
    } else {
      var head, tail := d[..4], d[4..];
      assert AllDigits(tail) && AllDigits(head);
      StripGroup(tail);
      assert Group4(d) == head + (" " + Group4(tail));
      StripJoined(head, Group4(tail), tail);
      assert head + tail == d;
    }
  }

  /** Stripping a digit group, a space and text that strips to `tail` leaves the group and `tail`. */
  lemma StripJoined(head: string, g: string, tail: string)
    requires AllDigits(head) && StripWhitespace(g) == tail
    ensures StripWhitespace(head + (" " + g)) == head + tail
  {
    StripAppend(head, " " + g);
    StripAppend(" ", g);
    StripDigits(head);
    assert StripWhitespace(" ") == [];
  }

  lemma {:induction false} StripAppend(a: string, b: string)
    ensures StripWhitespace(a + b) == StripWhitespace(a) + StripWhitespace(b)
  {
    if a == [] {
      assert a + b == b;
    } else {
      assert (a + b)[1..] == a[1..] + b;
      StripAppend(a[1..], b);
    }
  }

  lemma {:induction false} StripDigits(d: string)
    requires AllDigits(d)
    ensures StripWhitespace(d) == d
  {
    if d != [] {
      StripDigits(d[1..]);
    }
  }

  /** Whitespace is never a digit, so dropping it first changes no digit filter. */
  lemma {:induction false} DigitsStrip(s: string)
    ensures Digits(StripWhitespace(s)) == Digits(s)
  {
    if s != [] {
      DigitsStrip(s[1..]);
      var rest := StripWhitespace(s[1..]);
      if IsWhitespace(s[0]) {
        assert !IsDigit(s[0]);
        assert StripWhitespace(s) == rest;
      } else {
        var t := [s[0]] + rest;
        assert StripWhitespace(s) == t;
        assert t[0] == s[0] && t[1..] == rest;
      }
    }
  }

  /** The expiry field after an input event: digits only; from two digits on, `MM/` followed by
      at most two more digits (`substring(2, 4)`, which stops at the end of a shorter string). */
  function FormatExpiry(input: string): (r: string)
    ensures |Digits(input)| < 2 ==> r == Digits(input)
    ensures |Digits(input)| >= 2 ==>
              && 3 <= |r| <= 5 && r[2] == '/'
              && r[..2] == Digits(input)[..2]
              && r[3..] == Digits(input)[2..ExpiryEnd(Digits(input))]
  {
    var v := Digits(input);
    if |v| >= 2 then
      var r := v[..2] + "/" + v[2..ExpiryEnd(v)];
      assert r[3..] == v[2..ExpiryEnd(v)];
      r
    else v
  }

  function ExpiryEnd(v: string): nat {
    if |v| < 4 then |v| else 4
  }

  /** `/^\d{2}\/\d{2}$/` */
  predicate ExpiryShape(e: string) {
    |e| == 5 && IsDigit(e[0]) && IsDigit(e[1]) && e[2] == '/' && IsDigit(e[3]) && IsDigit(e[4])
  }

  /** The expiry normaliser yields a complete `MM/YY` exactly when four or more digits were typed,
      and normalising again changes nothing. */
  lemma ExpiryFormatShape(input: string)
    ensures ExpiryShape(FormatExpiry(input)) <==> |Digits(input)| >= 4
    ensures FormatExpiry(FormatExpiry(input)) == FormatExpiry(input)
  {
    var v := Digits(input);
    ExpiryDigits(input);
    if |v| >= 2 {
      var w := v[..ExpiryEnd(v)];
      assert w[..2] == v[..2];
      assert w[2..ExpiryEnd(w)] == v[2..ExpiryEnd(v)];
    } else {
      DigitsOfDigits(v);
    }
  }

  /** The digits of a normalised expiry are the first four digits typed. */
  lemma ExpiryDigits(input: string)
    ensures Digits(FormatExpiry(input)) == Digits(input)[..ExpiryEnd(Digits(input))]
  {
    var v := Digits(input);
    if |v| >= 2 {
      var head := v[..2];
      var tail := v[2..ExpiryEnd(v)];
      assert AllDigits(head) && AllDigits(tail);
      assert FormatExpiry(input) == head + ("/" + tail);
      DigitsAppend(head, "/" + tail);
      DigitsAppend("/", tail);
      assert Digits("/") == [];
      DigitsOfDigits(head);
      DigitsOfDigits(tail);
      assert head + tail == v[..ExpiryEnd(v)];
    } else {
      DigitsOfDigits(v);
    }
  }

  /** The CVV field after an input event: every non-digit dropped, every digit kept, in order
      (the handler sets no length cap). */
  function FormatCvv(input: string): (r: string)
    ensures AllDigits(r) && |r| <= |input|
    ensures AllDigits(input) ==> r == input
    ensures forall c :: IsDigit(c) ==> multiset(r)[c] == multiset(input)[c]
  {
    DigitsCount(input);
    DigitsOfDigits(input);
    Digits(input)
  }

  /** Filtering digits keeps each digit as often as it occurs. */
  lemma {:induction false} DigitsCount(s: string)
    ensures forall c :: IsDigit(c) ==> multiset(Digits(s))[c] == multiset(s)[c]
  {
    if s != [] {
      DigitsCount(s[1..]);
      assert s == [s[0]] + s[1..];
      DigitsAppend([s[0]], s[1..]);
      assert multiset(s) == multiset([s[0]]) + multiset(s[1..]);
      if IsDigit(s[0]) {
        DigitsOfDigits([s[0]]);
      } else {
        assert Digits([s[0]]) == [];
      }
      assert multiset(Digits(s)) == multiset(Digits([s[0]])) + multiset(Digits(s[1..]));
    }
  }

  /** The CVV normaliser works piece by piece: what it does to typed text is what it does to each
      part, so pasting into the field keeps the digits on both sides. */
  lemma CvvAppend(a: string, b: string)
    ensures FormatCvv(a + b) == FormatCvv(a) + FormatCvv(b)
  {
    DigitsAppend(a, b);
  }

  /** Normalising a CVV again changes nothing. */
  lemma CvvIdempotent(input: string)
    ensures FormatCvv(FormatCvv(input)) == FormatCvv(input)
  {
    DigitsOfDigits(Digits(input));
  }

  // ---------------------------------------------------------------------------------------------
  // expiry and card form checks

  /** `isValidExpiryDate(expiry)` against the two-digit `currentYear` and `currentMonth`: each half
      of the split is read with `parseInt`; a missing or unreadable half (NaN) fails every test. */
  function IsValidExpiryDate(expiry: string, currentYear: int, currentMonth: int): (b: bool)
  {
    var parts := Split(expiry, '/');
    var month := ParseInt(parts[0]);
    var year := if |parts| > 1 then ParseInt(parts[1]) else None;
    NotExpired(month, year, currentYear, currentMonth)
  }

  predicate NotExpired(month: Option<int>, year: Option<int>, currentYear: int, currentMonth: int) {
    month.Some? && 1 <= month.value <= 12 && year.Some?
    && (year.value > currentYear || (year.value == currentYear && month.value >= currentMonth))
  }

  /** On a well-formed `MM/YY` the check reads the two numbers: valid iff the month is 1..12 and
      the card runs to a later year, or to this year at this month or later. */
  lemma ExpiryCheckOnShape(e: string, currentYear: int, currentMonth: int)
    requires ExpiryShape(e)
    ensures var m := DigitsValue(e[..2]);
            var y := DigitsValue(e[3..]);
            IsValidExpiryDate(e, currentYear, currentMonth) <==>
              1 <= m <= 12 && (y > currentYear || (y == currentYear && m >= currentMonth))
  {
    var mm := e[..2];
    var yy := e[3..];
    assert e == mm + "/" + yy;
    SplitNoSep(yy, '/');
    SplitAt(mm, yy, '/');
    var parts := Split(e, '/');
    assert parts == [mm, yy];
    DigitsOfAllDigits(mm);
    DigitsOfAllDigits(yy);
    assert IsValidExpiryDate(e, currentYear, currentMonth)
        == NotExpired(Some(DigitsValue(mm)), Some(DigitsValue(yy)), currentYear, currentMonth);
  }

  lemma {:induction false} SplitNoSep(s: string, sep: char)
    requires sep !in s
    ensures Split(s, sep) == [s]
  {
    if s != [] {
      SplitNoSep(s[1..], sep);
      assert [s[0]] + s[1..] == s;
    }
  }

  lemma {:induction false} SplitAt(a: string, b: string, sep: char)
    requires sep !in a
    ensures Split(a + [sep] + b, sep) == [a] + Split(b, sep)
  {
    var s := a + [sep] + b;
    if a == [] {
      assert s[1..] == b;
    } else {
      assert s[1..] == a[1..] + [sep] + b;
      SplitAt(a[1..], b, sep);
      assert [a[0]] + a[1..] == a;
    }
  }

  datatype Method = Alipay | Wechat | Card | OtherMethod(name: string)

  /** The card form as typed. */
  datatype CardForm = CardForm(cardholderName: string, cardNumber: string, expiryDate: string, cvv: string)

  /** `validateCardForm`: anything but card passes; for card, a trimmed name of two or more
      characters, thirteen or more non-space characters of number, a current `MM/YY` expiry and a
      CVV of three or more characters. */
  function ValidateCardForm(m: Method, f: CardForm, currentYear: int, currentMonth: int): (b: bool)
    ensures m != Card ==> b
    ensures m == Card && b ==> ExpiryShape(f.expiryDate) && |f.cvv| >= 3 && |StripWhitespace(f.cardNumber)| >= 13
  {
    if m != Card then true
    else
      var name := Trim(f.cardholderName);
      var number := StripWhitespace(f.cardNumber);
      |name| >= 2 && |number| >= 13
      && ExpiryShape(f.expiryDate) && IsValidExpiryDate(f.expiryDate, currentYear, currentMonth)
      && |f.cvv| >= 3
  }

  /** A form filled through the three normalisers passes iff the name is long enough, at least
      thirteen card digits, four expiry digits naming a current month, and three CVV digits were
      typed. */
  lemma NormalisedFormCheck(name: string, rawNumber: string, rawExpiry: string, rawCvv: string,
                            currentYear: int, currentMonth: int)
    ensures var v := Digits(rawExpiry);
            var f := CardForm(name, FormatCardNumber(rawNumber), FormatExpiry(rawExpiry), FormatCvv(rawCvv));
            ValidateCardForm(Card, f, currentYear, currentMonth) <==>
              && |Trim(name)| >= 2 && |Digits(rawNumber)| >= 13 && |v| >= 4
              && 1 <= DigitsValue(v[..2]) <= 12
              && (DigitsValue(v[2..4]) > currentYear
                  || (DigitsValue(v[2..4]) == currentYear && DigitsValue(v[..2]) >= currentMonth))
              && |Digits(rawCvv)| >= 3
  {
    CardNumberRoundTrip(rawNumber);
    ExpiryFormatShape(rawExpiry);
    var e := FormatExpiry(rawExpiry);
    var v := Digits(rawExpiry);
    if ExpiryShape(e) {
      ExpiryCheckOnShape(e, currentYear, currentMonth);
      assert e[..2] == v[..2];
      assert e[3..] == v[2..4];
    }
  }

  // ---------------------------------------------------------------------------------------------
  // amount, pay button and request

  datatype Tab = SubscriptionTab | DonationTab

  /** The page's selection: plan, donation (`Some("custom")` for a typed amount), the typed amount
      and the payment method. */
  datatype Selection = Selection(tab: Tab, plan: Option<Subscription.Plan>, donation: Option<string>,
                                 customAmount: int, paymentMethod: Method)

  predicate IsCustom(s: Selection) {
    s.donation == Some("custom")
  }

  /** `this.selectedDonation` is truthy: a donation option is selected and it is not `""`. */
  predicate DonationPicked(s: Selection) {
    s.donation.Some? && s.donation.value != []
  }

  /** `getCurrentAmount`: `None` stands for `NaN` (a donation option that does not read as a number). */
  function GetCurrentAmount(s: Selection): (r: Option<int>)
    ensures s.tab == SubscriptionTab && s.plan.Some? ==> r == Some(Subscription.Price(s.plan.value))
    ensures s.tab == DonationTab && DonationPicked(s) ==>
              r == (if IsCustom(s) then Some(s.customAmount) else ParseInt(s.donation.value))
    ensures (s.tab == SubscriptionTab && s.plan.None?) || (s.tab == DonationTab && !DonationPicked(s)) ==>
              r == Some(0)
  {
    if s.tab == SubscriptionTab && s.plan.Some? then Some(Subscription.Price(s.plan.value))
    else if s.tab == DonationTab && DonationPicked(s) then
      (if IsCustom(s) then Some(s.customAmount) else ParseInt(s.donation.value))
    else Some(0)
  }

  /** A payable choice: a plan on the subscription tab, or a fixed donation, or a custom donation
      with a positive amount, on the donation tab. */
  predicate Chosen(s: Selection) {
    match s.tab
    case SubscriptionTab => s.plan.Some?
    case DonationTab => DonationPicked(s) && (IsCustom(s) ==> s.customAmount > 0)
  }

  /** `updatePayButton`: `cardFormOk` is `validateCardForm()` at the moment of the update. */
  function UpdatePayButton(s: Selection, cardFormOk: bool, isProcessing: bool): (b: Subscription.Button)
    ensures !b.disabled <==> Chosen(s) && !isProcessing && (s.paymentMethod == Card ==> cardFormOk)
    ensures s.tab == SubscriptionTab && s.plan.Some? ==>
              b.caption == "支付 ¥" + NatToString(Subscription.Price(s.plan.value))
    ensures s.tab == DonationTab && DonationPicked(s) && !IsCustom(s) ==> b.caption == "捐赠 ¥" + s.donation.value
    ensures s.tab == DonationTab && IsCustom(s) ==>
              b.caption == (if s.customAmount > 0 then "捐赠 ¥" + IntToString(s.customAmount) else "请输入金额")
    ensures !(s.tab == SubscriptionTab && s.plan.Some?) && !(s.tab == DonationTab && DonationPicked(s)) ==>
              b.caption == "请选择计划"
  {
    var (enabled, text) :=
      if s.tab == SubscriptionTab && s.plan.Some? then
        (true, "支付 ¥" + NatToString(Subscription.Price(s.plan.value)))
      else if s.tab == DonationTab && DonationPicked(s) then
        if IsCustom(s) then
          (s.customAmount > 0, if s.customAmount > 0 then "捐赠 ¥" + IntToString(s.customAmount) else "请输入金额")
        else (true, "捐赠 ¥" + s.donation.value)
      else (false, "请选择计划");
    var enabled' := if enabled && s.paymentMethod == Card then cardFormOk else enabled;
    Subscription.Button(!enabled' || isProcessing, text)
  }

  /** The request `preparePaymentData` builds; absent fields are empty or `None`. */
  datatype PayRequest = PayRequest(kind: string, paymentMethod: string, amount: Option<int>,
                                   plan: string, donationType: string)

  function MethodKey(m: Method): string {
    match m
    case Alipay => "alipay"
    case Wechat => "wechat"
    case Card => "card"
    case OtherMethod(n) => n
  }

  /** `preparePaymentData` (without the timestamp, user agent, description and card details). */
  function PreparePaymentData(s: Selection): (r: PayRequest)
    ensures (s.tab == SubscriptionTab && s.plan.Some?) || (s.tab == DonationTab && DonationPicked(s)) ==>
              r.amount == GetCurrentAmount(s)
    ensures s.tab == DonationTab && s.donation.Some? ==>
              r.amount == (if IsCustom(s) then Some(s.customAmount) else ParseInt(s.donation.value))
    ensures s.tab == DonationTab && s.donation.None? ==> r.amount.None?
    ensures s.tab == SubscriptionTab && s.plan.None? ==> r.amount.None? && r.plan == []
    ensures s.tab == SubscriptionTab && s.plan.Some? ==> r.plan == Subscription.PlanKey(s.plan.value)
    ensures s.tab == DonationTab ==> r.plan == [] && r.kind == "donation"
  {
    match s.tab
    case SubscriptionTab =>
      PayRequest("subscription", MethodKey(s.paymentMethod),
                 if s.plan.Some? then Some(Subscription.Price(s.plan.value)) else None,
                 if s.plan.Some? then Subscription.PlanKey(s.plan.value) else [], [])
    case DonationTab =>
      var amount := if s.donation.None? then None
                    else if IsCustom(s) then Some(s.customAmount) else ParseInt(s.donation.value);
      PayRequest("donation", MethodKey(s.paymentMethod), amount, [], s.donation.GetOr([]))
  }

  /** `validatePaymentData`: type, method and a positive amount are required, and a subscription
      needs its plan, a donation its donation type. */
  function ValidatePaymentData(data: PayRequest): (b: bool)
    ensures b <==> && data.kind != [] && data.paymentMethod != []
                   && data.amount.Some? && data.amount.value > 0
                   && !(data.kind == "subscription" && data.plan == [])
                   && !(data.kind == "donation" && data.donationType == [])
  {
    if data.kind == [] || data.paymentMethod == [] || data.amount.None? || data.amount.value == 0
       || data.amount.value <= 0 then false
    else if data.kind == "subscription" && data.plan == [] then false
    else if data.kind == "donation" && data.donationType == [] then false
    else true
  }

  /** The request the page builds passes the check exactly when a method with a name is chosen
      and either a plan is chosen on the subscription tab, or a donation option whose amount reads
      as a positive number is chosen on the donation tab. */
  lemma PreparedRequestValid(s: Selection)
    ensures ValidatePaymentData(PreparePaymentData(s)) <==>
              && MethodKey(s.paymentMethod) != []
              && (s.tab == SubscriptionTab ==> s.plan.Some?)
              && (s.tab == DonationTab ==>
                    DonationPicked(s) && GetCurrentAmount(s).Some? && GetCurrentAmount(s).value > 0)
  {
    if s.tab == DonationTab && s.donation.Some? && s.donation.value == [] && !IsCustom(s) {
      assert DigitPrefix(Unsigned(TrimStart(s.donation.value))) == [];
    }
  }

  /** Whenever the pay button is enabled for a plan or a typed amount, or for a donation option that
      reads as a positive number, the request built from the selection passes the check; and the
      amount charged is the amount shown by `getCurrentAmount`. */
  lemma EnabledButtonGivesValidRequest(s: Selection, cardFormOk: bool)
    requires !UpdatePayButton(s, cardFormOk, false).disabled
    requires s.paymentMethod != OtherMethod([])
    requires s.tab == DonationTab && !IsCustom(s) ==> ParseInt(s.donation.value).Some? && ParseInt(s.donation.value).value > 0
    ensures ValidatePaymentData(PreparePaymentData(s))
    ensures PreparePaymentData(s).amount == GetCurrentAmount(s)
  {
  }

  // ---------------------------------------------------------------------------------------------
  // masked card number

  /** `maskedNumber`: the first six characters, six stars, the last four. */
  function MaskedNumber(cardNumber: string): (r: string)
    ensures |cardNumber| >= 10 ==>
              r == cardNumber[..6] + "******" + cardNumber[|cardNumber| - 4..]
  {
    Substring(cardNumber, 0, 6) + "******" + Substring(cardNumber, |cardNumber| - 4, |cardNumber|)
  }

  /** A card number of ten or more digits keeps ten visible digits when masked, so the security
      check's card-number test on the mask passes exactly when the card starts with 3, 4, 5 or 6. */
  lemma MaskedNumberPassesSecurityCheck(cardNumber: string)
    requires AllDigits(cardNumber) && |cardNumber| >= 10
    ensures Digits(MaskedNumber(cardNumber)) == cardNumber[..6] + cardNumber[|cardNumber| - 4..]
    ensures Security.IsValidCardNumber(MaskedNumber(cardNumber)) <==> cardNumber[0] in "3456"
  {
    var head := cardNumber[..6];
    var tail := cardNumber[|cardNumber| - 4..];
    DigitsAppend(head + "******", tail);
    DigitsAppend(head, "******");
    assert Digits("******") == [];
    DigitsOfDigits(head);
    DigitsOfDigits(tail);
    assert (head + tail)[0] == cardNumber[0];
  }

  // ---------------------------------------------------------------------------------------------
  // membership

  /** The stored payment record `activateMembership` reads. */
  datatype PaymentInfo = PaymentInfo(plan: string, donationType: string, amount: Option<int>)

  datatype Membership = Membership(paymentId: string, plan: string, amount: Option<int>, startDate: int,
                                   endDate: Option<int>)

  /** The two storage entries: `membership_info` and `user_membership_status`. */
  datatype MemberStore = MemberStore(info: Option<Membership>, status: string)

  /** How long a plan lasts: a year for annual, thirty days for basic and premium, and no end
      date for anything else (a donation). */
  function Duration(plan: string): Option<int> {
    if plan == "annual" then Some(365 * DayMs)
    else if plan == "premium" || plan == "basic" then Some(30 * DayMs)
    else None
  }

  /** `activateMembership(paymentId)` at `now`, given the payment's stored record (`None` when
      missing, which changes nothing). */
  function ActivateMembership(store: MemberStore, paymentId: string, payment: Option<PaymentInfo>, now: int)
    : (r: MemberStore)
    ensures payment.None? ==> r == store
    ensures payment.Some? ==>
              && r.status == "active" && r.info.Some?
              && r.info.value.startDate == now
              && r.info.value.plan == (if payment.value.plan != [] then payment.value.plan else payment.value.donationType)
              && (payment.value.plan == "annual" ==> r.info.value.endDate == Some(now + 365 * DayMs))
              && (payment.value.plan in ["basic", "premium"] ==> r.info.value.endDate == Some(now + 30 * DayMs))
              && (payment.value.plan !in ["basic", "premium", "annual"] ==> r.info.value.endDate.None?)
  {
    match payment
    case None => store
    case Some(p) =>
      var plan := if p.plan != [] then p.plan else p.donationType;
      var end := match Duration(p.plan) case Some(d) => Some(now + d) case None => None;
      MemberStore(Some(Membership(paymentId, plan, p.amount, now, end)), "active")
  }

  datatype MemberStatus = ActiveMember(plan: string, endDate: int, paymentId: string) | Lapsed | NoMembership

  /** `checkMembershipStatus` at `now`: active while the end date lies ahead; an active record past
      (or without) its end date is flipped to expired in storage. */
  function CheckMembershipStatus(store: MemberStore, now: int): (r: (MemberStatus, MemberStore))
    ensures r.0.ActiveMember? <==>
              store.info.Some? && store.status == "active" && store.info.value.endDate.Some?
              && store.info.value.endDate.value > now
    ensures r.0.Lapsed? <==> store.info.Some? && store.status == "active" && !r.0.ActiveMember?
    ensures r.0.Lapsed? ==> r.1 == store.(status := "expired")
    ensures !r.0.Lapsed? ==> r.1 == store
  {
    if store.info.Some? && store.status == "active" then
      var m := store.info.value;
      if m.endDate.Some? && m.endDate.value > now then (ActiveMember(m.plan, m.endDate.value, m.paymentId), store)
      else (Lapsed, store.(status := "expired"))
    else (NoMembership, store)
  }

  /** After a paid plan is activated at `start`, the membership is active exactly until its
      duration has passed; once lapsed it stays lapsed. */
  lemma MembershipLasts(store: MemberStore, paymentId: string, p: PaymentInfo, start: int, now: int, later: int)
    requires p.plan in ["basic", "premium", "annual"]
    requires now <= later
    ensures var s := ActivateMembership(store, paymentId, Some(p), start);
            var (st, s') := CheckMembershipStatus(s, now);
            && (st.ActiveMember? <==> now < start + Duration(p.plan).value)
            && (st.Lapsed? ==> CheckMembershipStatus(s', later).0 == NoMembership)
  {
  }

  /** A donation records an "active" membership without an end date, which the first status check
      reports as lapsed. */
  lemma DonationMembershipLapsesAtOnce(store: MemberStore, paymentId: string, p: PaymentInfo, start: int, now: int)
    requires p.plan == [] && p.donationType != []
    ensures CheckMembershipStatus(ActivateMembership(store, paymentId, Some(p), start), now).0 == Lapsed
  {
  }
}

=== FILE: performance.dfy ===
/** The performance helpers: the in-memory TTL cache, the lazy image loader's "already loaded"
    guard and its periodic trimming, and the throttle wrapper (shared, in the same form, by the
    general utilities). */
module Performance {
  import opened Values

  const DefaultTtl: int := 300000
  const LoadedImagesLimit: nat := 100
  const LoadedImagesTrim: nat := 50

  // ---------------------------------------------------------------------------------------------
  // TTL cache

  datatype CacheItem<T> = CacheItem(value: T, expiry: int)

  /** `setCache(key, value, ttl)` at `now`: an absent ttl means five minutes. */
  function SetCache<T>(cache: map<string, CacheItem<T>>, key: string, value: T, ttl: Option<int>, now: int)
    : (r: map<string, CacheItem<T>>)
    ensures key in r && r[key].value == value
    ensures r[key].expiry == now + ttl.GetOr(DefaultTtl)
    ensures forall k :: k != key ==> (k in r <==> k in cache) && (k in cache ==> r[k] == cache[k])
  {
    cache[key := CacheItem(value, now + ttl.GetOr(DefaultTtl))]
  }

  /** `getCache(key)` at `now`: the value while `now <= expiry`; an expired entry is deleted. */
  function GetCache<T>(cache: map<string, CacheItem<T>>, key: string, now: int)
    : (r: (Option<T>, map<string, CacheItem<T>>))
    ensures r.0.Some? <==> key in cache && now <= cache[key].expiry
    ensures r.0.Some? ==> r.0.value == cache[key].value && r.1 == cache
    ensures key in cache && now > cache[key].expiry ==> r.1 == cache - {key}
    ensures key !in cache ==> r.1 == cache
  {
    if key !in cache then (None, cache)
    else if now > cache[key].expiry then (None, cache - {key})
    else (Some(cache[key].value), cache)
  }

  /** `clearExpiredCache` at `now`: exactly the entries past their expiry are removed. */
  function ClearExpiredCache<T>(cache: map<string, CacheItem<T>>, now: int): (r: map<string, CacheItem<T>>)
    ensures forall k :: k in r <==> k in cache && now <= cache[k].expiry
    ensures forall k :: k in r ==> r[k] == cache[k]
  {
    map k | k in cache && now <= cache[k].expiry :: cache[k]
  }

  /** A stored value is read back until, and including, its expiry instant, and not after. */
  lemma SetThenGet<T>(cache: map<string, CacheItem<T>>, key: string, value: T, ttl: Option<int>, now: int, later: int)
    ensures var stored := SetCache(cache, key, value, ttl, now);
            GetCache(stored, key, later).0 == (if later <= now + ttl.GetOr(DefaultTtl) then Some(value) else None)
  {
  }

  /** Clearing expired entries never changes what a read at the same time or later returns. */
  lemma ClearExpiredPreservesReads<T>(cache: map<string, CacheItem<T>>, now: int, later: int, key: string)
    requires now <= later
    ensures GetCache(ClearExpiredCache(cache, now), key, later).0 == GetCache(cache, key, later).0
  {
  }

  /** Clearing twice is the same as clearing once. */
  lemma ClearExpiredIdempotent<T>(cache: map<string, CacheItem<T>>, now: int)
    ensures ClearExpiredCache(ClearExpiredCache(cache, now), now) == ClearExpiredCache(cache, now)
  {
  }

  // ---------------------------------------------------------------------------------------------
  // lazy images

  /** `loadedImages`: a JavaScript `Set`, so no repeats and insertion order. */
  predicate IsSet<T(==)>(s: seq<T>) {
    forall i, j :: 0 <= i < j < |s| ==> s[i] != s[j]
  }

  /** What `loadImage` did to the element. */
  datatype ImageEffect = Skipped | Loaded(src: string) | Failed

  /** `loadImage(img)` with its `data-src` (`None` when absent) and the preload outcome: skipped
      for an image already loaded or whose source is missing or empty (`!src` holds for `""`);
      otherwise, after success or failure alike, the image joins the loaded set. */
  function LoadImage<T(==)>(loaded: seq<T>, img: T, src: Option<string>, preloadOk: bool)
    : (r: (seq<T>, ImageEffect))
    ensures img in loaded || src.None? || src.value == [] ==> r == (loaded, Skipped)
    ensures img !in loaded && src.Some? && src.value != [] ==>
              && r.0 == loaded + [img]
              && r.1 == (if preloadOk then Loaded(src.value) else Failed)
    ensures IsSet(loaded) ==> IsSet(r.0)
  {
    if img in loaded then (loaded, Skipped)
    else match src
      case None => (loaded, Skipped)
      case Some(s) =>
        if s == [] then (loaded, Skipped)
        else (loaded + [img], if preloadOk then Loaded(s) else Failed)
  }

  /** Asking twice loads once: the second call is skipped whatever its outcome. */
  lemma LoadImageOnce<T>(loaded: seq<T>, img: T, src: Option<string>, ok1: bool, ok2: bool)
    ensures var (once, _) := LoadImage(loaded, img, src, ok1);
            LoadImage(once, img, src, ok2) == (once, Skipped)
  {
  }

  /** `cleanupMemory` on the loaded set: above 100 images, the 50 added first are forgotten. */
  function CleanupMemory<T>(loaded: seq<T>): (r: seq<T>)
    ensures |loaded| <= LoadedImagesLimit ==> r == loaded
    ensures |loaded| > LoadedImagesLimit ==> |r| == |loaded| - LoadedImagesTrim
  {
    if |loaded| > LoadedImagesLimit then loaded[LoadedImagesTrim..] else loaded
  }

  /** The trimmed set keeps exactly the images added after the 50 oldest, in order. */
  lemma CleanupForgetsOldest<T>(loaded: seq<T>)
    requires IsSet(loaded) && |loaded| > LoadedImagesLimit
    ensures forall i :: 0 <= i < |loaded| ==> (loaded[i] in CleanupMemory(loaded) <==> i >= LoadedImagesTrim)
    ensures IsSet(CleanupMemory(loaded))
  {
    var r := CleanupMemory(loaded);
    assert forall j :: 0 <= j < |r| ==> r[j] == loaded[j + LoadedImagesTrim];
    forall i | 0 <= i < |loaded| ensures loaded[i] in r <==> i >= LoadedImagesTrim {
      if i >= LoadedImagesTrim {
        assert r[i - LoadedImagesTrim] == loaded[i];
      }
    }
  }

  // ---------------------------------------------------------------------------------------------
  // throttle

  /** The throttle's `inThrottle` flag, kept as the time the last invoked call started; the timer
      clears the flag `limit` ms after it. */
  datatype Throttle = Throttle(lastInvoked: Option<int>)

  predicate Blocked(t: Throttle, now: int, limit: int) {
    t.lastInvoked.Some? && now < t.lastInvoked.value + limit
  }

  /** One call of the throttled function at `now`: invoked iff the flag is clear. */
  function ThrottleCall(t: Throttle, now: int, limit: int): (r: (bool, Throttle))
    ensures r.0 <==> !Blocked(t, now, limit)
    ensures r.0 ==> r.1 == Throttle(Some(now))
    ensures !r.0 ==> r.1 == t
  {
    if Blocked(t, now, limit) then (false, t) else (true, Throttle(Some(now)))
  }

  /** The invoked call times when the throttled function is called at `times` (in order). */
  function ThrottleRun(t: Throttle, times: seq<int>, limit: int): (r: (seq<int>, Throttle))
  {
    if times == [] then ([], t)
    else
      var (fired, st) := ThrottleRun(t, times[..|times| - 1], limit);
      var (ok, st') := ThrottleCall(st, times[|times| - 1], limit);
      (if ok then fired + [times[|times| - 1]] else fired, st')
  }

  /** From a fresh throttle: the first call is invoked, invoked calls are at least `limit` ms apart,
      and the flag remembers the latest invoked call. */
  lemma {:induction false} ThrottleSpacing(times: seq<int>, limit: int)
    ensures var (fired, st) := ThrottleRun(Throttle(None), times, limit);
            && (times != [] ==> fired != [] && fired[0] == times[0])
            && (forall i :: 0 <= i < |fired| - 1 ==> fired[i] + limit <= fired[i + 1])
            && (fired == [] <==> st.lastInvoked.None?)
            && (fired != [] ==> st.lastInvoked == Some(fired[|fired| - 1]))
            && (forall i :: 0 <= i < |fired| ==> fired[i] in times)
  {
    if times != [] {
      var prefix := times[..|times| - 1];
      ThrottleSpacing(prefix, limit);
      var (fired, st) := ThrottleRun(Throttle(None), prefix, limit);
      var now := times[|times| - 1];
      if prefix != [] {
        assert prefix[0] == times[0];
      }
      assert forall i :: 0 <= i < |fired| ==> fired[i] in times by {
        assert forall x :: x in prefix ==> x in times;
      }
    }
  }
}

=== FILE: privacy_consent.dfy ===
/** The privacy-consent manager: the consent record (a JSON object kept under one storage key),
    whether it is valid for the current consent version, the records the two accept buttons save,
    revocation, and per-feature consent. A record is a map from field name to value. */
module PrivacyConsent {
  import opened Values

  const ConsentVersion := "1.0.0"

  type Record = map<string, JsValue>

  /** The stored entry: text that fails to parse (or parses to `null`), or an object. */
  datatype Stored = Unreadable | Object(fields: Record)

  /** The manager's state: the storage entry and the record in memory (`consentData`). */
  datatype Manager = Manager(stored: Option<Stored>, consentData: Option<Record>)

  /** `loadConsent`: no entry or an unreadable one gives no record. */
  function LoadConsent(stored: Option<Stored>): (r: Option<Record>)
    ensures r.Some? <==> stored.Some? && stored.value.Object?
    ensures r.Some? ==> r.value == stored.value.fields
  {
    match stored
    case Some(Object(fields)) => Some(fields)
    case _ => None
  }

  /** `hasValidConsent`: a record for the current version whose `essential` is exactly `true`. */
  function HasValidConsent(data: Option<Record>): (b: bool)
    ensures data.None? ==> !b
    ensures data.Some? && ("version" !in data.value || data.value["version"] != Str(ConsentVersion)) ==> !b
    ensures b <==> HasField(data, "version", Str(ConsentVersion)) && HasConsentFor(data, "essential")
  {
    if data.None? then false
    else if "version" !in data.value || data.value["version"] != Str(ConsentVersion) then false
    else "essential" in data.value && data.value["essential"] == Bool(true)
  }

  predicate HasField(data: Option<Record>, field: string, v: JsValue) {
    data.Some? && field in data.value && data.value[field] == v
  }

  /** `hasConsentFor(feature)`: the record's field is exactly `true` (a truthy non-boolean does not
      count). */
  function HasConsentFor(data: Option<Record>, feature: string): (b: bool)
    ensures b <==> HasField(data, feature, Bool(true))
    ensures data.None? ==> !b
  {
    if data.None? then false else feature in data.value && data.value[feature] == Bool(true)
  }

  /** After a successful save, a feature other than the two bookkeeping fields is consented to
      exactly when the saved record set it to `true`, in memory and after a reload; after a failed
      save every answer is the one before. */
  lemma ConsentIsWhatWasSaved(m: Manager, consent: Record, now: string, writeOk: bool, feature: string)
    requires feature != "version" && feature != "timestamp"
    ensures var r := SaveConsent(m, consent, now, writeOk).1;
            && (writeOk ==> (HasConsentFor(r.consentData, feature) <==> feature in consent && consent[feature] == Bool(true)))
            && (writeOk ==> HasConsentFor(LoadConsent(r.stored), feature) == HasConsentFor(r.consentData, feature))
            && (!writeOk ==> HasConsentFor(r.consentData, feature) == HasConsentFor(m.consentData, feature))
  {
  }

  /** What `JSON.stringify` keeps of a record and `JSON.parse` gives back: `undefined` fields
      vanish and `NaN` becomes `null`. */
  function Serialised(r: Record): (s: Record)
    ensures forall k :: k in s <==> k in r && r[k] != Undefined
    ensures forall k :: k in s && r[k] != NaN ==> s[k] == r[k]
  {
    map k | k in r && r[k] != Undefined :: if r[k] == NaN then Null else r[k]
  }

  /** `saveConsent(consentData)` with the ISO timestamp `now`: the version and timestamp come first
      and the given fields (spread after them) override them. `writeOk` is whether `setItem`
      succeeded; on failure nothing changes and the result is false. */
  function SaveConsent(m: Manager, consent: Record, now: string, writeOk: bool): (r: (bool, Manager))
    ensures r.0 == writeOk
    ensures !writeOk ==> r.1 == m
    ensures writeOk ==>
              && r.1.consentData.Some?
              && (forall k :: k in consent ==> k in r.1.consentData.value && r.1.consentData.value[k] == consent[k])
              && ("version" !in consent ==> HasField(r.1.consentData, "version", Str(ConsentVersion)))
              && ("timestamp" !in consent ==> HasField(r.1.consentData, "timestamp", Str(now)))
              && r.1.stored == Some(Object(Serialised(r.1.consentData.value)))
  {
    if !writeOk then (false, m)
    else
      var record := map["version" := Str(ConsentVersion), "timestamp" := Str(now)] + consent;
      (true, Manager(Some(Object(Serialised(record))), Some(record)))
  }

  /** `handleConsent`: saving the record is its only effect on the model (feature start-up and
      messages are left out). */
  function HandleConsent(m: Manager, consent: Record, now: string, writeOk: bool): (r: Manager)
    ensures !writeOk ==> r == m
    ensures writeOk && "version" !in consent && "essential" in consent && consent["essential"] == Bool(true) ==>
              HasValidConsent(r.consentData)
  {
    SaveConsent(m, consent, now, writeOk).1
  }

  /** The "accept all" button's record. */
  function AcceptAll(): (c: Record)
    ensures c.Keys == {"essential", "analytics", "personalization"}
    ensures c["essential"] == Bool(true) && c["analytics"] == Bool(true) && c["personalization"] == Bool(true)
  {
    map["essential" := Bool(true), "analytics" := Bool(true), "personalization" := Bool(true)]
  }

  /** The "accept selected" button's record, with the two check boxes. */
  function AcceptSelected(analytics: bool, personalization: bool): (c: Record)
    ensures c.Keys == {"essential", "analytics", "personalization"}
    ensures c["essential"] == Bool(true) && c["analytics"] == Bool(analytics)
    ensures c["personalization"] == Bool(personalization)
  {
    map["essential" := Bool(true), "analytics" := Bool(analytics), "personalization" := Bool(personalization)]
  }

  /** After either button is saved the consent is valid, each optional feature is consented to
      exactly when its box was ticked, and a reload from storage reaches the same decisions. */
  lemma AcceptedConsentIsValid(m: Manager, analytics: bool, personalization: bool, now: string)
    ensures var r := HandleConsent(m, AcceptSelected(analytics, personalization), now, true);
            && HasValidConsent(r.consentData)
            && HasConsentFor(r.consentData, "analytics") == analytics
            && HasConsentFor(r.consentData, "personalization") == personalization
            && HasValidConsent(LoadConsent(r.stored))
            && (forall f :: HasConsentFor(LoadConsent(r.stored), f) == HasConsentFor(r.consentData, f))
    ensures var r := HandleConsent(m, AcceptAll(), now, true);
            && HasValidConsent(r.consentData)
            && HasConsentFor(r.consentData, "analytics") && HasConsentFor(r.consentData, "personalization")
  {
    var r := HandleConsent(m, AcceptSelected(analytics, personalization), now, true);
    ReloadKeepsDecisions(r.consentData.value);
  }

  /** Serialising keeps every decision: the version test and every exact-`true` test. */
  lemma ReloadKeepsDecisions(rec: Record)
    ensures HasValidConsent(Some(Serialised(rec))) == HasValidConsent(Some(rec))
    ensures forall f :: HasConsentFor(Some(Serialised(rec)), f) == HasConsentFor(Some(rec), f)
  {
  }

  /** A record from an older version is never valid, whatever it consented to. */
  lemma OldVersionInvalid(rec: Record, v: string)
    requires "version" in rec && rec["version"] == Str(v) && v != ConsentVersion
    ensures !HasValidConsent(Some(rec))
  {
  }

  /** `revokeConsent`: the entry is removed and the record cleared. */
  function RevokeConsent(m: Manager): (r: Manager)
    ensures r.stored.None? && r.consentData.None?
  {
    Manager(None, None)
  }

  /** After revoking, nothing is consented to, now or after a reload. */
  lemma RevokeClearsAll(m: Manager, feature: string)
    ensures !HasValidConsent(RevokeConsent(m).consentData)
    ensures !HasConsentFor(RevokeConsent(m).consentData, feature)
    ensures !HasConsentFor(LoadConsent(RevokeConsent(m).stored), feature)
  {
  }
}

=== FILE: production_optimizer.dfy ===
/** The production optimiser's decisions: whether the page runs in production, which storage keys
    count as sensitive, the removal of temporary and expired storage entries, and the bounded
    error log. */
module ProductionOptimizer {
  import opened Values
  import opened Strings

  const MaxErrors: nat := 50
  const TempPrefix := "temp_"
  const ExpiresMarker := "_expires_"

  /** `detectEnvironment`: production unless served from `localhost` or `127.0.0.1`, or asked
      for `debug=true` anywhere in the query string. */
  function DetectEnvironment(hostname: string, search: string): (b: bool)
    ensures b <==> hostname !in {"localhost", "127.0.0.1"} && forall i :: !OccursAt(search, "debug=true", i)
  {
    ContainsAt(search, "debug=true");
    var isLocalhost := hostname == "localhost" || hostname == "127.0.0.1";
    !isLocalhost && !Contains(search, "debug=true")
  }

  /** Adding `debug=true` anywhere in the query switches production off, on every host. */
  lemma DebugParamDisablesProduction(hostname: string, before: string, after: string)
    ensures !DetectEnvironment(hostname, before + "debug=true" + after)
  {
    ContainsInfix(before, "debug=true", after);
  }

  /** The key test of the storage wrapper: a key naming payment, password or token. */
  function IsSensitive(key: string): (b: bool)
    ensures b <==> exists i :: OccursAt(key, "payment", i) || OccursAt(key, "password", i) || OccursAt(key, "token", i)
  {
    ContainsAt(key, "payment");
    ContainsAt(key, "password");
    ContainsAt(key, "token");
    Contains(key, "payment") || Contains(key, "password") || Contains(key, "token")
  }

  /** Any key built around one of the three words is sensitive. */
  lemma SensitiveByWord(before: string, word: string, after: string)
    requires word in ["payment", "password", "token"]
    ensures IsSensitive(before + word + after)
  {
    ContainsInfix(before, word, after);
  }

  // ---------------------------------------------------------------------------------------------
  // storage cleanup

  /** A storage entry as `cleanupExpiredData` reads it: text that does not parse (or parses to
      `null`, whose `expires` cannot be read), or an object with a truthy `expires` number or
      without one. */
  datatype Entry = Malformed | Parsed(expires: Option<int>)

  type Storage = map<string, Entry>

  /** The first loop of `cleanupCache`: every key starting with `temp_` goes. */
  function CleanupTemp(st: Storage): (r: Storage)
    ensures forall k :: k in r <==> k in st && !StartsWith(k, TempPrefix)
    ensures forall k :: k in r ==> r[k] == st[k]
  {
    map k | k in st && !StartsWith(k, TempPrefix) :: st[k]
  }

  /** Whether `cleanupExpiredData` at `now` removes the entry under `key`. */
  predicate Expired(key: string, e: Entry, now: int) {
    Contains(key, ExpiresMarker)
    && match e
       case Malformed => true
       case Parsed(expires) => expires.Some? && expires.value != 0 && expires.value < now
  }

  /** `cleanupExpiredData` at `now`. */
  function CleanupExpiredData(st: Storage, now: int): (r: Storage)
    ensures forall k :: k in r <==> k in st && !Expired(k, st[k], now)
    ensures forall k :: k in r ==> r[k] == st[k]
  {
    map k | k in st && !Expired(k, st[k], now) :: st[k]
  }

  /** Only keys carrying the `_expires_` marker are ever removed; cleaning twice is cleaning once,
      and a later cleanup removes at least as much. */
  lemma CleanupExpiredProperties(st: Storage, now: int, later: int)
    requires now <= later
    ensures forall k :: k in st && !Contains(k, ExpiresMarker) ==> k in CleanupExpiredData(st, now)
    ensures CleanupExpiredData(CleanupExpiredData(st, now), now) == CleanupExpiredData(st, now)
    ensures CleanupExpiredData(st, later).Keys <= CleanupExpiredData(st, now).Keys
  {
  }

  /** `cleanupCache` at `now`: temporary entries, then expired ones. */
  function CleanupCache(st: Storage, now: int): (r: Storage)
    ensures forall k :: k in r ==> k in st && r[k] == st[k] && !StartsWith(k, TempPrefix)
  {
    CleanupExpiredData(CleanupTemp(st), now)
  }

  /** After `cleanupCache` no temporary key is left, and every key that is neither temporary nor
      marked `_expires_` is kept unchanged. */
  lemma CleanupCacheKeeps(st: Storage, now: int)
    ensures forall k :: k in st && !StartsWith(k, TempPrefix) && !Contains(k, ExpiresMarker) ==>
              k in CleanupCache(st, now) && CleanupCache(st, now)[k] == st[k]
    ensures forall k :: k in CleanupCache(st, now) ==> !StartsWith(k, TempPrefix)
  {
  }

  // ---------------------------------------------------------------------------------------------
  // error log

  datatype ErrorEntry = ErrorEntry(kind: string, message: string, timestamp: string, userAgent: string, url: string)

  /** `logError`: the stored list (`None` when it does not parse, in which case the error is
      dropped silently) gets the new entry at the end, and only the fifty most recent stay.
      `writeOk` is whether `setItem` succeeded; a failed write (a full store) is swallowed too and
      the stored list stays as it was. */
  function LogError(stored: Option<seq<ErrorEntry>>, e: ErrorEntry, writeOk: bool): (r: Option<seq<ErrorEntry>>)
    ensures stored.None? ==> r.None?
    ensures !writeOk ==> r == stored
    ensures stored.Some? && writeOk ==>
              var all := stored.value + [e];
              && r.Some?
              && |r.value| == (if |all| > MaxErrors then MaxErrors else |all|)
              && r.value == all[|all| - |r.value|..]
  {
    match stored
    case None => None
    case Some(errors) =>
      if !writeOk then stored
      else
        var all := errors + [e];
        Some(if |all| > MaxErrors then all[|all| - MaxErrors..] else all)
  }

  /** The log after a run of errors, one `logError` call each, with every write succeeding. */
  function LogAll(errors: seq<ErrorEntry>, es: seq<ErrorEntry>): seq<ErrorEntry>
    decreases |es|
  {
    if es == [] then errors
    else LogAll(LogError(Some(errors), es[0], true).value, es[1..])
  }

  /** The last fifty (or all, if fewer). */
  function Last50(s: seq<ErrorEntry>): (r: seq<ErrorEntry>)
    ensures |r| <= MaxErrors && |r| <= |s| && r == s[|s| - |r|..]
  {
    if |s| > MaxErrors then s[|s| - MaxErrors..] else s
  }

  /** Starting from a log of at most fifty, any run of calls leaves exactly the fifty most recent
      errors of the whole history, in order. */
  lemma {:induction false} LogKeepsMostRecent(errors: seq<ErrorEntry>, es: seq<ErrorEntry>)
    requires |errors| <= MaxErrors
    ensures LogAll(errors, es) == Last50(errors + es)
    decreases |es|
  {
    if es != [] {
      var next := LogError(Some(errors), es[0], true).value;
      assert next == Last50(errors + [es[0]]);
      LogKeepsMostRecent(next, es[1..]);
      var all := errors + es;
      assert errors + [es[0]] + es[1..] == all;
      LastOfSuffix(errors + [es[0]], es[1..]);
    } else {
      assert errors + es == errors;
    }
  }

  /** Keeping the last fifty before appending more does not change the last fifty afterwards. */
  lemma LastOfSuffix(a: seq<ErrorEntry>, b: seq<ErrorEntry>)
    ensures Last50(Last50(a) + b) == Last50(a + b)
  {
    var la := Last50(a);
    if |a| > MaxErrors {
      var x := la + b;
      var y := a + b;
      assert x == y[|a| - MaxErrors..];
      if |x| > MaxErrors {
        assert x[|x| - MaxErrors..] == y[|y| - MaxErrors..];
      }
    }
  }
}

=== FILE: search.dfy ===
/** The search manager's bookkeeping: the recent-search history (newest first, no repeats, at most
    ten) and the suggestion list built from history and the fixed hot searches (at most eight). */
module Search {
  import opened Values
  import opened Strings

  const MaxHistoryItems: nat := 10
  const MaxSuggestions: nat := 8

  const HotSearches: seq<string> := ["戒色方法", "健康生活", "运动计划", "营养饮食", "心理健康", "社区支持", "成功案例", "专家建议"]

  predicate NoDuplicates(s: seq<string>) {
    forall i, j :: 0 <= i < j < |s| ==> s[i] != s[j]
  }

  // ---------------------------------------------------------------------------------------------
  // history

  /** `addToHistory`: an empty query or one already present changes nothing; otherwise the query
      goes in front and the list is cut back to ten. */
  function AddToHistory(history: seq<string>, query: string): (r: seq<string>)
    ensures query == [] || query in history ==> r == history
    ensures query != [] && query !in history ==>
              && |r| == (if |history| + 1 > MaxHistoryItems then MaxHistoryItems else |history| + 1)
              && r[0] == query
              && r[1..] == history[..|r| - 1]
  {
    if query == [] || query in history then history
    else
      var added := [query] + history;
      if |added| > MaxHistoryItems then added[..MaxHistoryItems] else added
  }

  /** A history that starts without repeats never gets one, and never grows past ten. */
  lemma AddToHistoryKeepsInvariant(history: seq<string>, query: string)
    requires NoDuplicates(history) && |history| <= MaxHistoryItems
    ensures NoDuplicates(AddToHistory(history, query))
    ensures |AddToHistory(history, query)| <= MaxHistoryItems
  {
    var r := AddToHistory(history, query);
    if query != [] && query !in history {
      forall i, j | 0 <= i < j < |r| ensures r[i] != r[j] {
        assert r[j] == history[j - 1];
        if i > 0 {
          assert r[i] == history[i - 1];
        }
      }
    }
  }

  // ---------------------------------------------------------------------------------------------
  // persistence under `quittr_search_history`

  /** The stored entry: text that `JSON.parse` rejects, or a saved list. */
  datatype StoredHistory = Unparsable | Saved(items: seq<string>)

  /** The manager: the history in memory and the storage entry (`None` when absent or empty). */
  datatype Manager = Manager(history: seq<string>, stored: Option<StoredHistory>)

  /** `loadSearchHistory`: a saved list replaces the history; an absent entry, or one that fails
      to parse (the error is caught), leaves the history as it was. */
  function LoadSearchHistory(history: seq<string>, stored: Option<StoredHistory>): (r: seq<string>)
    ensures stored.Some? && stored.value.Saved? ==> r == stored.value.items
    ensures stored.None? || stored.value.Unparsable? ==> r == history
  {
    match stored
    case Some(Saved(items)) => items
    case _ => history
  }

  /** The constructor: an empty history, then `loadSearchHistory`. */
  function NewManager(stored: Option<StoredHistory>): (m: Manager)
    ensures m.stored == stored
    ensures m.history == (if stored.Some? && stored.value.Saved? then stored.value.items else [])
  {
    Manager(LoadSearchHistory([], stored), stored)
  }

  /** `saveSearchHistory`: `writeOk` is whether `setItem` succeeded; a failure is caught and the
      entry stays as it was. */
  function SaveSearchHistory(m: Manager, writeOk: bool): (r: Manager)
    ensures r.history == m.history
    ensures writeOk ==> r.stored == Some(Saved(m.history))
    ensures !writeOk ==> r == m
  {
    if writeOk then m.(stored := Some(Saved(m.history))) else m
  }

  /** `addToHistory` on the manager: an ignored query returns before saving. */
  function Add(m: Manager, query: string, writeOk: bool): (r: Manager)
    ensures r.history == AddToHistory(m.history, query)
    ensures query == [] || query in m.history ==> r == m
    ensures query != [] && query !in m.history ==> r == SaveSearchHistory(m.(history := r.history), writeOk)
  {
    if query == [] || query in m.history then m
    else SaveSearchHistory(m.(history := AddToHistory(m.history, query)), writeOk)
  }

  /** `clearHistory`: the history is emptied and the entry removed. */
  function ClearHistory(m: Manager): (r: Manager)
    ensures r.history == [] && r.stored.None?
  {
    Manager([], None)
  }

  /** A saved history survives a reload: a new manager over the storage sees the same list, and
      after a clear it sees an empty one. */
  lemma HistorySurvivesReload(m: Manager, query: string)
    requires m.stored == Some(Saved(m.history))
    ensures NewManager(Add(m, query, true).stored).history == Add(m, query, true).history
    ensures NewManager(ClearHistory(m).stored).history == []
  {
  }

  /** A failed save leaves the storage one step behind: the next load returns the old list. */
  lemma FailedSaveLosesQuery(m: Manager, query: string)
    requires m.stored == Some(Saved(m.history)) && query != [] && query !in m.history
    ensures NewManager(Add(m, query, false).stored).history == m.history
    ensures query !in NewManager(Add(m, query, false).stored).history
  {
  }

  // ---------------------------------------------------------------------------------------------
  // suggestions

  datatype Source = FromHistory | FromHot

  datatype Suggestion = Suggestion(text: string, source: Source)

  /** Case-insensitive substring test (`item.toLowerCase().includes(query.toLowerCase())`). */
  predicate Matches(item: string, query: string) {
    Contains(Lower(item), Lower(query))
  }

  predicate HasText(sugs: seq<Suggestion>, t: string) {
    exists k :: 0 <= k < |sugs| && sugs[k].text == t
  }

  predicate DistinctTexts(sugs: seq<Suggestion>) {
    forall i, j :: 0 <= i < j < |sugs| ==> sugs[i].text != sugs[j].text
  }

  /** The first loop: every matching history item, in history order (stated by
      `HistoryPassInOrder`). */
  function HistoryPass(history: seq<string>, query: string): (r: seq<Suggestion>)
    ensures forall k :: 0 <= k < |r| ==> r[k].source == FromHistory && Matches(r[k].text, query) && r[k].text in history
    ensures forall i :: 0 <= i < |history| && Matches(history[i], query) ==> HasText(r, history[i])
    ensures NoDuplicates(history) ==> DistinctTexts(r)
  {
    if history == [] then []
    else
      var earlier := history[..|history| - 1];
      var item := history[|history| - 1];
      var acc := HistoryPass(earlier, query);
      assert forall i :: 0 <= i < |earlier| ==> earlier[i] == history[i];
      if Matches(item, query) then
        var r := acc + [Suggestion(item, FromHistory)];
        assert r[|acc|].text == item;
        assert forall k :: 0 <= k < |acc| ==> r[k] == acc[k];
        assert NoDuplicates(history) ==> item !in earlier;
        r
      else acc
  }

  /** The second loop: each matching hot search whose text is not already suggested, in order. */
  function HotPass(acc: seq<Suggestion>, hot: seq<string>, query: string): (r: seq<Suggestion>)
    ensures |acc| <= |r| && r[..|acc|] == acc
    ensures forall k :: |acc| <= k < |r| ==> r[k].source == FromHot && Matches(r[k].text, query) && r[k].text in hot
    ensures forall k, m :: |acc| <= k < |r| && 0 <= m < k ==> r[m].text != r[k].text
    ensures forall i :: 0 <= i < |hot| && Matches(hot[i], query) ==> HasText(r, hot[i])
  {
    if hot == [] then acc
    else
      var earlier := hot[..|hot| - 1];
      var item := hot[|hot| - 1];
      var before := HotPass(acc, earlier, query);
      assert forall i :: 0 <= i < |earlier| ==> earlier[i] == hot[i];
      if Matches(item, query) && !HasText(before, item) then
        var r := before + [Suggestion(item, FromHot)];
        assert forall k :: 0 <= k < |before| ==> r[k] == before[k];
        assert r[|before|].text == item;
        r
      else
        before
  }

  /** The positions `i < n` whose item matches the query, ascending. */
  function MatchPositions(items: seq<string>, query: string, n: nat): (r: seq<nat>)
    requires n <= |items|
    ensures forall j :: 0 <= j < |r| ==> r[j] < n
  {
    if n == 0 then []
    else MatchPositions(items, query, n - 1) + (if Matches(items[n - 1], query) then [n - 1] else [])
  }

  /** One step of the first loop. */
  lemma HistoryStep(history: seq<string>, query: string, n: nat)
    requires 0 < n <= |history|
    ensures HistoryPass(history[..n], query)
            == HistoryPass(history[..n - 1], query)
               + (if Matches(history[n - 1], query) then [Suggestion(history[n - 1], FromHistory)] else [])
  {
    assert history[..n][..n - 1] == history[..n - 1];
    assert history[..n][n - 1] == history[n - 1];
  }

  /** The history pass over the first `n` items is those items restricted to the matching
      positions (`MatchPositions`): each suggestion is the history item at its position, in
      ascending order of position. */
  lemma {:induction false} HistoryPassInOrder(history: seq<string>, query: string, n: nat)
    requires n <= |history|
    ensures var idx := MatchPositions(history, query, n);
            var r := HistoryPass(history[..n], query);
            && |idx| == |r|
            && (forall j :: 0 <= j < |idx| ==> r[j] == Suggestion(history[idx[j]], FromHistory))
            && (forall j, k :: 0 <= j < k < |idx| ==> idx[j] < idx[k])
  {
    if n > 0 {
      HistoryPassInOrder(history, query, n - 1);
      HistoryStep(history, query, n);
      var pidx, idx := MatchPositions(history, query, n - 1), MatchPositions(history, query, n);
      var prev, r := HistoryPass(history[..n - 1], query), HistoryPass(history[..n], query);
      var hit := Matches(history[n - 1], query);
      assert idx == pidx + (if hit then [n - 1] else []);
      assert r == prev + (if hit then [Suggestion(history[n - 1], FromHistory)] else []);
      forall j | 0 <= j < |idx| ensures r[j] == Suggestion(history[idx[j]], FromHistory) {
        if j < |pidx| {
          assert r[j] == prev[j] && idx[j] == pidx[j];
        }
      }
      forall j, k | 0 <= j < k < |idx| ensures idx[j] < idx[k] {
        if k == |pidx| {
          assert idx[j] == pidx[j];
        }
      }
    }
  }

  /** A position below `n` is among the matching positions iff its item matches. */
  lemma {:induction false} MatchPositionsExact(items: seq<string>, query: string, n: nat)
    requires n <= |items|
    ensures forall i :: 0 <= i < n ==> (i in MatchPositions(items, query, n) <==> Matches(items[i], query))
  {
    if n > 0 {
      MatchPositionsExact(items, query, n - 1);
      var pidx, idx := MatchPositions(items, query, n - 1), MatchPositions(items, query, n);
      var hit := Matches(items[n - 1], query);
      assert idx == pidx + (if hit then [n - 1] else []);
      forall i | 0 <= i < n ensures i in idx <==> Matches(items[i], query) {
        assert i in idx <==> i in pidx || (hit && i == n - 1);
        if i == n - 1 {
          assert i !in pidx;
        }
      }
    }
  }

  /** The positions of the hot searches the second loop appends, ascending. */
  function HotPositions(acc: seq<Suggestion>, hot: seq<string>, query: string): (r: seq<nat>)
    decreases |hot|
    ensures forall j :: 0 <= j < |r| ==> r[j] < |hot|
  {
    if hot == [] then []
    else
      var earlier := hot[..|hot| - 1];
      var item := hot[|hot| - 1];
      HotPositions(acc, earlier, query)
      + (if Matches(item, query) && !HasText(HotPass(acc, earlier, query), item) then [|hot| - 1] else [])
  }

  /** One step of the second loop. */
  lemma HotStep(acc: seq<Suggestion>, hot: seq<string>, query: string, n: nat)
    requires 0 < n <= |hot|
    ensures var before := HotPass(acc, hot[..n - 1], query);
            HotPass(acc, hot[..n], query)
            == before + (if Matches(hot[n - 1], query) && !HasText(before, hot[n - 1])
                         then [Suggestion(hot[n - 1], FromHot)] else [])
  {
    assert hot[..n][..n - 1] == hot[..n - 1];
    assert hot[..n][n - 1] == hot[n - 1];
  }

  /** The hot pass appends the hot searches at ascending positions, in list order. */
  lemma {:induction false} HotPassInOrder(acc: seq<Suggestion>, hot: seq<string>, query: string)
    ensures var idx := HotPositions(acc, hot, query);
            var r := HotPass(acc, hot, query);
            && |r| == |acc| + |idx|
            && (forall j :: 0 <= j < |idx| ==> r[|acc| + j] == Suggestion(hot[idx[j]], FromHot))
            && (forall j, k :: 0 <= j < k < |idx| ==> idx[j] < idx[k])
    decreases |hot|
  {
    if hot != [] {
      var earlier := hot[..|hot| - 1];
      HotPassInOrder(acc, earlier, query);
      assert forall i :: 0 <= i < |earlier| ==> earlier[i] == hot[i];
    }
  }

  /** With a repeat-free hot list, a hot search is appended iff it matches and was not suggested
      before the pass. */
  lemma {:induction false} HotPassMembership(acc: seq<Suggestion>, hot: seq<string>, query: string)
    requires NoDuplicates(hot)
    ensures var idx := HotPositions(acc, hot, query);
            forall i :: 0 <= i < |hot| ==> (i in idx <==> Matches(hot[i], query) && !HasText(acc, hot[i]))
    decreases |hot|
  {
    if hot != [] {
      var earlier := hot[..|hot| - 1];
      var item := hot[|hot| - 1];
      assert forall i :: 0 <= i < |earlier| ==> earlier[i] == hot[i];
      HotPassMembership(acc, earlier, query);
      HotPassInOrder(acc, earlier, query);
      var before := HotPass(acc, earlier, query);
      var p := HotPositions(acc, earlier, query);
      var idx := HotPositions(acc, hot, query);
      var hit := Matches(item, query) && !HasText(before, item);
      assert idx == p + (if hit then [|hot| - 1] else []);
      NewTextsDiffer(acc, hot, query);
      forall i | 0 <= i < |hot| ensures i in idx <==> Matches(hot[i], query) && !HasText(acc, hot[i]) {
        assert i in idx <==> i in p || (hit && i == |hot| - 1);
        if i == |hot| - 1 {
          assert i !in p;
        } else {
          assert hot[i] == earlier[i];
        }
      }
    }
  }

  /** In a repeat-free hot list, the pass over the earlier entries never suggests the last one
      unless it was suggested before the pass. */
  lemma NewTextsDiffer(acc: seq<Suggestion>, hot: seq<string>, query: string)
    requires NoDuplicates(hot) && hot != []
    ensures var item := hot[|hot| - 1];
            HasText(HotPass(acc, hot[..|hot| - 1], query), item) <==> HasText(acc, item)
  {
    var earlier := hot[..|hot| - 1];
    var item := hot[|hot| - 1];
    var before := HotPass(acc, earlier, query);
    if HasText(before, item) {
      var k :| 0 <= k < |before| && before[k].text == item;
      if k >= |acc| {
        assert false;
      }
      assert acc[k].text == item;
    }
    if HasText(acc, item) {
      var k :| 0 <= k < |acc| && acc[k].text == item;
      assert before[k] == acc[k];
    }
  }

  /** Appending new texts only keeps the texts distinct. */
  lemma HotPassDistinct(acc: seq<Suggestion>, hot: seq<string>, query: string)
    requires DistinctTexts(acc)
    ensures DistinctTexts(HotPass(acc, hot, query))
  {
    var r := HotPass(acc, hot, query);
    assert forall k :: 0 <= k < |acc| ==> r[k] == acc[k];
  }

  function Take<T>(s: seq<T>, n: nat): (r: seq<T>)
    ensures |r| <= n && |r| <= |s| && r == s[..|r|]
    ensures |s| <= n ==> r == s
  {
    if |s| > n then s[..n] else s
  }

  /** `getSuggestions(query)`: history matches then new hot matches, cut to eight. */
  function Suggestions(history: seq<string>, query: string): (r: seq<Suggestion>)
    ensures |r| <= MaxSuggestions
  {
    Take(HotPass(HistoryPass(history, query), HotSearches, query), MaxSuggestions)
  }

  /** Every suggestion contains the query; history suggestions come first and are history items;
      a hot suggestion never repeats an earlier text; a repeat-free history gives repeat-free
      suggestions. */
  lemma SuggestionsShape(history: seq<string>, query: string)
    ensures var r := Suggestions(history, query);
            && (forall k :: 0 <= k < |r| ==> Matches(r[k].text, query))
            && (forall i, j :: 0 <= i < j < |r| && r[j].source == FromHistory ==> r[i].source == FromHistory)
            && (forall k, m :: 0 <= m < k < |r| && r[k].source == FromHot ==> r[m].text != r[k].text)
            && (forall k :: 0 <= k < |r| && r[k].source == FromHistory ==> r[k].text in history)
            && (NoDuplicates(history) ==> DistinctTexts(r))
  {
    var first := HistoryPass(history, query);
    var all := HotPass(first, HotSearches, query);
    var r := Take(all, MaxSuggestions);
    assert forall k :: 0 <= k < |r| ==> r[k] == all[k];
    assert forall k :: 0 <= k < |first| ==> all[k] == first[k];
    if NoDuplicates(history) {
      HotPassDistinct(first, HotSearches, query);
    }
  }

  /** When fewer than eight suggestions arise, none is lost: every matching history item and
      every matching hot search is among them. */
  lemma SuggestionsComplete(history: seq<string>, query: string)
    requires |HotPass(HistoryPass(history, query), HotSearches, query)| <= MaxSuggestions
    ensures forall i :: 0 <= i < |history| && Matches(history[i], query) ==> HasText(Suggestions(history, query), history[i])
    ensures forall i :: 0 <= i < |HotSearches| && Matches(HotSearches[i], query) ==>
              HasText(Suggestions(history, query), HotSearches[i])
  {
    var first := HistoryPass(history, query);
    forall i | 0 <= i < |history| && Matches(history[i], query)
      ensures HasText(Suggestions(history, query), history[i])
    {
      var k :| 0 <= k < |first| && first[k].text == history[i];
      assert HasText(first, history[i]);
    }
  }

  /** The suggestions in order: the matching history items in history order, then the new
      matching hot searches in list order, cut to eight. */
  lemma {:induction false} SuggestionsInOrder(history: seq<string>, query: string)
    ensures var r := Suggestions(history, query);
            var hi := MatchPositions(history, query, |history|);
            var ho := HotPositions(HistoryPass(history, query), HotSearches, query);
            && |r| == (if |hi| + |ho| > MaxSuggestions then MaxSuggestions else |hi| + |ho|)
            && (forall k :: 0 <= k < |r| && k < |hi| ==> r[k] == Suggestion(history[hi[k]], FromHistory))
            && (forall k :: |hi| <= k < |r| ==> r[k] == Suggestion(HotSearches[ho[k - |hi|]], FromHot))
  {
    PassesInOrder(history, HotSearches, query);
    var all := HotPass(HistoryPass(history, query), HotSearches, query);
    var r := Suggestions(history, query);
    assert r == Take(all, MaxSuggestions);
    assert forall k :: 0 <= k < |r| ==> r[k] == all[k];
  }

  /** Both passes together, for any hot list. */
  lemma {:induction false} PassesInOrder(history: seq<string>, hot: seq<string>, query: string)
    ensures var all := HotPass(HistoryPass(history, query), hot, query);
            var hi := MatchPositions(history, query, |history|);
            var ho := HotPositions(HistoryPass(history, query), hot, query);
            && |all| == |hi| + |ho|
            && (forall k :: 0 <= k < |hi| ==> all[k] == Suggestion(history[hi[k]], FromHistory))
            && (forall k :: |hi| <= k < |all| ==> all[k] == Suggestion(hot[ho[k - |hi|]], FromHot))
  {
    var first := HistoryPass(history, query);
    var hi := MatchPositions(history, query, |history|);
    HistoryPositions(history, query);
    assert |first| == |hi| && forall k :: 0 <= k < |hi| ==> hi[k] < |history|;
    AppendedInOrder(first, hi, history, hot, query);
  }

  /** The hot pass keeps an ordered first part and appends its hot searches in order. */
  lemma {:induction false} AppendedInOrder(first: seq<Suggestion>, hi: seq<nat>, history: seq<string>, hot: seq<string>, query: string)
    requires |first| == |hi|
    requires forall k :: 0 <= k < |hi| ==> hi[k] < |history| && first[k] == Suggestion(history[hi[k]], FromHistory)
    ensures var all := HotPass(first, hot, query);
            var ho := HotPositions(first, hot, query);
            && |all| == |hi| + |ho|
            && (forall k :: 0 <= k < |hi| ==> all[k] == Suggestion(history[hi[k]], FromHistory))
            && (forall k :: |hi| <= k < |all| ==> all[k] == Suggestion(hot[ho[k - |hi|]], FromHot))
  {
    HotPassInOrder(first, hot, query);
    var all := HotPass(first, hot, query);
    var ho := HotPositions(first, hot, query);
    forall k | 0 <= k < |hi| ensures all[k] == Suggestion(history[hi[k]], FromHistory) {
      assert all[k] == first[k];
    }
    forall k | |hi| <= k < |all| ensures all[k] == Suggestion(hot[ho[k - |hi|]], FromHot) {
      var j := k - |hi|;
      assert 0 <= j < |ho| && |first| + j == k;
    }
  }

  /** `HistoryPassInOrder` for the whole history. */
  lemma {:induction false} HistoryPositions(history: seq<string>, query: string)
    ensures var hi := MatchPositions(history, query, |history|);
            var first := HistoryPass(history, query);
            |first| == |hi| && forall k :: 0 <= k < |hi| ==> first[k] == Suggestion(history[hi[k]], FromHistory)
  {
    HistoryPassInOrder(history, query, |history|);
    PrefixIsWhole(history);
  }

  /** After the history is cleared only hot searches are suggested. */
  lemma ClearedHistorySuggestsHotOnly(m: Manager, query: string)
    ensures forall k :: 0 <= k < |Suggestions(ClearHistory(m).history, query)| ==>
              Suggestions(ClearHistory(m).history, query)[k].source == FromHot
  {
    var r := Suggestions([], query);
    var all := HotPass([], HotSearches, query);
    assert forall k :: 0 <= k < |r| ==> r[k] == all[k];
  }

  /** The suggestion builder as written, with its two `forEach` loops and the `some` scan. */
  method GetSuggestions(history: seq<string>, query: string) returns (r: seq<Suggestion>)
    ensures r == Suggestions(history, query)
  {
    var sugs := HistoryLoop(history, query);
    sugs := HotLoop(sugs, HotSearches, query);
    r := if |sugs| > MaxSuggestions then sugs[..MaxSuggestions] else sugs;
  }

  /** The prefix of full length is the whole sequence. */
  lemma PrefixIsWhole<T>(s: seq<T>)
    ensures s[..|s|] == s
  {
  }

  /** The first `forEach`. */
  method HistoryLoop(history: seq<string>, query: string) returns (sugs: seq<Suggestion>)
    ensures sugs == HistoryPass(history, query)
  {
    sugs := [];
    var i := 0;
    while i < |history|
      invariant 0 <= i <= |history|
      invariant sugs == HistoryPass(history[..i], query)
    {
      var step := if Matches(history[i], query) then [Suggestion(history[i], FromHistory)] else [];
      var n := i + 1;
      HistoryStep(history, query, n);
      assert n - 1 == i;
      sugs := sugs + step;
      i := n;
    }
    PrefixIsWhole(history);
  }

  /** The second `forEach`, appending to the suggestions so far. */
  method HotLoop(acc: seq<Suggestion>, hot: seq<string>, query: string) returns (sugs: seq<Suggestion>)
    ensures sugs == HotPass(acc, hot, query)
  {
    sugs := acc;
    var j := 0;
    while j < |hot|
      invariant 0 <= j <= |hot|
      invariant sugs == HotPass(acc, hot[..j], query)
    {
      var item := hot[j];
      var seen := SomeHasText(sugs, item);
      HotStep(acc, hot, query, j + 1);
      if Matches(item, query) && !seen {
        sugs := sugs + [Suggestion(item, FromHot)];
      }
      j := j + 1;
    }
    PrefixIsWhole(hot);
  }

  /** `suggestions.some(s => s.text === item)`. */
  method SomeHasText(sugs: seq<Suggestion>, item: string) returns (seen: bool)
    ensures seen <==> HasText(sugs, item)
  {
    seen := false;
    var k := 0;
    while k < |sugs|
      invariant 0 <= k <= |sugs|
      invariant seen <==> exists m :: 0 <= m < k && sugs[m].text == item
    {
      if sugs[k].text == item {
        seen := true;
      }
      k := k + 1;
    }
  }
}

=== FILE: security.dfy ===
/** The payment security manager: the stored-history rate limit, payment and card validation, the
    rolling 32-bit checksum guarding "encrypted" payloads, failed-attempt lockout counting, and the
    password-strength and input-sanitising utilities. */
module Security {
  import opened Values
  import opened Strings
  import Validation

  const MaxFailedAttempts: nat := 5
  const RateLimitWindow: int := 60000
  const MaxRequestsPerWindow: nat := 10
  const ReplayWindow: int := 300000
  const EncryptedLifetime: int := 3600000

  /** The `SecurityError` codes. */
  datatype SecurityError =
    | RateLimitExceeded
    | ValidationFailed(messages: seq<string>)
    | IntegrityCheckFailed
    | EncryptedDataExpired
    | DecryptionFailed

  datatype Result<T> = Ok(value: T) | Err(error: SecurityError)

  // ---------------------------------------------------------------------------------------------
  // rate limit

  /** `checkRateLimit` at `now` over the stored request history: rejected when the last minute
      already holds ten requests, otherwise `now` is appended to the whole (unpruned) history. */
  function CheckRateLimit(history: seq<int>, now: int): (r: Result<seq<int>>)
    ensures r.Err? <==> |Validation.Recent(history, now, RateLimitWindow)| >= MaxRequestsPerWindow
    ensures r.Err? ==> r.error == RateLimitExceeded
    ensures r.Ok? ==> r.value == history + [now]
  {
    if |Validation.Recent(history, now, RateLimitWindow)| >= MaxRequestsPerWindow then Err(RateLimitExceeded)
    else Ok(history + [now])
  }

  /** `cleanupRequestHistory`: keep only the requests of the last minute. */
  function CleanupRequestHistory(history: seq<int>, now: int): (r: seq<int>)
    ensures |r| <= |history|
    ensures forall t :: t in r <==> t in history && now - t < RateLimitWindow
    ensures forall t :: now <= t ==>
              Validation.Recent(r, t, RateLimitWindow) == Validation.Recent(history, t, RateLimitWindow)
  {
    var r := Validation.Recent(history, now, RateLimitWindow);
    forall t | now <= t
      ensures Validation.Recent(r, t, RateLimitWindow) == Validation.Recent(history, t, RateLimitWindow)
    {
      Validation.RecentTwice(history, now, t, RateLimitWindow);
    }
    r
  }

  /** Cleaning up never changes a later rate-limit decision. */
  lemma CleanupPreservesDecisions(history: seq<int>, cleanedAt: int, now: int)
    requires cleanedAt <= now
    ensures CheckRateLimit(CleanupRequestHistory(history, cleanedAt), now).Ok?
            == CheckRateLimit(history, now).Ok?
  {
  }

  /** Replays `times` (in call order) through `checkRateLimit`, keeping the stored history. */
  function RateRun(history: seq<int>, times: seq<int>): seq<int> {
    if times == [] then history
    else
      var before := RateRun(history, times[..|times| - 1]);
      match CheckRateLimit(before, times[|times| - 1])
      case Ok(after) => after
      case Err(_) => before
  }

  /** Starting from an empty history and with clock-ordered calls, no minute-long window ever holds
      more than ten accepted requests. */
  lemma {:induction false} RateLimitNeverExceeded(times: seq<int>)
    requires Validation.Sorted(times)
    ensures forall t :: |Validation.InWindow(RateRun([], times), t, RateLimitWindow)| <= MaxRequestsPerWindow
    ensures forall i :: 0 <= i < |RateRun([], times)| ==> |times| > 0 && RateRun([], times)[i] <= times[|times| - 1]
  {
    if times != [] {
      var prefix := times[..|times| - 1];
      var now := times[|times| - 1];
      assert Validation.Sorted(prefix);
      RateLimitNeverExceeded(prefix);
      var before := RateRun([], prefix);
      assert prefix == [] || prefix[|prefix| - 1] <= now;
      assert forall i :: 0 <= i < |before| ==> before[i] <= now;
      if CheckRateLimit(before, now).Ok? {
        Validation.AcceptKeepsWindowBound(before, now, RateLimitWindow, MaxRequestsPerWindow);
        assert forall i :: 0 <= i < |before + [now]| ==> (before + [now])[i] <= now;
      }
    }
  }

  // ---------------------------------------------------------------------------------------------
  // payment and card validation

  const PaymentMethods: seq<string> := ["alipay", "wechat", "card", "paypal"]

  /** Card details as the form hands them over (absent text fields are empty). */
  datatype CardInfo = CardInfo(cardholderName: string, maskedNumber: string, expiryMonth: string, expiryYear: string)

  /** The payment request. `amount` and `timestamp` are `None` when missing; a missing payment method is
      the empty string. */
  datatype PaymentData = PaymentData(amount: Option<int>, paymentMethod: string, cardInfo: Option<CardInfo>,
                                     timestamp: Option<int>)

  /** `isValidCardNumber`: at least ten digits once everything else is dropped, and the first digit
      one of 3, 4, 5, 6. There is no checksum (Luhn) test. */
  function IsValidCardNumber(masked: string): (b: bool)
    ensures b <==> |Digits(masked)| >= 10 && exists i :: FirstDigitAt(masked, i) && masked[i] in "3456"
  {
    FirstDigit(masked);
    var visible := Digits(masked);
    |visible| >= 10 && visible[0] in "3456"
  }

  /** `validateCardInfo` at the given two-digit year and month: the list of problems found. */
  function ValidateCardInfo(card: CardInfo, currentYear: int, currentMonth: int): (errs: seq<string>)
    ensures errs == [] <==>
              |card.cardholderName| >= 2 && IsValidCardNumber(card.maskedNumber)
              && card.expiryMonth != [] && card.expiryYear != []
              && !CardExpired(card, currentYear, currentMonth)
  {
    (if |card.cardholderName| < 2 then ["持卡人姓名无效"] else [])
    + (if !IsValidCardNumber(card.maskedNumber) then ["银行卡号无效"] else [])
    + (if card.expiryMonth == [] || card.expiryYear == [] then ["有效期无效"] else [])
    + (if CardExpired(card, currentYear, currentMonth) then ["银行卡已过期"] else [])
  }

  /** `parseInt` of year and month against today; an unparseable field (NaN) never compares true. */
  predicate CardExpired(card: CardInfo, currentYear: int, currentMonth: int) {
    var year := ParseInt(card.expiryYear);
    var month := ParseInt(card.expiryMonth);
    year.Some? && (year.value < currentYear || (year.value == currentYear && month.Some? && month.value < currentMonth))
  }

  /** A card whose expiry year does not parse is never reported as expired. */
  lemma UnparseableExpiryNeverExpired(card: CardInfo, y: int, m: int)
    requires ParseInt(card.expiryYear).None?
    ensures "银行卡已过期" !in ValidateCardInfo(card, y, m)
  {
    var expired := "银行卡已过期";
    var name := if |card.cardholderName| < 2 then ["持卡人姓名无效"] else [];
    var number := if !IsValidCardNumber(card.maskedNumber) then ["银行卡号无效"] else [];
    var date := if card.expiryMonth == [] || card.expiryYear == [] then ["有效期无效"] else [];
    assert !CardExpired(card, y, m);
    assert ValidateCardInfo(card, y, m) == name + number + date + [];
    assert expired !in name by { assert expired[0] != "持卡人姓名无效"[0]; }
    assert expired !in number by { assert expired[3] != "银行卡号无效"[3]; }
    assert expired !in date by { assert |expired| != |"有效期无效"|; }
  }

  /** An expiry year typed as `0x1F` is read in base sixteen as year 31, so it is compared with
      the current two-digit year as 31. */
  lemma HexExpiryYearReadAsHex(card: CardInfo, y: int, m: int)
    requires card.expiryYear == "0x1F"
    ensures ParseInt(card.expiryYear) == Some(31)
    ensures y > 31 ==> CardExpired(card, y, m)
    ensures y < 31 ==> !CardExpired(card, y, m)
  {
    var h := "1F";
    assert card.expiryYear == "0x" + h;
    assert HexValue(h) == 31 by {
      assert h[..1] == "1";
      assert HexValue(h[..1]) == 1;
    }
    ParseIntHex(h);
  }

  /** Absolute difference. */
  function Abs(x: int): nat {
    if x < 0 then -x else x
  }

  /** What `validatePaymentData` does: accept, throw a validation error listing every problem, or
      (for a null request) fail with a `TypeError` when it reads `amount` of null. */
  datatype PaymentVerdict = Accepted | Rejected(messages: seq<string>) | NullRequest

  /** The problems with a non-null payment request at `now`, in the order they are reported. */
  function PaymentErrors(pd: PaymentData, now: int, currentYear: int, currentMonth: int): seq<string> {
    (if pd.amount.None? || pd.amount.value <= 0 then ["无效的支付金额"] else [])
    + (if pd.amount.Some? && pd.amount.value > 10000 then ["支付金额超出限制"] else [])
    + (if pd.paymentMethod !in PaymentMethods then ["不支持的支付方式"] else [])
    + (if pd.paymentMethod == "card" && pd.cardInfo.Some? then ValidateCardInfo(pd.cardInfo.value, currentYear, currentMonth) else [])
    + (if pd.timestamp.None? || pd.timestamp.value == 0 || Abs(now - pd.timestamp.value) > ReplayWindow
       then ["请求已过期，请重新提交"] else [])
  }

  /** `validatePaymentData`: accepts exactly when the amount is in (0, 10000], the method is one of
      the four supported, card details (if any) check out, and the timestamp is present and within
      five minutes of `now` either way. */
  function ValidatePaymentData(pd: Option<PaymentData>, now: int, currentYear: int, currentMonth: int)
    : (r: PaymentVerdict)
    ensures pd.None? <==> r == NullRequest
    ensures pd.Some? ==>
              (r == Accepted <==>
                 && pd.value.amount.Some? && 0 < pd.value.amount.value <= 10000
                 && pd.value.paymentMethod in PaymentMethods
                 && (pd.value.paymentMethod == "card" && pd.value.cardInfo.Some? ==>
                       ValidateCardInfo(pd.value.cardInfo.value, currentYear, currentMonth) == [])
                 && pd.value.timestamp.Some? && pd.value.timestamp.value != 0
                 && Abs(now - pd.value.timestamp.value) <= ReplayWindow)
  {
    match pd
    case None => NullRequest
    case Some(p) =>
      var errs := PaymentErrors(p, now, currentYear, currentMonth);
      if errs == [] then Accepted else Rejected(errs)
  }

  /** A replayed request more than five minutes old is refused whatever else it carries. */
  lemma StaleRequestRejected(pd: PaymentData, now: int, y: int, m: int)
    requires pd.timestamp.Some? && now - pd.timestamp.value > ReplayWindow
    ensures ValidatePaymentData(Some(pd), now, y, m).Rejected?
    ensures "请求已过期，请重新提交" in ValidatePaymentData(Some(pd), now, y, m).messages
  {
  }

  // ---------------------------------------------------------------------------------------------
  // checksum and the "encrypted" envelope

  const TwoTo31: int := 0x8000_0000
  const TwoTo32: int := 0x1_0000_0000

  /** `ToInt32`: the signed 32-bit value congruent to `x` modulo 2^32. */
  function ToInt32(x: int): (r: int)
    ensures -TwoTo31 <= r < TwoTo31
    ensures (x - r) % TwoTo32 == 0
  {
    (x + TwoTo31) % TwoTo32 - TwoTo31
  }

  /** One step of the loop as written: `hash << 5` wraps to 32 bits, then `- hash + char`, then
      `hash & hash` wraps the sum. */
  function ChecksumStep(h: int, c: char): int {
    ToInt32(ToInt32(h * 32) - h + c as int)
  }

  /** `calculateChecksum` as an integer (before `toString(16)`), folding from the left. */
  function Checksum(s: string): (h: int)
    ensures -TwoTo31 <= h < TwoTo31
  {
    if s == [] then 0 else ChecksumStep(Checksum(s[..|s| - 1]), s[|s| - 1])
  }

  /** The polynomial string hash: the sum of the character codes weighted by powers of 31. */
  function PolyHash(s: string): int {
    if s == [] then 0 else 31 * PolyHash(s[..|s| - 1]) + s[|s| - 1] as int
  }

  lemma ToInt32Congruent(x: int, y: int)
    requires (x - y) % TwoTo32 == 0
    ensures ToInt32(x) == ToInt32(y)
  {
    var k := (x - y) / TwoTo32;
    assert x == y + k * TwoTo32;
    ModShift(y + TwoTo31, k);
  }

  lemma ModShift(a: int, k: int)
    ensures (a + k * TwoTo32) % TwoTo32 == a % TwoTo32
  {
  }

  /** Each step is `31 * h + c` wrapped to 32 bits: the inner wrap of `h << 5` does not matter. */
  lemma StepIsWrappedPolyStep(h: int, c: char)
    ensures ChecksumStep(h, c) == ToInt32(31 * h + c as int)
  {
    var inner := ToInt32(h * 32);
    assert (h * 32 - inner) % TwoTo32 == 0;
    assert ((inner - h + c as int) - (31 * h + c as int)) % TwoTo32 == 0 by {
      assert (inner - h + c as int) - (31 * h + c as int) == -(h * 32 - inner);
    }
    ToInt32Congruent(inner - h + c as int, 31 * h + c as int);
  }

  /** The checksum is the polynomial hash of the text reduced to a signed 32-bit value. */
  lemma {:induction false} ChecksumIsWrappedPolyHash(s: string)
    ensures Checksum(s) == ToInt32(PolyHash(s))
  {
    if s != [] {
      var p := s[..|s| - 1];
      var c := s[|s| - 1];
      ChecksumIsWrappedPolyHash(p);
      StepIsWrappedPolyStep(Checksum(p), c);
      assert (31 * Checksum(p) + c as int - (31 * PolyHash(p) + c as int)) % TwoTo32 == 0 by {
        var d := PolyHash(p) - Checksum(p);
        assert d % TwoTo32 == 0;
        assert 31 * Checksum(p) + c as int - (31 * PolyHash(p) + c as int) == -31 * d;
        ModScale(d, -31);
      }
      ToInt32Congruent(31 * Checksum(p) + c as int, 31 * PolyHash(p) + c as int);
    }
  }

  lemma ModScale(d: int, m: int)
    requires d % TwoTo32 == 0
    ensures (m * d) % TwoTo32 == 0
  {
    var k := d / TwoTo32;
    assert d == k * TwoTo32;
    assert m * d == (m * k) * TwoTo32;
  }

  /** The envelope `encryptSensitiveData` returns; `data` is the already encoded payload. */
  datatype Envelope = Envelope(data: string, timestamp: int, checksum: int, version: string)

  /** `encryptSensitiveData` on an encoded payload at `now`: the checksum covers the payload with
      the decimal timestamp appended. */
  function Encrypt(encoded: string, now: int): (e: Envelope)
    ensures e.data == encoded && e.timestamp == now && e.version == "1.0"
    ensures e.checksum == ToInt32(PolyHash(encoded + IntToString(now)))
  {
    ChecksumIsWrappedPolyHash(encoded + IntToString(now));
    Envelope(encoded, now, Checksum(encoded + IntToString(now)), "1.0")
  }

  /** `decryptSensitiveData` at `now`, with `decode` standing for the base64/JSON decoding: first
      the integrity check, then the one-hour age limit, then decoding. */
  function Decrypt<T>(e: Envelope, now: int, decode: string -> Option<T>): (r: Result<T>)
    ensures Checksum(e.data + IntToString(e.timestamp)) != e.checksum ==> r == Err(IntegrityCheckFailed)
    ensures Checksum(e.data + IntToString(e.timestamp)) == e.checksum && now - e.timestamp > EncryptedLifetime
            ==> r == Err(EncryptedDataExpired)
    ensures r.Ok? ==> decode(e.data) == Some(r.value)
  {
    if Checksum(e.data + IntToString(e.timestamp)) != e.checksum then Err(IntegrityCheckFailed)
    else if now - e.timestamp > EncryptedLifetime then Err(EncryptedDataExpired)
    else match decode(e.data)
      case Some(v) => Ok(v)
      case None => Err(DecryptionFailed)
  }

  /** Within the hour, decrypting what was encrypted gives back the decoded payload. */
  lemma DecryptEncrypt<T>(encoded: string, sealedAt: int, now: int, decode: string -> Option<T>)
    requires now - sealedAt <= EncryptedLifetime
    ensures decode(encoded).Some? ==> Decrypt(Encrypt(encoded, sealedAt), now, decode) == Ok(decode(encoded).value)
    ensures decode(encoded).None? ==> Decrypt(Encrypt(encoded, sealedAt), now, decode) == Err(DecryptionFailed)
  {
  }

  /** Any tampering with the checksum is detected, however fresh the envelope. */
  lemma TamperedChecksumDetected<T>(encoded: string, sealedAt: int, forged: int, now: int, decode: string -> Option<T>)
    requires forged != Encrypt(encoded, sealedAt).checksum
    ensures Decrypt(Encrypt(encoded, sealedAt).(checksum := forged), now, decode) == Err(IntegrityCheckFailed)
  {
  }

  // ---------------------------------------------------------------------------------------------
  // failed attempts

  /** The failed-attempt counter and the lockout time, as stored. */
  datatype Lockout = Lockout(failedAttempts: nat, lockoutTime: Option<int>)

  /** `recordFailedAttempt` at `now`: one more failure; from the fifth on, the lockout time is
      (re)set to `now`. */
  function RecordFailedAttempt(l: Lockout, now: int): (r: Lockout)
    ensures r.failedAttempts == l.failedAttempts + 1
    ensures r.failedAttempts >= MaxFailedAttempts ==> r.lockoutTime == Some(now)
    ensures r.failedAttempts < MaxFailedAttempts ==> r.lockoutTime == l.lockoutTime
  {
    var n := l.failedAttempts + 1;
    Lockout(n, if n >= MaxFailedAttempts then Some(now) else l.lockoutTime)
  }

  /** `resetFailedAttempts`: both keys removed (the counter then reads as 0). */
  function ResetFailedAttempts(): Lockout {
    Lockout(0, None)
  }

  /** `k` failures recorded at the given times after a reset. */
  function RecordAll(l: Lockout, times: seq<int>): Lockout {
    if times == [] then l else RecordFailedAttempt(RecordAll(l, times[..|times| - 1]), times[|times| - 1])
  }

  /** After a reset, `k` failures leave the counter at `k`, and the account is locked exactly when
      `k` reaches five, with the lockout time of the latest failure. */
  lemma {:induction false} LockoutAfterFailures(times: seq<int>)
    ensures RecordAll(ResetFailedAttempts(), times).failedAttempts == |times|
    ensures RecordAll(ResetFailedAttempts(), times).lockoutTime.Some? <==> |times| >= MaxFailedAttempts
    ensures |times| >= MaxFailedAttempts ==>
              RecordAll(ResetFailedAttempts(), times).lockoutTime == Some(times[|times| - 1])
  {
    if times != [] {
      LockoutAfterFailures(times[..|times| - 1]);
    }
  }

  // ---------------------------------------------------------------------------------------------
  // SecurityUtils

  datatype Strength = Weak | Medium | Strong

  datatype StrengthReport = StrengthReport(score: nat, strength: Strength)

  /** The number of checks passed: length 8, upper, lower, digit, symbol. */
  function StrengthScore(s: string): (n: nat)
    ensures n <= 5
  {
    Validation.Point(|s| >= 8) + Validation.Point(Validation.HasUpper(s)) + Validation.Point(Validation.HasLower(s))
    + Validation.Point(Validation.HasDigit(s)) + Validation.Point(Validation.HasSymbol(s))
  }

  /** `checkPasswordStrength`: weak below 3 checks, medium at 3, strong at 4 or 5. */
  function CheckPasswordStrength(s: string): (r: StrengthReport)
    ensures r.score == StrengthScore(s) && r.score <= 5
    ensures r.strength == Weak <==> r.score < 3
    ensures r.strength == Medium <==> r.score == 3
    ensures r.strength == Strong <==> r.score >= 4
  {
    var score := StrengthScore(s);
    StrengthReport(score, if score < 3 then Weak else if score < 4 then Medium else Strong)
  }

  /** The form validator's score is this score plus a point for twelve characters. */
  lemma ScoresAgree(s: string)
    requires |s| >= 6
    ensures Validation.ValidatePassword(s).score == StrengthScore(s) + Validation.Point(|s| >= 12)
  {
  }

  /** The two scorers disagree on short passwords: four characters of every class are "strong"
      here, while the form validator refuses anything under six characters. */
  lemma StrongButTooShort()
    ensures CheckPasswordStrength("Aa1!").strength == Strong
    ensures !Validation.ValidatePassword("Aa1!").isValid
  {
    var s := "Aa1!";
    assert Validation.IsUpperAscii(s[0]) && Validation.IsLowerAscii(s[1]);
    assert IsDigit(s[2]) && Validation.IsPasswordSymbol(s[3]);
  }

  /** `sanitizeInput`: non-strings come back unchanged; in strings `<`, `>`, `"`, `'` and `/` are
      replaced in that order by their entities (`&` is left as it is). */
  function SanitizeInput(v: JsValue): (r: JsValue)
    ensures !v.Str? ==> r == v
    ensures v.Str? ==> r.Str? && NoUnsafe(r.s)
  {
    match v
    case Str(s) => SanitizedTextIsSafe(s); Str(SanitizeText(s))
    case _ => v
  }

  /** The chain of five global replacements. */
  function SanitizeText(s: string): string {
    var a := ReplaceAll(s, '<', "&lt;");
    var b := ReplaceAll(a, '>', "&gt;");
    var c := ReplaceAll(b, '"', "&quot;");
    var d := ReplaceAll(c, '\'', "&#x27;");
    ReplaceAll(d, '/', "&#x2F;")
  }

  /** Each replacement removes its character and brings back none of the earlier ones. */
  lemma SanitizedTextIsSafe(s: string)
    ensures NoUnsafe(SanitizeText(s))
  {
    var a := ReplaceAll(s, '<', "&lt;");
    var b := ReplaceAll(a, '>', "&gt;");
    var c := ReplaceAll(b, '"', "&quot;");
    var d := ReplaceAll(c, '\'', "&#x27;");
    ReplaceAllRemoves(s, '<', "&lt;");
    ReplaceAllKeepsAbsent(a, '>', "&gt;", '<');
    ReplaceAllRemoves(a, '>', "&gt;");
    ReplaceAllKeepsAbsent(b, '"', "&quot;", '<');
    ReplaceAllKeepsAbsent(b, '"', "&quot;", '>');
    ReplaceAllRemoves(b, '"', "&quot;");
    ReplaceAllKeepsAbsent(c, '\'', "&#x27;", '<');
    ReplaceAllKeepsAbsent(c, '\'', "&#x27;", '>');
    ReplaceAllKeepsAbsent(c, '\'', "&#x27;", '"');
    ReplaceAllRemoves(c, '\'', "&#x27;");
    ReplaceAllKeepsAbsent(d, '/', "&#x2F;", '<');
    ReplaceAllKeepsAbsent(d, '/', "&#x2F;", '>');
    ReplaceAllKeepsAbsent(d, '/', "&#x2F;", '"');
    ReplaceAllKeepsAbsent(d, '/', "&#x2F;", '\'');
    ReplaceAllRemoves(d, '/', "&#x2F;");
  }

  predicate NoUnsafe(s: string) {
    '<' !in s && '>' !in s && '"' !in s && '\'' !in s && '/' !in s
  }

  /** Text without any of the five characters passes through unchanged. */
  lemma SanitizeInputKeepsSafeText(s: string)
    requires NoUnsafe(s)
    ensures SanitizeInput(Str(s)) == Str(s)
  {
    ReplaceAllAbsent(s, '<', "&lt;");
    ReplaceAllAbsent(s, '>', "&gt;");
    ReplaceAllAbsent(s, '"', "&quot;");
    ReplaceAllAbsent(s, '\'', "&#x27;");
    ReplaceAllAbsent(s, '/', "&#x2F;");
  }

  /** Because `&` is not escaped, sanitising loses information: a raw `<` and a typed `&lt;` come
      out the same. */
  lemma SanitizeInputNotInjective()
    ensures SanitizeInput(Str("<")) == SanitizeInput(Str("&lt;"))
  {
    var lt: string := "&lt;";
    var one: string := "<";
    assert one[0] == '<' && one[1..] == [];
    assert ReplaceAll([], '<', lt) == [];
    assert ReplaceAll(one, '<', lt) == lt;
    assert '<' !in lt;
    ReplaceAllAbsent(lt, '<', lt);
    assert ReplaceAll(one, '<', lt) == ReplaceAll(lt, '<', lt);
  }
}

=== FILE: service_worker.dfy ===
/** The service worker: install-time precaching of the app shell, activation-time pruning of old
    caches, per-request strategy routing, and the cache-statistics reply. Cache Storage is an
    ordered list of named caches (the order `caches.keys()` reports and `caches.match` searches);
    the network is a function from path to fetch outcome. */
module ServiceWorker {
  import opened Values

  const CacheName: string := "quiter-v1"
  const StaticCache: string := "quiter-static-v1"
  const DynamicCache: string := "quiter-dynamic-v1"

  /** The app shell precached at install. */
  const StaticAssets: seq<string> := [
    "/", "/index.html", "/learning.html", "/community.html", "/css/styles.css", "/js/utils.js",
    "/js/loading.js", "/js/search.js", "/js/performance.js", "/js/validation.js", "/js/offline.js",
    "/js/darkmode.js"]

  /** The document served to a failed navigation that has no cached copy of its own. */
  const ShellPage: string := "/index.html"

  datatype Response = Response(status: int, body: string, contentType: string)

  /** `response.ok`: a 2xx status. */
  predicate Ok(r: Response) {
    200 <= r.status <= 299
  }

  /** The "image failed to load" SVG placeholder. */
  const Placeholder: Response := Response(200,
    "<svg xmlns=\"http://www.w3.org/2000/svg\" width=\"200\" height=\"200\" viewBox=\"0 0 200 200\"><rect width=\"200\" height=\"200\" fill=\"#f0f0f0\"/><text x=\"100\" y=\"100\" text-anchor=\"middle\" dy=\".3em\" fill=\"#999\">图片加载失败</text></svg>",
    "image/svg+xml")

  /** What `fetch` settles with: a response (of any status), or a rejection. */
  datatype FetchOutcome = NetworkError | Fetched(response: Response)

  datatype NamedCache = NamedCache(name: string, entries: map<string, Response>)

  /** No two caches share a name. */
  predicate WellFormed(cs: seq<NamedCache>) {
    forall i, j :: 0 <= i < j < |cs| ==> cs[i].name != cs[j].name
  }

  predicate HasCache(cs: seq<NamedCache>, name: string) {
    exists i :: 0 <= i < |cs| && cs[i].name == name
  }

  /** The entry for `url` in the cache called `name`, if both exist. */
  function Entry(cs: seq<NamedCache>, name: string, url: string): Option<Response> {
    if cs == [] then None
    else if cs[0].name == name then (if url in cs[0].entries then Some(cs[0].entries[url]) else None)
    else Entry(cs[1..], name, url)
  }

  /** `caches.open(name)`: the existing cache, or a new empty one added last. */
  function Open(cs: seq<NamedCache>, name: string): (cs': seq<NamedCache>)
    ensures HasCache(cs', name)
    ensures HasCache(cs, name) ==> cs' == cs
    ensures !HasCache(cs, name) ==> cs' == cs + [NamedCache(name, map[])]
    ensures WellFormed(cs) ==> WellFormed(cs')
    ensures forall n, u :: Entry(cs', n, u) == Entry(cs, n, u)
  {
    if HasCache(cs, name) then cs
    else
      var r := cs + [NamedCache(name, map[])];
      assert r[|cs|].name == name;
      forall n, u ensures Entry(r, n, u) == Entry(cs, n, u) {
        EntryAppendEmpty(cs, name, n, u);
      }
      r
  }

  /** A new, empty cache adds no entries. */
  lemma {:induction false} EntryAppendEmpty(cs: seq<NamedCache>, name: string, n: string, u: string)
    requires !HasCache(cs, name)
    ensures Entry(cs + [NamedCache(name, map[])], n, u) == Entry(cs, n, u)
  {
    if cs != [] {
      assert (cs + [NamedCache(name, map[])])[1..] == cs[1..] + [NamedCache(name, map[])];
      assert forall i :: 0 <= i < |cs[1..]| ==> cs[1..][i] == cs[i + 1];
      EntryAppendEmpty(cs[1..], name, n, u);
    }
  }

  /** `caches.open(name).then(c => c.put(url, resp))`. */
  function Put(cs: seq<NamedCache>, name: string, url: string, resp: Response): (cs': seq<NamedCache>)
    ensures |cs'| >= |cs|
    ensures Entry(cs', name, url) == Some(resp)
    ensures forall n, u :: n != name || u != url ==> Entry(cs', n, u) == Entry(cs, n, u)
    ensures forall i :: 0 <= i < |cs| ==> cs'[i].name == cs[i].name
    ensures WellFormed(cs) ==> WellFormed(cs')
  {
    PutExisting(Open(cs, name), name, url, resp)
  }

  function PutExisting(cs: seq<NamedCache>, name: string, url: string, resp: Response)
    : (cs': seq<NamedCache>)
    requires HasCache(cs, name)
    ensures |cs'| == |cs|
    ensures forall i :: 0 <= i < |cs| ==> cs'[i].name == cs[i].name
    ensures Entry(cs', name, url) == Some(resp)
    ensures forall n, u :: n != name || u != url ==> Entry(cs', n, u) == Entry(cs, n, u)
    ensures WellFormed(cs) ==> WellFormed(cs')
  {
    if cs[0].name == name then [cs[0].(entries := cs[0].entries[url := resp])] + cs[1..]
    else
      assert HasCache(cs[1..], name) by {
        var i :| 0 <= i < |cs| && cs[i].name == name;
        assert cs[1..][i - 1].name == name;
      }
      [cs[0]] + PutExisting(cs[1..], name, url, resp)
  }

  /** Helper for the open-then-put path: the caches that exist before still exist after. */
  lemma {:induction false} PutKeepsCaches(cs: seq<NamedCache>, name: string, url: string, resp: Response, n: string)
    requires HasCache(cs, n)
    ensures HasCache(Put(cs, name, url, resp), n)
  {
    var i :| 0 <= i < |cs| && cs[i].name == n;
    assert Put(cs, name, url, resp)[i].name == n;
  }

  /** `caches.match(url)`: the first cache, in creation order, holding `url`. */
  function Match(cs: seq<NamedCache>, url: string): (r: Option<Response>)
    ensures r.Some? ==> exists i :: 0 <= i < |cs| && url in cs[i].entries && cs[i].entries[url] == r.value
    ensures r.None? ==> forall i :: 0 <= i < |cs| ==> url !in cs[i].entries
  {
    if cs == [] then None
    else if url in cs[0].entries then Some(cs[0].entries[url])
    else
      var r := Match(cs[1..], url);
      assert forall i :: 1 <= i < |cs| ==> cs[i] == cs[1..][i - 1];
      r
  }

  // ---------------------------------------------------------------------------------------------
  // install

  /** Every URL fetches with an ok response. */
  predicate AllFetchOk(urls: seq<string>, net: string -> FetchOutcome) {
    forall i :: 0 <= i < |urls| ==> net(urls[i]).Fetched? && Ok(net(urls[i]).response)
  }

  /** `cache.addAll(urls)`: all or nothing. Every URL must fetch with an ok response, otherwise the
      call rejects and the cache is left as it was; on success each URL maps to its response and
      every other entry stays. */
  function AddAll(entries: map<string, Response>, urls: seq<string>, net: string -> FetchOutcome)
    : (r: Option<map<string, Response>>)
    decreases |urls|
    ensures r.Some? <==> AllFetchOk(urls, net)
    ensures r.Some? ==> r.value.Keys == entries.Keys + set u | u in urls
    ensures r.Some? ==> forall u :: u in urls ==> r.value[u] == net(u).response
    ensures r.Some? ==> forall u :: u in entries && u !in urls ==> r.value[u] == entries[u]
  {
    if urls == [] then Some(entries)
    else
      match net(urls[0])
      case NetworkError => None
      case Fetched(resp) =>
        if !Ok(resp) then None
        else
          var rest := AddAll(entries[urls[0] := resp], urls[1..], net);
          assert urls == [urls[0]] + urls[1..];
          assert (set u | u in urls) == {urls[0]} + set u | u in urls[1..];
          rest
  }

  /** The `install` handler: opens the static cache and precaches the shell. A failed `addAll` is
      caught and logged, so the opened (possibly empty) cache stays and `skipWaiting` is skipped. */
  function Install(cs: seq<NamedCache>, net: string -> FetchOutcome): (r: (seq<NamedCache>, bool))
    ensures HasCache(r.0, StaticCache)
    ensures r.1 <==> AllFetchOk(StaticAssets, net)
    ensures r.1 ==> forall u :: u in StaticAssets ==> Entry(r.0, StaticCache, u) == Some(net(u).response)
    ensures forall u :: u !in StaticAssets ==> Entry(r.0, StaticCache, u) == Entry(cs, StaticCache, u)
    ensures forall n, u :: n != StaticCache ==> Entry(r.0, n, u) == Entry(cs, n, u)
    ensures !r.1 ==> r.0 == Open(cs, StaticCache)
    ensures WellFormed(cs) ==> WellFormed(r.0)
  {
    var withStatic := Open(cs, StaticCache);
    var i := IndexOf(withStatic, StaticCache);
    match AddAll(withStatic[i].entries, StaticAssets, net)
    case None => (withStatic, false)
    case Some(entries) =>
      PrecachedEntries(cs, i, entries, net);
      PrecachedShape(cs, i, entries);
      (withStatic[i := withStatic[i].(entries := entries)], true)
  }

  /** The successful branch of `Install`: the precached entries replace those of the static cache. */
  lemma PrecachedEntries(cs: seq<NamedCache>, i: nat, entries: map<string, Response>, net: string -> FetchOutcome)
    requires i == IndexOf(Open(cs, StaticCache), StaticCache)
    requires AddAll(Open(cs, StaticCache)[i].entries, StaticAssets, net) == Some(entries)
    ensures var withStatic := Open(cs, StaticCache);
            var cs' := withStatic[i := withStatic[i].(entries := entries)];
            && (forall u :: u in StaticAssets ==> Entry(cs', StaticCache, u) == Some(net(u).response))
            && (forall u :: u !in StaticAssets ==> Entry(cs', StaticCache, u) == Entry(cs, StaticCache, u))
            && (forall n, u :: n != StaticCache ==> Entry(cs', n, u) == Entry(cs, n, u))
  {
    PrecachedAssets(cs, i, entries, net);
    PrecachedRest(cs, i, entries, net);
    var withStatic := Open(cs, StaticCache);
    EntryUpdateOther(withStatic, i, entries);
  }

  /** Each shell asset reads back as its fetched response. */
  lemma PrecachedAssets(cs: seq<NamedCache>, i: nat, entries: map<string, Response>, net: string -> FetchOutcome)
    requires i == IndexOf(Open(cs, StaticCache), StaticCache)
    requires AddAll(Open(cs, StaticCache)[i].entries, StaticAssets, net) == Some(entries)
    ensures var withStatic := Open(cs, StaticCache);
            var cs' := withStatic[i := withStatic[i].(entries := entries)];
            forall u :: u in StaticAssets ==> Entry(cs', StaticCache, u) == Some(net(u).response)
  {
    var withStatic := Open(cs, StaticCache);
    var cs' := withStatic[i := withStatic[i].(entries := entries)];
    EntryAt(cs', i, StaticCache);
    forall u | u in StaticAssets ensures Entry(cs', StaticCache, u) == Some(net(u).response) {
      assert u in entries;
    }
  }

  /** Any other URL of the static cache reads as it did before the install. */
  lemma PrecachedRest(cs: seq<NamedCache>, i: nat, entries: map<string, Response>, net: string -> FetchOutcome)
    requires i == IndexOf(Open(cs, StaticCache), StaticCache)
    requires AddAll(Open(cs, StaticCache)[i].entries, StaticAssets, net) == Some(entries)
    ensures var withStatic := Open(cs, StaticCache);
            var cs' := withStatic[i := withStatic[i].(entries := entries)];
            forall u :: u !in StaticAssets ==> Entry(cs', StaticCache, u) == Entry(cs, StaticCache, u)
  {
    var withStatic := Open(cs, StaticCache);
    var old_ := withStatic[i].entries;
    var cs' := withStatic[i := withStatic[i].(entries := entries)];
    forall u | u !in StaticAssets ensures Entry(cs', StaticCache, u) == Entry(cs, StaticCache, u) {
      assert u in entries <==> u in old_;
      SameEntryAfterReplace(withStatic, i, StaticCache, entries, u);
      assert Entry(withStatic, StaticCache, u) == Entry(cs, StaticCache, u);
    }
  }

  /** Replacing the entries of the first cache with a name changes nothing at a URL whose entry
      the new map keeps. */
  lemma SameEntryAfterReplace(cs: seq<NamedCache>, i: nat, name: string, entries: map<string, Response>, u: string)
    requires i < |cs| && cs[i].name == name
    requires forall j :: 0 <= j < i ==> cs[j].name != name
    requires u in entries <==> u in cs[i].entries
    requires u in entries ==> entries[u] == cs[i].entries[u]
    ensures Entry(cs[i := cs[i].(entries := entries)], name, u) == Entry(cs, name, u)
  {
    var cs' := cs[i := cs[i].(entries := entries)];
    EntryAt(cs, i, name);
    EntryAt(cs', i, name);
  }

  /** Replacing the entries of the static cache keeps it present and keeps names distinct. */
  lemma PrecachedShape(cs: seq<NamedCache>, i: nat, entries: map<string, Response>)
    requires i == IndexOf(Open(cs, StaticCache), StaticCache)
    ensures var withStatic := Open(cs, StaticCache);
            var cs' := withStatic[i := withStatic[i].(entries := entries)];
            && HasCache(cs', StaticCache)
            && (WellFormed(cs) ==> WellFormed(cs'))
  {
    var withStatic := Open(cs, StaticCache);
    var cs' := withStatic[i := withStatic[i].(entries := entries)];
    assert cs'[i].name == StaticCache;
    if WellFormed(cs) {
      assert WellFormed(withStatic);
      assert forall j :: 0 <= j < |cs'| ==> cs'[j].name == withStatic[j].name;
    }
  }

  function IndexOf(cs: seq<NamedCache>, name: string): (i: nat)
    requires HasCache(cs, name)
    ensures i < |cs| && cs[i].name == name
    ensures forall j :: 0 <= j < i ==> cs[j].name != name
  {
    if cs[0].name == name then 0
    else
      assert HasCache(cs[1..], name) by {
        var k :| 0 <= k < |cs| && cs[k].name == name;
        assert cs[1..][k - 1].name == name;
      }
      1 + IndexOf(cs[1..], name)
  }

  /** In a well-formed list, the named cache's entries are those at its position. */
  lemma {:induction false} EntryAt(cs: seq<NamedCache>, i: nat, name: string)
    requires i < |cs| && cs[i].name == name
    requires forall j :: 0 <= j < i ==> cs[j].name != name
    ensures forall u :: Entry(cs, name, u) == (if u in cs[i].entries then Some(cs[i].entries[u]) else None)
  {
    if i > 0 {
      EntryAt(cs[1..], i - 1, name);
    }
  }

  /** Replacing the entries of one cache leaves every other name's entries as they were. */
  lemma {:induction false} EntryUpdateOther(cs: seq<NamedCache>, i: nat, entries: map<string, Response>)
    requires i < |cs|
    ensures forall n, u :: n != cs[i].name ==> Entry(cs[i := cs[i].(entries := entries)], n, u) == Entry(cs, n, u)
  {
    var cs' := cs[i := cs[i].(entries := entries)];
    if i > 0 {
      EntryUpdateOther(cs[1..], i - 1, entries);
      assert cs'[1..] == cs[1..][i - 1 := cs[i].(entries := entries)];
    }
  }

  // ---------------------------------------------------------------------------------------------
  // activate

  predicate Current(name: string) {
    name == StaticCache || name == DynamicCache
  }

  /** The `activate` handler: every cache whose name is not the current static or dynamic name is
      deleted; the two current caches keep their contents and order. */
  function Activate(cs: seq<NamedCache>): (cs': seq<NamedCache>)
    ensures forall c :: c in cs' ==> c in cs && Current(c.name)
    ensures forall c :: c in cs && Current(c.name) ==> c in cs'
    ensures WellFormed(cs) ==> WellFormed(cs')
    ensures forall n, u :: Current(n) && WellFormed(cs) ==> Entry(cs', n, u) == Entry(cs, n, u)
  {
    if cs == [] then []
    else
      var rest := Activate(cs[1..]);
      if Current(cs[0].name) then [cs[0]] + rest else rest
  }

  /** After activation only the current caches exist; the old generic name is gone for good. */
  lemma ActivateLeavesOnlyCurrent(cs: seq<NamedCache>)
    ensures forall i :: 0 <= i < |Activate(cs)| ==> Current(Activate(cs)[i].name)
    ensures !HasCache(Activate(cs), CacheName)
    ensures HasCache(cs, StaticCache) ==> HasCache(Activate(cs), StaticCache)
    ensures HasCache(cs, DynamicCache) ==> HasCache(Activate(cs), DynamicCache)
  {
    var a := Activate(cs);
    forall i | 0 <= i < |a| ensures Current(a[i].name) {
      assert a[i] in a;
    }
    assert |CacheName| != |StaticCache| && |CacheName| != |DynamicCache|;
    ActivateKeeps(cs, StaticCache);
    ActivateKeeps(cs, DynamicCache);
  }

  /** A current cache that exists before activation exists after it. */
  lemma ActivateKeeps(cs: seq<NamedCache>, name: string)
    requires Current(name)
    ensures HasCache(cs, name) ==> HasCache(Activate(cs), name)
  {
    if HasCache(cs, name) {
      var i :| 0 <= i < |cs| && cs[i].name == name;
      assert cs[i] in cs;
      var a := Activate(cs);
      assert cs[i] in a;
      var j :| 0 <= j < |a| && a[j] == cs[i];
    }
  }

  // ---------------------------------------------------------------------------------------------
  // fetch

  datatype Mode = Navigate | OtherMode
  datatype Destination = Image | OtherDestination
  datatype HttpMethod = Get | Post | OtherMethod

  /** A request. `url` is the request URL without its origin, query string included; with the origin
      fixed it is the key the Cache API stores and matches on. */
  datatype Request = Request(origin: string, url: string, httpMethod: HttpMethod, mode: Mode,
                             destination: Destination)

  /** How the worker answers: not intercepted; a response; `respondWith(undefined)` (no cached
      shell either); or the fetch error rethrown. */
  datatype Reply = PassThrough | Respond(response: Response) | NoResponse | Fail

  /** `caches.match(request)`: the Cache API only ever matches a GET request. */
  function MatchRequest(cs: seq<NamedCache>, req: Request): (r: Option<Response>)
    ensures req.httpMethod != Get ==> r.None?
    ensures req.httpMethod == Get ==> r == Match(cs, req.url)
  {
    if req.httpMethod == Get then Match(cs, req.url) else None
  }

  /** `caches.open(DYNAMIC_CACHE).then(c => c.put(request, resp))`: `put` rejects a request that is
      not a GET, so the caches stay as they were (the rejection is not observed by the handler). */
  function PutRequest(cs: seq<NamedCache>, req: Request, resp: Response): (cs': seq<NamedCache>)
    ensures req.httpMethod == Get ==> Entry(cs', DynamicCache, req.url) == Some(resp)
    ensures req.httpMethod != Get ==> cs' == cs
    ensures forall n, u :: n != DynamicCache || u != req.url ==> Entry(cs', n, u) == Entry(cs, n, u)
    ensures WellFormed(cs) ==> WellFormed(cs')
  {
    if req.httpMethod == Get then Put(cs, DynamicCache, req.url, resp) else cs
  }

  /** Navigation requests: network first. Any network response is returned and stored in the
      dynamic cache; on a network error the cached copy of the page is served, else the shell. */
  function NetworkFirst(cs: seq<NamedCache>, req: Request, outcome: FetchOutcome)
    : (r: (Reply, seq<NamedCache>))
    ensures outcome.Fetched? ==> r == (Respond(outcome.response), PutRequest(cs, req, outcome.response))
    ensures outcome.NetworkError? ==> r.1 == cs
    ensures outcome.NetworkError? && MatchRequest(cs, req).Some? ==> r.0 == Respond(MatchRequest(cs, req).value)
    ensures outcome.NetworkError? && MatchRequest(cs, req).None? ==>
              r.0 == (if Match(cs, ShellPage).Some? then Respond(Match(cs, ShellPage).value) else NoResponse)
  {
    match outcome
    case Fetched(resp) => (Respond(resp), PutRequest(cs, req, resp))
    case NetworkError =>
      match MatchRequest(cs, req)
      case Some(cached) => (Respond(cached), cs)
      case None =>
        match Match(cs, ShellPage)
        case Some(shell) => (Respond(shell), cs)
        case None => (NoResponse, cs)
  }

  /** A fetched response is written to the dynamic cache only when it is ok. */
  function StoreIfOk(cs: seq<NamedCache>, req: Request, outcome: FetchOutcome): (cs': seq<NamedCache>)
    ensures outcome.Fetched? && Ok(outcome.response) ==> cs' == PutRequest(cs, req, outcome.response)
    ensures !(outcome.Fetched? && Ok(outcome.response)) ==> cs' == cs
  {
    if outcome.Fetched? && Ok(outcome.response) then PutRequest(cs, req, outcome.response) else cs
  }

  /** Other requests: cache first, refreshing a hit in the background; a miss goes to the network,
      and a failed image falls back to the placeholder. */
  function CacheFirst(cs: seq<NamedCache>, req: Request, outcome: FetchOutcome)
    : (r: (Reply, seq<NamedCache>))
    ensures MatchRequest(cs, req).Some? ==> r.0 == Respond(MatchRequest(cs, req).value)
    ensures r.1 == StoreIfOk(cs, req, outcome)
    ensures MatchRequest(cs, req).None? && outcome.Fetched? ==> r.0 == Respond(outcome.response)
    ensures MatchRequest(cs, req).None? && outcome.NetworkError? ==>
              r.0 == (if req.destination == Image then Respond(Placeholder) else Fail)
  {
    match MatchRequest(cs, req)
    case Some(cached) => (Respond(cached), StoreIfOk(cs, req, outcome))
    case None =>
      match outcome
      case Fetched(resp) => (Respond(resp), StoreIfOk(cs, req, outcome))
      case NetworkError => (if req.destination == Image then Respond(Placeholder) else Fail, cs)
  }

  /** The `fetch` handler: cross-origin requests are left alone, navigations go network first and
      every other same-origin request cache first, each strategy fetching the request's URL. */
  function HandleFetch(cs: seq<NamedCache>, req: Request, workerOrigin: string, net: string -> FetchOutcome)
    : (r: (Reply, seq<NamedCache>))
    ensures req.origin != workerOrigin ==> r == (PassThrough, cs)
    ensures req.origin == workerOrigin && req.mode == Navigate ==> r == NetworkFirst(cs, req, net(req.url))
    ensures req.origin == workerOrigin && req.mode != Navigate ==> r == CacheFirst(cs, req, net(req.url))
    ensures req.origin == workerOrigin ==> r.0 != PassThrough
    ensures WellFormed(cs) ==> WellFormed(r.1)
  {
    if req.origin != workerOrigin then (PassThrough, cs)
    else if req.mode == Navigate then NetworkFirst(cs, req, net(req.url))
    else CacheFirst(cs, req, net(req.url))
  }

  /** A same-origin request that is not a GET (the queued POSTs to the API) is never answered from
      a cache and never stored: whatever the caches hold, a delivered request gets the network's
      own response and the caches do not change. */
  lemma NonGetAlwaysReachesNetwork(cs: seq<NamedCache>, req: Request, origin: string, net: string -> FetchOutcome)
    requires req.origin == origin && req.httpMethod != Get
    ensures HandleFetch(cs, req, origin, net).1 == cs
    ensures net(req.url).Fetched? ==> HandleFetch(cs, req, origin, net).0 == Respond(net(req.url).response)
  {
  }

  /** Two requests differing only in the query string are cached and matched separately. */
  lemma QueryStringIsPartOfKey(cs: seq<NamedCache>, req: Request, origin: string, net: string -> FetchOutcome,
                               other: string)
    requires req.origin == origin && req.httpMethod == Get && req.mode == Navigate
    requires net(req.url).Fetched? && other != req.url
    ensures Entry(HandleFetch(cs, req, origin, net).1, DynamicCache, req.url) == Some(net(req.url).response)
    ensures Entry(HandleFetch(cs, req, origin, net).1, DynamicCache, other) == Entry(cs, DynamicCache, other)
  {
  }

  /** A cache hit is served as cached whatever the background refresh brings back. */
  lemma CacheHitIgnoresRefresh(cs: seq<NamedCache>, req: Request, origin: string,
                               net1: string -> FetchOutcome, net2: string -> FetchOutcome)
    requires req.origin == origin && req.mode != Navigate && MatchRequest(cs, req).Some?
    ensures HandleFetch(cs, req, origin, net1).0 == HandleFetch(cs, req, origin, net2).0
            == Respond(Match(cs, req.url).value)
  {
  }

  /** A GET navigation response is cached even when it is not ok (a 404 or 500 page included). */
  lemma NavigationCachesAnyStatus(cs: seq<NamedCache>, req: Request, origin: string,
                                  net: string -> FetchOutcome)
    requires req.origin == origin && req.mode == Navigate && net(req.url).Fetched?
    ensures var (reply, cs') := HandleFetch(cs, req, origin, net);
            reply == Respond(net(req.url).response)
            && (req.httpMethod == Get ==> Entry(cs', DynamicCache, req.url) == Some(net(req.url).response))
  {
  }

  /** A non-navigation GET miss is cached exactly when the response is ok. */
  lemma MissCachedIffOk(cs: seq<NamedCache>, req: Request, origin: string, net: string -> FetchOutcome)
    requires req.origin == origin && req.mode != Navigate && req.httpMethod == Get
    requires Match(cs, req.url).None? && net(req.url).Fetched?
    requires Entry(cs, DynamicCache, req.url).None?
    ensures HandleFetch(cs, req, origin, net).0 == Respond(net(req.url).response)
    ensures Entry(HandleFetch(cs, req, origin, net).1, DynamicCache, req.url).Some?
            <==> Ok(net(req.url).response)
  {
  }

  /** Offline after a successful install and activation, every same-origin navigation is answered:
      with its own cached copy if one exists, otherwise with the precached shell. */
  lemma InstalledShellServesOfflineNavigation(cs: seq<NamedCache>, installNet: string -> FetchOutcome,
                                              url: string, m: HttpMethod, origin: string)
    requires WellFormed(cs)
    ensures var cs' := Activate(Install(cs, installNet).0);
            Install(cs, installNet).1 ==>
            HandleFetch(cs', Request(origin, url, m, Navigate, OtherDestination), origin,
                        (u: string) => NetworkError).0.Respond?
  {
    if Install(cs, installNet).1 {
      var installed := Install(cs, installNet).0;
      var cs' := Activate(installed);
      assert Entry(installed, StaticCache, ShellPage).Some? by {
        assert StaticAssets[1] == ShellPage;
      }
      EntryMatch(cs', StaticCache, ShellPage);
      ShellAnswersNavigation(cs', url, m, origin);
    }
  }

  /** With the shell in some cache, an offline same-origin navigation is always answered. */
  lemma ShellAnswersNavigation(cs: seq<NamedCache>, url: string, m: HttpMethod, origin: string)
    requires Match(cs, ShellPage).Some?
    ensures HandleFetch(cs, Request(origin, url, m, Navigate, OtherDestination), origin,
                        (u: string) => NetworkError).0.Respond?
  {
  }

  /** An entry in some cache means `caches.match` finds something for that URL. */
  lemma {:induction false} EntryMatch(cs: seq<NamedCache>, name: string, url: string)
    requires Entry(cs, name, url).Some?
    ensures Match(cs, url).Some?
  {
    if cs[0].name != name && url !in cs[0].entries {
      EntryMatch(cs[1..], name, url);
    }
  }

  // ---------------------------------------------------------------------------------------------
  // messages

  datatype Message = SkipWaiting | GetCacheStats | OtherMessage

  datatype CacheStat = CacheStat(name: string, count: nat)

  /** The `GET_CACHE_STATS` reply: one `{name, count}` per cache, in `caches.keys()` order. */
  function CacheStats(cs: seq<NamedCache>): (r: seq<CacheStat>)
    ensures |r| == |cs|
    ensures forall i :: 0 <= i < |cs| ==> r[i].name == cs[i].name && r[i].count == |cs[i].entries.Keys|
  {
    seq(|cs|, i requires 0 <= i < |cs| => CacheStat(cs[i].name, |cs[i].entries.Keys|))
  }

  /** The `message` handler: whether to call `skipWaiting`, and the statistics reply if asked. */
  function OnMessage(cs: seq<NamedCache>, msg: Message): (r: (bool, Option<seq<CacheStat>>))
    ensures r.0 <==> msg == SkipWaiting
    ensures r.1.Some? <==> msg == GetCacheStats
    ensures r.1.Some? ==> |r.1.value| == |cs|
  {
    match msg
    case SkipWaiting => (true, None)
    case GetCacheStats => (false, Some(CacheStats(cs)))
    case OtherMessage => (false, None)
  }

  /** After activation the statistics list at most the two current caches. */
  lemma StatsAfterActivate(cs: seq<NamedCache>)
    requires WellFormed(cs)
    ensures |CacheStats(Activate(cs))| <= 2
    ensures forall s :: s in CacheStats(Activate(cs)) ==> Current(s.name)
  {
    var a := Activate(cs);
    assert forall i :: 0 <= i < |a| ==> a[i] in a;
    AtMostTwo(a);
  }

  lemma ThreeCurrentNames(x: string, y: string, z: string)
    requires Current(x) && Current(y) && Current(z)
    ensures x == y || x == z || y == z
  {
  }

  /** Well-formed caches with only current names number at most two. */
  lemma AtMostTwo(a: seq<NamedCache>)
    requires WellFormed(a)
    requires forall i :: 0 <= i < |a| ==> Current(a[i].name)
    ensures |a| <= 2
  {
    if |a| > 2 {
      ThreeCurrentNames(a[0].name, a[1].name, a[2].name);
    }
  }
}

=== FILE: splash.dfy ===
/** The splash screen's visit bookkeeping: whether a recent visit lets it be skipped, the
    one-shot navigation guard, the visit record (last visit, visited flag, visit count kept as
    text), the statistics read back, and the reset. */
module Splash {
  import opened Values
  import opened Strings

  const SkipWindow: int := 24 * 3600000

  /** A stored ISO date as `new Date` reads it: a time, or an Invalid Date. */
  datatype Stamp = Valid(ms: int) | InvalidDate

  /** The three storage entries: `quittr_last_visit`, `quittr_visited`, `quittr_visit_count`. */
  datatype Store = Store(lastVisit: Option<Stamp>, visited: Option<string>, visitCount: Option<string>)

  /** `shouldSkipSplash` at `now`: a last visit less than twenty-four hours ago (a visit in the
      future counts; an Invalid Date never does). */
  function ShouldSkipSplash(st: Store, now: int): (b: bool)
    ensures b <==> st.lastVisit.Some? && st.lastVisit.value.Valid?
                   && (now - st.lastVisit.value.ms) as real / 3600000.0 < 24.0
  {
    match st.lastVisit
    case None => false
    case Some(InvalidDate) => false
    case Some(Valid(t)) => now - t < SkipWindow
  }

  /** A visit whose first write landed, recorded at `t`, lets the splash be skipped exactly until
      twenty-four hours have passed, whatever was stored before; a visit whose first write threw
      leaves the decision as it was. */
  lemma VisitSkipsForADay(st: Store, t: int, now: int, ok: nat)
    ensures ok >= 1 ==> (ShouldSkipSplash(RecordVisit(st, t, ok), now) <==> now < t + SkipWindow)
    ensures ok == 0 ==> ShouldSkipSplash(RecordVisit(st, t, ok), now) == ShouldSkipSplash(st, now)
  {
  }

  /** `parseInt(count || '0')`: a missing or empty entry reads as 0; `None` is `NaN`. */
  function ReadCount(count: Option<string>): Option<int> {
    ParseInt(if count.None? || count.value == [] then "0" else count.value)
  }

  /** The number of `setItem` calls `recordVisit` makes. */
  const VisitWrites: nat := 3

  /** `recordVisit` at `now`, where the first `ok` of its three `setItem` calls succeed and the
      next one, if any, throws (the method has no `try`, so the later writes are not made): the
      visit time, then the visited flag, then the count raised by one; a count that does not read
      as a number is written back as `NaN`. */
  function RecordVisit(st: Store, now: int, ok: nat): (r: Store)
    ensures ok >= 1 ==> r.lastVisit == Some(Valid(now))
    ensures ok >= 2 ==> r.visited == Some("true")
    ensures ok >= VisitWrites && ReadCount(st.visitCount).Some? ==>
              ReadCount(r.visitCount) == Some(ReadCount(st.visitCount).value + 1)
    ensures ok >= VisitWrites && ReadCount(st.visitCount).None? ==> r.visitCount == Some("NaN")
    ensures ok == 0 ==> r == st
    ensures ok < 2 ==> r.visited == st.visited
    ensures ok < VisitWrites ==> r.visitCount == st.visitCount
  {
    var st1 := if ok >= 1 then st.(lastVisit := Some(Valid(now))) else st;
    var st2 := if ok >= 2 then st1.(visited := Some("true")) else st1;
    if ok < VisitWrites then st2
    else
      match ReadCount(st.visitCount)
      case Some(n) =>
        CountReadsBack(n + 1);
        st2.(visitCount := Some(IntToString(n + 1)))
      case None => st2.(visitCount := Some("NaN"))
  }

  /** A count written as text reads back as the same count. */
  lemma CountReadsBack(k: int)
    ensures ReadCount(Some(IntToString(k))) == Some(k)
  {
    ParseIntInt(k);
    assert IntToString(k) != [];
  }

  /** A count that has once become `NaN` stays `NaN` for every later visit. */
  lemma NaNCountIsSticky(st: Store, now: int, ok: nat)
    requires st.visitCount == Some("NaN")
    ensures RecordVisit(st, now, ok).visitCount == Some("NaN")
  {
    NaNReadsAsNaN();
  }

  lemma NaNReadsAsNaN()
    ensures ReadCount(Some("NaN")) == None
  {
    var u := "NaN";
    assert u[0] == 'N' && !IsWhitespace(u[0]);
    ParseIntUnsignedText(u);
    assert !HexPrefixed(u);
    assert DigitPrefix(u) == [];
  }

  datatype Stats = Stats(visitCount: Option<int>, lastVisit: Option<Stamp>, hasVisited: bool)

  /** `getStats`. */
  function GetStats(st: Store): (s: Stats)
    ensures s.visitCount == ReadCount(st.visitCount) && s.lastVisit == st.lastVisit
    ensures s.hasVisited <==> st.visited == Some("true")
  {
    Stats(ReadCount(st.visitCount), st.lastVisit, st.visited == Some("true"))
  }

  /** `reset`: the three entries are removed. */
  function Reset(st: Store): (r: Store)
    ensures r.lastVisit.None? && r.visited.None? && r.visitCount.None?
  {
    Store(None, None, None)
  }

  /** After a reset the statistics are a zero count, no last visit and not visited, and the splash
      is shown again. */
  lemma ResetStats(st: Store, now: int)
    ensures GetStats(Reset(st)) == Stats(Some(0), None, false)
    ensures !ShouldSkipSplash(Reset(st), now)
  {
    ParseIntNat(0);
    assert NatToString(0) == "0";
  }

  /** The splash page: the `isNavigating` guard, whether the delayed navigation was scheduled,
      and the storage. */
  datatype Page = Page(isNavigating: bool, scheduled: bool, store: Store)

  /** `navigateToMain` at `now`, where the first `ok` writes of `recordVisit` succeed: the first
      call sets the guard and records the visit, and schedules the navigation only when every
      write succeeded, because a throwing write escapes before the `setTimeout`. Later calls do
      nothing. */
  function NavigateToMain(p: Page, now: int, ok: nat): (r: Page)
    ensures p.isNavigating ==> r == p
    ensures !p.isNavigating ==> r.isNavigating && r.store == RecordVisit(p.store, now, ok)
    ensures !p.isNavigating ==> (r.scheduled <==> p.scheduled || ok >= VisitWrites)
  {
    if p.isNavigating then p
    else
      var st := RecordVisit(p.store, now, ok);
      if ok < VisitWrites then Page(true, p.scheduled, st) else Page(true, true, st)
  }

  /** Navigation happens at most once: a second call, at any time, changes nothing, so exactly
      one visit is counted; and the splash is skipped for the next day. */
  lemma NavigateOnce(p: Page, t1: int, t2: int, later: int, ok1: nat, ok2: nat)
    requires !p.isNavigating
    ensures NavigateToMain(NavigateToMain(p, t1, ok1), t2, ok2) == NavigateToMain(p, t1, ok1)
    ensures ok1 >= VisitWrites && ReadCount(p.store.visitCount).Some? ==>
              GetStats(NavigateToMain(NavigateToMain(p, t1, ok1), t2, ok2).store).visitCount
              == Some(ReadCount(p.store.visitCount).value + 1)
    ensures ok1 >= 1 && t1 <= later < t1 + SkipWindow ==>
              ShouldSkipSplash(NavigateToMain(p, t1, ok1).store, later)
  {
  }

  /** A write that throws during the first navigation strands the page: the guard stays set, no
      navigation is scheduled, and every later call, whatever its writes do, changes nothing. */
  lemma ThrowingWriteStrandsPage(p: Page, t1: int, ok1: nat, calls: seq<(int, nat)>)
    requires !p.isNavigating && !p.scheduled && ok1 < VisitWrites
    ensures var q := NavigateToMain(p, t1, ok1);
            q.isNavigating && !q.scheduled && Replay(q, calls) == q
  {
    var q := NavigateToMain(p, t1, ok1);
    StaysPut(q, calls);
  }

  /** The page after a run of `navigateToMain` calls, each with its time and write outcome. */
  function Replay(p: Page, calls: seq<(int, nat)>): Page
    decreases |calls|
  {
    if calls == [] then p else Replay(NavigateToMain(p, calls[0].0, calls[0].1), calls[1..])
  }

  lemma {:induction false} StaysPut(q: Page, calls: seq<(int, nat)>)
    requires q.isNavigating
    ensures Replay(q, calls) == q
    decreases |calls|
  {
    if calls != [] {
      StaysPut(q, calls[1..]);
    }
  }
}

=== FILE: strings.dfy ===
/** The handful of JavaScript string operations the scripts rely on, over `seq<char>`.
    A character stands for one UTF-16 code unit; every literal the scripts test for lies in the
    Basic Multilingual Plane. */
module Strings {
  import opened Values

  /** JavaScript's WhiteSpace and LineTerminator characters: what `trim` strips and `\s` matches. */
  predicate IsWhitespace(c: char) {
    || c == '\t' || c == '\n' || c == '\U{000B}' || c == '\U{000C}' || c == '\r' || c == ' '
    || c == '\U{00A0}' || c == '\U{1680}' || ('\U{2000}' <= c <= '\U{200A}')
    || c == '\U{2028}' || c == '\U{2029}' || c == '\U{202F}' || c == '\U{205F}'
    || c == '\U{3000}' || c == '\U{FEFF}'
  }

  /** `\d`: an ASCII decimal digit. */
  predicate IsDigit(c: char) {
    '0' <= c <= '9'
  }

  predicate AllDigits(s: string) {
    forall i :: 0 <= i < |s| ==> IsDigit(s[i])
  }

  /** Only whitespace (the empty string included). */
  predicate IsBlank(s: string) {
    forall i :: 0 <= i < |s| ==> IsWhitespace(s[i])
  }

  /** Concatenation regroups freely; stated once so that proofs need not rediscover it. */
  lemma ConcatAssoc(x: string, y: string, z: string)
    ensures x + (y + z) == (x + y) + z
  {
  }

  predicate IsPrefix(p: string, s: string) {
    |p| <= |s| && s[..|p|] == p
  }

  /** `s.startsWith(p)` */
  predicate StartsWith(s: string, p: string) {
    IsPrefix(p, s)
  }

  /** `s.includes(sub)`, as a left-to-right scan. */
  predicate Contains(s: string, sub: string)
    decreases |s|
  {
    IsPrefix(sub, s) || (|s| > 0 && Contains(s[1..], sub))
  }

  /** The scan finds `sub` exactly when some window of `s` equals it. */
  lemma {:induction false} ContainsIff(s: string, sub: string)
    ensures Contains(s, sub) <==> exists i :: 0 <= i <= |s| - |sub| && IsPrefix(sub, s[i..])
    decreases |s|
  {
    if Contains(s, sub) {
      if !IsPrefix(sub, s) {
        ContainsIff(s[1..], sub);
        var i :| 0 <= i <= |s[1..]| - |sub| && IsPrefix(sub, s[1..][i..]);
        assert s[1..][i..] == s[i + 1..];
      } else {
        assert s[0..] == s;
      }
    }
    if exists i :: 0 <= i <= |s| - |sub| && IsPrefix(sub, s[i..]) {
      var i :| 0 <= i <= |s| - |sub| && IsPrefix(sub, s[i..]);
      if i == 0 {
        assert s[0..] == s;
      } else {
        assert s[1..][i - 1..] == s[i..];
        ContainsIff(s[1..], sub);
      }
    }
  }

  /** `sub` occurs in `s` starting at position `i`. */
  predicate OccursAt(s: string, sub: string, i: int) {
    0 <= i && i + |sub| <= |s| && s[i..i + |sub|] == sub
  }

  /** The scan finds `sub` exactly when it occurs at some position. */
  lemma ContainsAt(s: string, sub: string)
    ensures Contains(s, sub) <==> exists i :: OccursAt(s, sub, i)
  {
    ContainsIff(s, sub);
    forall i | 0 <= i <= |s| - |sub| ensures IsPrefix(sub, s[i..]) <==> OccursAt(s, sub, i) {
      assert s[i..][..|sub|] == s[i..i + |sub|];
    }
  }

  /** A string contains itself at any longer string's end. */
  lemma {:induction false} ContainsSuffix(s: string, t: string)
    ensures Contains(s + t, t)
  {
    ContainsIff(s + t, t);
    assert (s + t)[|s|..] == t;
  }

  /** A string contains a piece placed anywhere inside it. */
  lemma ContainsInfix(a: string, b: string, c: string)
    ensures Contains(a + b + c, b)
  {
    ContainsIff(a + b + c, b);
    assert (a + b + c)[|a|..][..|b|] == b;
  }

  /** ASCII `toLowerCase`. */
  function LowerChar(c: char): char {
    if 'A' <= c <= 'Z' then (c as int + 32) as char else c
  }

  function Lower(s: string): (r: string)
    ensures |r| == |s|
    ensures forall i :: 0 <= i < |s| ==> r[i] == LowerChar(s[i])
  {
    seq(|s|, i requires 0 <= i < |s| => LowerChar(s[i]))
  }

  /** `s.trimStart()` */
  function TrimStart(s: string): (r: string)
    ensures |r| <= |s| && r == s[|s| - |r|..]
    ensures r == [] || !IsWhitespace(r[0])
    ensures IsBlank(s[..|s| - |r|])
  {
    if |s| > 0 && IsWhitespace(s[0]) then
      var r := TrimStart(s[1..]);
      assert s[..|s| - |r|] == [s[0]] + s[1..][..|s[1..]| - |r|];
      r
    else s
  }

  /** `s.trimEnd()` */
  function TrimEnd(s: string): (r: string)
    ensures |r| <= |s| && r == s[..|r|]
    ensures r == [] || !IsWhitespace(r[|r| - 1])
    ensures IsBlank(s[|r|..])
  {
    if |s| > 0 && IsWhitespace(s[|s| - 1]) then
      var r := TrimEnd(s[..|s| - 1]);
      assert s[|r|..] == s[..|s| - 1][|r|..] + [s[|s| - 1]];
      r
    else s
  }

  /** `s.trim()`: a contiguous slice of `s` with whitespace at neither end, everything cut being
      whitespace. */
  function Trim(s: string): (r: string)
    ensures IsPrefix(r, s[|s| - |TrimStart(s)|..])
    ensures r == [] || (!IsWhitespace(r[0]) && !IsWhitespace(r[|r| - 1]))
    ensures r == [] <==> IsBlank(s)
  {
    var a := TrimStart(s);
    var r := TrimEnd(a);
    TrimEmpty(s, a, r);
    r
  }

  lemma TrimEmpty(s: string, a: string, r: string)
    requires a == TrimStart(s) && r == TrimEnd(a)
    ensures r == [] || (!IsWhitespace(r[0]) && !IsWhitespace(r[|r| - 1]))
    ensures r == [] <==> IsBlank(s)
  {
    if r == [] {
      assert s == s[..|s| - |a|] + a;
      assert a == a[|r|..];
    } else {
      assert !IsWhitespace(a[0]) && r[0] == a[0];
    }
  }

  /** `s.replace(/\D/g, '')` (and `/[^0-9]/g`): the digits of `s`, in order. */
  function Digits(s: string): (r: string)
    ensures |r| <= |s|
    ensures AllDigits(r)
  {
    if s == [] then [] else (if IsDigit(s[0]) then [s[0]] else []) + Digits(s[1..])
  }

  lemma {:induction false} DigitsAppend(a: string, b: string)
    ensures Digits(a + b) == Digits(a) + Digits(b)
  {
    if a == [] {
      assert a + b == b;
    } else {
      assert (a + b)[1..] == a[1..] + b;
      DigitsAppend(a[1..], b);
    }
  }

  /** A digit string is its own digit filter, so `Digits` is idempotent. */
  lemma {:induction false} DigitsOfDigits(s: string)
    ensures AllDigits(s) ==> Digits(s) == s
  {
    if s != [] {
      DigitsOfDigits(s[1..]);
    }
  }

  /** Position `i` holds the first digit of `s`. */
  predicate FirstDigitAt(s: string, i: int) {
    0 <= i < |s| && IsDigit(s[i]) && forall j :: 0 <= j < i ==> !IsDigit(s[j])
  }

  /** The digit filter starts with the first digit of the string, and is empty only when the
      string has no digit. */
  lemma {:induction false} FirstDigit(s: string)
    ensures forall i :: FirstDigitAt(s, i) ==> Digits(s) != [] && Digits(s)[0] == s[i]
    ensures Digits(s) != [] ==> exists i :: FirstDigitAt(s, i)
  {
    if s != [] {
      FirstDigit(s[1..]);
      if IsDigit(s[0]) {
        assert FirstDigitAt(s, 0);
      } else {
        forall i | FirstDigitAt(s, i) ensures FirstDigitAt(s[1..], i - 1) && s[i] == s[1..][i - 1] {
          assert i != 0;
        }
        if Digits(s) != [] {
          var k :| FirstDigitAt(s[1..], k);
          forall j | 0 <= j < k + 1 ensures !IsDigit(s[j]) {
            if j > 0 {
              assert s[j] == s[1..][j - 1];
            }
          }
          assert FirstDigitAt(s, k + 1);
        }
      }
    }
  }

  /** `s.replace(/\s/g, '')` */
  function StripWhitespace(s: string): (r: string)
    ensures |r| <= |s|
    ensures forall i :: 0 <= i < |r| ==> !IsWhitespace(r[i])
  {
    if s == [] then [] else (if IsWhitespace(s[0]) then [] else [s[0]]) + StripWhitespace(s[1..])
  }

  /** The character of a digit value. */
  function DigitChar(d: nat): (c: char)
    requires d < 10
    ensures IsDigit(c) && c as int - '0' as int == d
  {
    ('0' as int + d) as char
  }

  function DigitValue(c: char): nat
    requires IsDigit(c)
  {
    c as int - '0' as int
  }

  /** The decimal value of a digit string (most significant first). */
  function DigitsValue(s: string): nat
    requires AllDigits(s)
  {
    if s == [] then 0 else 10 * DigitsValue(s[..|s| - 1]) + DigitValue(s[|s| - 1])
  }

  /** `String(n)` for a natural number. */
  function NatToString(n: nat): (r: string)
    ensures 1 <= |r| && AllDigits(r)
    ensures n < 10 <==> |r| == 1
  {
    if n < 10 then [DigitChar(n)] else NatToString(n / 10) + [DigitChar(n % 10)]
  }

  /** `String(i)` for an integer. */
  function IntToString(i: int): string {
    if i < 0 then "-" + NatToString(-i) else NatToString(i)
  }

  /** Printing then reading back a number gives the number. */
  lemma {:induction false} NatToStringValue(n: nat)
    ensures DigitsValue(NatToString(n)) == n
  {
    if n >= 10 {
      var r := NatToString(n);
      assert r[..|r| - 1] == NatToString(n / 10);
      NatToStringValue(n / 10);
    }
  }

  /** `String(n).padStart(2, '0')` */
  function Pad2(n: nat): (r: string)
    ensures |r| >= 2 && AllDigits(r)
    ensures n < 100 ==> |r| == 2
    ensures DigitsValue(r) == n
  {
    NatToStringValue(n);
    if n < 10 then
      var r := "0" + NatToString(n);
      assert r[..1] == "0";
      r
    else NatToString(n)
  }

  /** The longest run of digits at the start of `s`. */
  function DigitPrefix(s: string): (r: string)
    ensures IsPrefix(r, s) && AllDigits(r)
    ensures |r| < |s| ==> !IsDigit(s[|r|])
  {
    if s != [] && IsDigit(s[0]) then [s[0]] + DigitPrefix(s[1..]) else []
  }

  /** `parseInt(s)` with no radix: leading whitespace and one sign are skipped; a `0x` or `0X`
      prefix then selects base sixteen, otherwise base ten; the longest run of digits of that base
      is read. No digits gives `NaN` (here `None`). */
  function ParseInt(s: string): (r: Option<int>)
    ensures var u := Unsigned(TrimStart(s));
            r.None? <==> (if HexPrefixed(u) then HexPrefix(u[2..]) == [] else DigitPrefix(u) == [])
  {
    var t := TrimStart(s);
    match Magnitude(Unsigned(t))
    case None => None
    case Some(m) => if |t| > 0 && t[0] == '-' then Some(0 - m) else Some(m)
  }

  function Unsigned(t: string): string {
    if |t| > 0 && (t[0] == '-' || t[0] == '+') then t[1..] else t
  }

  /** The text after the sign starts with `0x` or `0X`. */
  predicate HexPrefixed(u: string) {
    |u| >= 2 && u[0] == '0' && (u[1] == 'x' || u[1] == 'X')
  }

  /** The unsigned value `parseInt` reads from the text after the sign. */
  function Magnitude(u: string): Option<nat> {
    if HexPrefixed(u) then
      var h := HexPrefix(u[2..]);
      if h == [] then None else Some(HexValue(h))
    else
      var d := DigitPrefix(u);
      if d == [] then None else Some(DigitsValue(d))
  }

  /** A hexadecimal digit of either case. */
  predicate IsHexDigit(c: char) {
    IsDigit(c) || 'a' <= c <= 'f' || 'A' <= c <= 'F'
  }

  predicate AllHexDigits(s: string) {
    forall i :: 0 <= i < |s| ==> IsHexDigit(s[i])
  }

  function HexDigitValue(c: char): (v: nat)
    requires IsHexDigit(c)
    ensures v < 16
  {
    if IsDigit(c) then DigitValue(c)
    else if 'a' <= c <= 'f' then c as int - 'a' as int + 10
    else c as int - 'A' as int + 10
  }

  /** The hexadecimal value of a digit string (most significant first). */
  function HexValue(s: string): nat
    requires AllHexDigits(s)
  {
    if s == [] then 0 else 16 * HexValue(s[..|s| - 1]) + HexDigitValue(s[|s| - 1])
  }

  /** The longest run of hexadecimal digits at the start of `s`. */
  function HexPrefix(s: string): (r: string)
    ensures IsPrefix(r, s) && AllHexDigits(r)
    ensures |r| < |s| ==> !IsHexDigit(s[|r|])
  {
    if s != [] && IsHexDigit(s[0]) then [s[0]] + HexPrefix(s[1..]) else []
  }

  /** A `0x` prefix switches to base sixteen: `parseInt("0x" + h)` is the hexadecimal value of a
      non-empty run of hexadecimal digits, and `parseInt("0x")` is `NaN`. */
  lemma ParseIntHex(h: string)
    requires AllHexDigits(h)
    ensures ParseInt("0x" + h) == (if h == [] then None else Some(HexValue(h)))
  {
    var s := "0x" + h;
    ParseIntUnsignedText(s);
    MagnitudeHex(h);
  }

  /** Text that starts with neither whitespace nor a sign is read by `Magnitude` alone. */
  lemma ParseIntUnsignedText(s: string)
    requires s != [] && !IsWhitespace(s[0]) && s[0] != '-' && s[0] != '+'
    ensures ParseInt(s) == (match Magnitude(s) case None => None case Some(m) => Some(m))
  {
    TrimStartKeeps(s);
  }

  lemma {:induction false} MagnitudeHex(h: string)
    requires AllHexDigits(h)
    ensures Magnitude("0x" + h) == (if h == [] then None else Some(HexValue(h)))
  {
    var u := "0x" + h;
    assert HexPrefixed(u) && u[2..] == h;
    HexPrefixAll(h);
  }

  lemma MagnitudeDecimal(d: string)
    requires AllDigits(d) && d != []
    ensures Magnitude(d) == Some(DigitsValue(d))
  {
    assert !HexPrefixed(d) by { assert |d| >= 2 ==> IsDigit(d[1]); }
    DigitPrefixAll(d);
  }

  lemma {:induction false} HexPrefixAll(s: string)
    requires AllHexDigits(s)
    ensures HexPrefix(s) == s
  {
    if s != [] {
      HexPrefixAll(s[1..]);
    }
  }

  /** Reading a printed natural number gives it back. */
  lemma ParseIntNat(n: nat)
    ensures ParseInt(NatToString(n)) == Some(n)
  {
    var s := NatToString(n);
    DigitsOfAllDigits(s);
    NatToStringValue(n);
  }

  /** Reading a printed integer gives it back. */
  lemma ParseIntInt(i: int)
    ensures ParseInt(IntToString(i)) == Some(i)
  {
    if i >= 0 {
      assert IntToString(i) == NatToString(i);
      ParseIntNat(i);
    } else {
      var k: nat := -i;
      var d := NatToString(k);
      assert IntToString(i) == "-" + d;
      NatToStringValue(k);
      ParseNegative(d);
    }
  }

  lemma ParseNegative(d: string)
    requires AllDigits(d) && d != []
    ensures ParseInt("-" + d) == Some(0 - DigitsValue(d))
  {
    var s := "-" + d;
    assert s[0] == '-' && s[1..] == d;
    TrimStartKeeps(s);
    assert Unsigned(TrimStart(s)) == d;
    MagnitudeDecimal(d);
  }

  lemma TrimStartKeeps(s: string)
    requires s != [] && !IsWhitespace(s[0])
    ensures TrimStart(s) == s
  {
  }

  /** A string of digits reads whole: `parseInt` of it is its value. */
  lemma DigitsOfAllDigits(s: string)
    requires AllDigits(s) && s != []
    ensures TrimStart(s) == s && Unsigned(s) == s && DigitPrefix(s) == s
    ensures ParseInt(s) == Some(DigitsValue(s))
  {
    assert !IsWhitespace(s[0]);
    assert TrimStart(s) == s;
    assert Unsigned(s) == s;
    DigitPrefixAll(s);
    MagnitudeDecimal(s);
  }

  lemma {:induction false} DigitPrefixAll(s: string)
    requires AllDigits(s)
    ensures DigitPrefix(s) == s
  {
    if s != [] {
      DigitPrefixAll(s[1..]);
    }
  }

  /** `s.substring(a, b)`: both ends clamped to the string, then put in order. */
  function Substring(s: string, a: int, b: int): (r: string)
    ensures |r| <= |s|
  {
    var x := if a < 0 then 0 else if a > |s| then |s| else a;
    var y := if b < 0 then 0 else if b > |s| then |s| else b;
    if x <= y then s[x..y] else s[y..x]
  }

  /** `s.split(sep)` for a one-character separator. */
  function Split(s: string, sep: char): (parts: seq<string>)
    ensures |parts| >= 1
    ensures forall k, i :: 0 <= k < |parts| && 0 <= i < |parts[k]| ==> parts[k][i] != sep
  {
    if s == [] then [[]]
    else
      var rest := Split(s[1..], sep);
      if s[0] == sep then [[]] + rest
      else
        var head := [s[0]] + rest[0];
        assert forall i :: 1 <= i < |head| ==> head[i] == rest[0][i - 1];
        [head] + rest[1..]
  }

  /** `parts.join(sep)` */
  function Join(parts: seq<string>, sep: char): string
    requires |parts| >= 1
  {
    if |parts| == 1 then parts[0] else parts[0] + [sep] + Join(parts[1..], sep)
  }

  /** Splitting loses nothing: joining the parts back gives the original string. */
  lemma {:induction false} JoinSplit(s: string, sep: char)
    ensures Join(Split(s, sep), sep) == s
  {
    if s != [] {
      var rest := Split(s[1..], sep);
      JoinSplit(s[1..], sep);
      if s[0] == sep {
        assert Split(s, sep)[1..] == rest;
      } else {
        var parts := Split(s, sep);
        if |rest| == 1 {
          assert parts == [[s[0]] + rest[0]];
        } else {
          assert parts[1..] == rest[1..];
          assert Join(rest, sep) == rest[0] + [sep] + Join(rest[1..], sep);
        }
      }
    }
  }

  /** `s.replace(pat, rep)` with a string pattern: only the first (leftmost) occurrence is
      replaced; an empty pattern matches at the start. */
  function ReplaceFirst(s: string, pat: string, rep: string): string
    decreases |s|
  {
    if IsPrefix(pat, s) then rep + s[|pat|..]
    else if s == [] then s
    else [s[0]] + ReplaceFirst(s[1..], pat, rep)
  }

  /** The first occurrence is replaced when no earlier position starts with the pattern's first
      character. */
  lemma {:induction false} ReplaceFirstAt(a: string, pat: string, b: string, rep: string)
    requires pat != [] && pat[0] !in a
    ensures ReplaceFirst(a + pat + b, pat, rep) == a + rep + b
  {
    var s := a + pat + b;
    if a == [] {
      assert s == pat + b && IsPrefix(pat, s);
      assert s[|pat|..] == b;
    } else {
      assert s[0] == a[0] && !IsPrefix(pat, s);
      assert s[1..] == a[1..] + pat + b;
      ReplaceFirstAt(a[1..], pat, b, rep);
      assert [a[0]] + (a[1..] + rep + b) == a + rep + b;
    }
  }

  /** A pattern whose first character never occurs is not replaced. */
  lemma {:induction false} ReplaceFirstAbsent(s: string, pat: string, rep: string)
    requires pat != [] && pat[0] !in s
    ensures ReplaceFirst(s, pat, rep) == s
  {
    if s != [] {
      assert !IsPrefix(pat, s);
      ReplaceFirstAbsent(s[1..], pat, rep);
      assert [s[0]] + s[1..] == s;
    }
  }

  /** `s.replace(/c/g, rep)` for one character `c`. */
  function ReplaceAll(s: string, c: char, rep: string): string {
    if s == [] then [] else (if s[0] == c then rep else [s[0]]) + ReplaceAll(s[1..], c, rep)
  }

  /** After a global replace, `c` survives only if the replacement reintroduces it. */
  lemma {:induction false} ReplaceAllRemoves(s: string, c: char, rep: string)
    requires c !in rep
    ensures c !in ReplaceAll(s, c, rep)
  {
    if s != [] {
      ReplaceAllRemoves(s[1..], c, rep);
    }
  }

  /** A global replace adds no character that the replacement does not contain. */
  lemma {:induction false} ReplaceAllKeepsAbsent(s: string, c: char, rep: string, d: char)
    requires d !in s && d !in rep
    ensures d !in ReplaceAll(s, c, rep)
  {
    if s != [] {
      ReplaceAllKeepsAbsent(s[1..], c, rep, d);
    }
  }

  /** Without `c`, a global replace of `c` changes nothing. */
  lemma {:induction false} ReplaceAllAbsent(s: string, c: char, rep: string)
    requires c !in s
    ensures ReplaceAll(s, c, rep) == s
  {
    if s != [] {
      ReplaceAllAbsent(s[1..], c, rep);
      assert s == [s[0]] + s[1..];
    }
  }
}

=== FILE: subscription.dfy ===
/** The subscription manager: the stored subscription and its expiry check, auto-renewal and
    cancellation, feature gating by plan, payment-request validation, the purchase history (newest
    first, at most twenty, pruned after thirty days) and the subscribe button's state. Dates are
    milliseconds since the epoch; a date string that does not parse is `None` (an Invalid Date,
    whose comparisons are all false). */
module Subscription {
  import opened Values
  import opened Strings

  const MaxHistory: nat := 20
  const DayMs: int := 86400000
  const HistoryDays: int := 30
  const MaxAmount: int := 10000

  datatype Plan = Basic | Premium | Annual

  /** `planPrices`. */
  function Price(p: Plan): nat {
    match p
    case Basic => 19
    case Premium => 39
    case Annual => 299
  }

  function PlanKey(p: Plan): string {
    match p
    case Basic => "basic"
    case Premium => "premium"
    case Annual => "annual"
  }

  datatype Status = Active | Expired | OtherStatus(name: string)

  /** The stored subscription; `plan` is the plan key as stored. */
  datatype Sub = Sub(plan: string, status: Status, expiryDate: Option<int>, autoRenewal: bool)

  /** The `subscriptionData` entry: unparseable (or `null`, which fails the same way) or a record. */
  datatype Saved = Unreadable | Record(sub: Sub)

  // ---------------------------------------------------------------------------------------------
  // loading

  /** `loadCurrentSubscription` at `now`, with `writeOk` the outcome of the `setItem` that writes
      an expired record back: returns the in-memory subscription and the stored entry. No entry
      leaves the current one alone; an unreadable one is removed and the current one cleared; a
      record past its expiry is marked expired, in memory and in storage. The write back sits
      inside the same `try` as the parse, so a write that throws also clears the subscription and
      removes the entry. */
  function LoadCurrentSubscription(current: Option<Sub>, saved: Option<Saved>, now: int, writeOk: bool)
    : (r: (Option<Sub>, Option<Saved>))
    ensures saved.None? ==> r == (current, None)
    ensures saved == Some(Unreadable) ==> r == (None, None)
    ensures saved.Some? && saved.value.Record? && IsPast(saved.value.sub.expiryDate, now) && !writeOk ==>
              r == (None, None)
    ensures saved.Some? && saved.value.Record? && (writeOk || !IsPast(saved.value.sub.expiryDate, now)) ==>
              var s := saved.value.sub;
              && r.0.Some? && r.1 == Some(Record(r.0.value))
              && (r.0.value.status == Expired <==> IsPast(s.expiryDate, now) || s.status == Expired)
              && (!IsPast(s.expiryDate, now) ==> r.0.value == s)
              && r.0.value.(status := s.status) == s
  {
    match saved
    case None => (current, None)
    case Some(Unreadable) => (None, None)
    case Some(Record(s)) =>
      if !IsPast(s.expiryDate, now) then (Some(s), Some(Record(s)))
      else if writeOk then
        var s' := s.(status := Expired);
        (Some(s'), Some(Record(s')))
      else (None, None)
  }

  /** `new Date(expiryDate) < now`: false for an Invalid Date. */
  predicate IsPast(date: Option<int>, now: int) {
    date.Some? && date.value < now
  }

  /** An active subscription whose expiry has passed is never reported active after loading:
      it is marked expired when the write back succeeds, and cleared when it throws. */
  lemma LoadingExpiresStale(current: Option<Sub>, s: Sub, now: int, writeOk: bool)
    requires s.expiryDate.Some? && s.expiryDate.value < now
    ensures var (loaded, stored) := LoadCurrentSubscription(current, Some(Record(s)), now, writeOk);
            && (writeOk ==> loaded.Some? && loaded.value.status == Expired)
            && (!writeOk ==> loaded.None? && stored.None?)
            && forall f :: !HasFeatureAccess(loaded, f)
  {
  }

  /** An unparseable expiry date never expires the subscription, and nothing is written. */
  lemma InvalidExpiryNeverExpires(current: Option<Sub>, s: Sub, now: int, writeOk: bool)
    requires s.expiryDate.None?
    ensures LoadCurrentSubscription(current, Some(Record(s)), now, writeOk).0 == Some(s)
  {
  }

  // ---------------------------------------------------------------------------------------------
  // renewal and cancellation

  predicate IsActive(current: Option<Sub>) {
    current.Some? && current.value.status == Active
  }

  /** `toggleAutoRenewal`: flips the flag of an active subscription; anything else is refused
      with nothing changed. */
  function ToggleAutoRenewal(current: Option<Sub>): (r: Option<Sub>)
    ensures !IsActive(current) ==> r == current
    ensures IsActive(current) ==>
              r == Some(current.value.(autoRenewal := !current.value.autoRenewal))
  {
    if !IsActive(current) then current
    else Some(current.value.(autoRenewal := !current.value.autoRenewal))
  }

  /** Toggling twice restores the subscription. */
  lemma ToggleTwice(current: Option<Sub>)
    ensures ToggleAutoRenewal(ToggleAutoRenewal(current)) == current
  {
  }

  /** `cancelSubscription` with the user's answer to the confirmation dialog: only turns
      auto-renewal off; the subscription stays active until it expires. */
  function CancelSubscription(current: Option<Sub>, confirmed: bool): (r: Option<Sub>)
    ensures !IsActive(current) || !confirmed ==> r == current
    ensures IsActive(current) && confirmed ==>
              r.Some? && !r.value.autoRenewal && r.value.status == Active
              && r.value.(autoRenewal := current.value.autoRenewal) == current.value
  {
    if !IsActive(current) || !confirmed then current
    else Some(current.value.(autoRenewal := false))
  }

  /** Cancelling keeps every feature the subscription gave, and cancelling again changes nothing. */
  lemma CancelKeepsAccess(current: Option<Sub>, confirmed: bool, feature: string)
    ensures HasFeatureAccess(CancelSubscription(current, confirmed), feature) == HasFeatureAccess(current, feature)
    ensures CancelSubscription(CancelSubscription(current, confirmed), confirmed) == CancelSubscription(current, confirmed)
  {
  }

  // ---------------------------------------------------------------------------------------------
  // feature gating

  /** `featureMap[feature] || []`: the plan keys that unlock each known feature. */
  function AllowedPlans(feature: string): seq<string> {
    if feature == "ai_chat" then ["basic", "premium", "annual"]
    else if feature == "advanced_analytics" then ["premium", "annual"]
    else if feature == "expert_consultation" || feature == "family_sharing" || feature == "offline_mode" then ["annual"]
    else []
  }

  /** The lowest plan rank that unlocks a feature: every plan for the chat, premium and up for
      the analytics, annual only for the other three; `None` for a feature no plan unlocks. */
  function RequiredRank(feature: string): Option<nat> {
    if feature == "ai_chat" then Some(0)
    else if feature == "advanced_analytics" then Some(1)
    else if feature in ["expert_consultation", "family_sharing", "offline_mode"] then Some(2)
    else None
  }

  /** `hasFeatureAccess(feature)`: an active subscription to a known plan whose rank reaches the
      feature's tier. */
  function HasFeatureAccess(current: Option<Sub>, feature: string): (b: bool)
    ensures b <==> && IsActive(current) && RequiredRank(feature).Some?
                   && exists p :: PlanKey(p) == current.value.plan && Rank(p) >= RequiredRank(feature).value
  {
    assert PlanKey(Basic) == "basic" && PlanKey(Premium) == "premium" && PlanKey(Annual) == "annual";
    IsActive(current) && current.value.plan in AllowedPlans(feature)
  }

  /** The plans are ordered basic < premium < annual. */
  function Rank(p: Plan): nat {
    match p
    case Basic => 0
    case Premium => 1
    case Annual => 2
  }

  /** Access grows with the plan: whatever a plan unlocks, every higher plan unlocks too; unknown
      features are locked for every plan. */
  lemma AccessMonotone(s: Sub, lower: Plan, higher: Plan, feature: string)
    requires s.status == Active && Rank(lower) <= Rank(higher)
    ensures HasFeatureAccess(Some(s.(plan := PlanKey(lower))), feature) ==>
              HasFeatureAccess(Some(s.(plan := PlanKey(higher))), feature)
    ensures AllowedPlans(feature) == [] ==> !HasFeatureAccess(Some(s), feature)
  {
  }

  // ---------------------------------------------------------------------------------------------
  // payment request

  /** The request `validatePaymentData` checks; `amount` is `None` when missing. */
  datatype PaymentRequest = PaymentRequest(plan: string, amount: Option<int>, paymentMethod: string)

  /** `validatePaymentData`. */
  function ValidatePaymentData(data: PaymentRequest): (b: bool)
    ensures b <==> data.plan in ["basic", "premium", "annual"]
                   && data.paymentMethod in ["alipay", "wechat", "apple"]
                   && data.amount.Some? && 0 < data.amount.value <= MaxAmount
  {
    if data.plan == [] || data.amount.None? || data.amount.value == 0 || data.paymentMethod == [] then false
    else if data.amount.value <= 0 || data.amount.value > MaxAmount then false
    else if data.plan !in ["basic", "premium", "annual"] then false
    else data.paymentMethod in ["alipay", "wechat", "apple"]
  }

  /** Every plan paid at its list price with a supported method is accepted. */
  lemma ListPriceAccepted(p: Plan, paymentMethod: string)
    requires paymentMethod in ["alipay", "wechat", "apple"]
    ensures ValidatePaymentData(PaymentRequest(PlanKey(p), Some(Price(p)), paymentMethod))
  {
  }

  // ---------------------------------------------------------------------------------------------
  // history

  datatype HistoryItem = HistoryItem(id: string, date: Option<int>, planName: string, amount: int, paymentMethod: string)

  /** `saveToHistory` at `now`: the new record (dated `now`) goes in front; twenty are kept. */
  function SaveToHistory(history: seq<HistoryItem>, id: string, planName: string, amount: int,
                         paymentMethod: string, now: int): (r: seq<HistoryItem>)
    ensures |r| == (if |history| + 1 > MaxHistory then MaxHistory else |history| + 1)
    ensures r[0] == HistoryItem(id, Some(now), planName, amount, paymentMethod)
    ensures r[1..] == history[..|r| - 1]
  {
    var added := [HistoryItem(id, Some(now), planName, amount, paymentMethod)] + history;
    if |added| > MaxHistory then added[..MaxHistory] else added
  }

  /** Newest first: every record is dated, and no record is older than the one after it. */
  predicate NewestFirst(history: seq<HistoryItem>) {
    (forall i :: 0 <= i < |history| ==> history[i].date.Some?)
    && forall i :: 0 < i < |history| ==> history[i].date.value <= history[i - 1].date.value
  }

  /** Saving at a time no earlier than the newest record keeps the history newest-first. */
  lemma SaveKeepsNewestFirst(history: seq<HistoryItem>, id: string, planName: string, amount: int,
                             paymentMethod: string, now: int)
    requires NewestFirst(history)
    requires history != [] ==> history[0].date.value <= now
    ensures NewestFirst(SaveToHistory(history, id, planName, amount, paymentMethod, now))
  {
    var r := SaveToHistory(history, id, planName, amount, paymentMethod, now);
    assert forall i :: 0 < i < |r| ==> r[i] == history[i - 1];
  }

  /** The cut-off of `cleanup` at `now`: thirty days earlier. */
  function CutOff(now: int): int {
    now - HistoryDays * DayMs
  }

  predicate Recent(item: HistoryItem, now: int) {
    item.date.Some? && item.date.value > CutOff(now)
  }

  /** `cleanup` at `now`: keeps exactly the records dated after thirty days ago, in order. */
  function Cleanup(history: seq<HistoryItem>, now: int): (r: seq<HistoryItem>)
    ensures |r| <= |history|
    ensures forall x :: x in r <==> x in history && Recent(x, now)
  {
    if history == [] then []
    else (if Recent(history[0], now) then [history[0]] else []) + Cleanup(history[1..], now)
  }

  /** A record saved now survives a cleanup now; cleaning twice is cleaning once. */
  lemma CleanupKeepsNewAndIsIdempotent(history: seq<HistoryItem>, id: string, planName: string, amount: int,
                                       paymentMethod: string, now: int)
    ensures HistoryItem(id, Some(now), planName, amount, paymentMethod)
            in Cleanup(SaveToHistory(history, id, planName, amount, paymentMethod, now), now)
    ensures Cleanup(Cleanup(history, now), now) == Cleanup(history, now)
  {
    CleanupTwice(history, now);
  }

  lemma {:induction false} CleanupTwice(history: seq<HistoryItem>, now: int)
    ensures Cleanup(Cleanup(history, now), now) == Cleanup(history, now)
  {
    if history != [] {
      CleanupTwice(history[1..], now);
      var head := if Recent(history[0], now) then [history[0]] else [];
      CleanupAppend(head, Cleanup(history[1..], now), now);
      if head != [] {
        assert Cleanup(head, now) == head by {
          assert head[1..] == [];
        }
      }
    }
  }

  /** Cleanup works record by record: cleaning a concatenation cleans each part, so the kept
      records stay in their original order. */
  lemma {:induction false} CleanupAppend(a: seq<HistoryItem>, b: seq<HistoryItem>, now: int)
    ensures Cleanup(a + b, now) == Cleanup(a, now) + Cleanup(b, now)
  {
    if a != [] {
      assert (a + b)[1..] == a[1..] + b;
      CleanupAppend(a[1..], b, now);
    } else {
      assert a + b == b;
    }
  }

  // ---------------------------------------------------------------------------------------------
  // subscribe button

  datatype Button = Button(disabled: bool, caption: string)

  /** `updateSubscribeButton`. */
  function SubscribeButton(selectedPlan: Option<Plan>, selectedPayment: string, isProcessing: bool): (b: Button)
    ensures !b.disabled <==> selectedPlan.Some? && selectedPayment != [] && !isProcessing
    ensures !b.disabled ==> b.caption == "立即订阅 ¥" + NatToString(Price(selectedPlan.value))
    ensures isProcessing ==> b == Button(true, "处理中...")
  {
    if selectedPlan.Some? && selectedPayment != [] && !isProcessing then
      Button(false, "立即订阅 ¥" + NatToString(Price(selectedPlan.value)))
    else if isProcessing then Button(true, "处理中...")
    else Button(true, "请选择计划")
  }

  /** With a plan and a supported method chosen and nothing in flight, the button is enabled, the
      amount in its caption reads back as the plan's price, and a request for that amount passes
      the payment check. */
  lemma SubscribeButtonShowsChargedPrice(p: Plan, selectedPayment: string)
    requires selectedPayment in ["alipay", "wechat", "apple"]
    ensures var b := SubscribeButton(Some(p), selectedPayment, false);
            && !b.disabled
            && IsPrefix("立即订阅 ¥", b.caption)
            && ParseInt(b.caption[|"立即订阅 ¥"|..]) == Some(Price(p))
            && ValidatePaymentData(PaymentRequest(PlanKey(p), Some(Price(p)), selectedPayment))
  {
    var b := SubscribeButton(Some(p), selectedPayment, false);
    assert b.caption[|"立即订阅 ¥"|..] == NatToString(Price(p));
    ParseIntNat(Price(p));
  }
}

=== FILE: utils.dfy ===
/** The general utilities: the form validators (`username`, `password`, `required`), the
    storage wrapper around `localStorage` (values kept in an envelope, every failure reading as the
    default), and date formatting (absolute with zero padding, and relative to now). The throttle
    wrapper is the one in `Performance`. Calendar fields are given, not computed from a clock. */
module Utils {
  import opened Values
  import opened Strings

  // ---------------------------------------------------------------------------------------------
  // validators

  /** `[一-龥a-zA-Z0-9_]` */
  predicate UsernameChar(c: char) {
    ('一' <= c <= '龥') || ('a' <= c <= 'z') || ('A' <= c <= 'Z') || IsDigit(c) || c == '_'
  }

  /** `Validator.username`. */
  function Username(u: string): (b: bool)
    ensures b <==> 2 <= |u| <= 20 && forall i :: 0 <= i < |u| ==> UsernameChar(u[i])
  {
    if u == [] || |u| < 2 || |u| > 20 then false
    else forall i :: 0 <= i < |u| ==> UsernameChar(u[i])
  }

  /** An accepted username has no whitespace at all, so it passes `required` and survives
      trimming unchanged; lower-casing it keeps it acceptable. */
  lemma UsernameIsSolid(u: string)
    requires Username(u)
    ensures Required(Str(u), "用户名").Ok?
    ensures Trim(u) == u
    ensures Username(Lower(u))
  {
    assert !IsWhitespace(u[0]);
    assert !IsWhitespace(u[|u| - 1]);
    var l := Lower(u);
    assert forall i :: 0 <= i < |l| ==> l[i] == LowerChar(u[i]);
  }

  /** Typing one more character into an accepted username keeps it accepted exactly when the
      character is allowed and the name is still within twenty characters. */
  lemma UsernameGrowth(u: string, c: char)
    requires Username(u)
    ensures Username(u + [c]) <==> |u| < 20 && UsernameChar(c)
  {
    assert (u + [c])[|u|] == c;
    assert forall i :: 0 <= i < |u| ==> (u + [c])[i] == u[i];
  }

  const PasswordShort := "密码长度至少6位"
  const PasswordLong := "密码长度不能超过20位"
  const PasswordOk := "密码格式正确"

  datatype Check = Check(valid: bool, message: string)

  /** `Validator.password`: six to twenty characters. */
  function Password(p: string): (r: Check)
    ensures r.valid <==> 6 <= |p| <= 20
    ensures |p| < 6 ==> r.message == PasswordShort
    ensures |p| > 20 ==> r.message == PasswordLong
  {
    if p == [] || |p| < 6 then Check(false, PasswordShort)
    else if |p| > 20 then Check(false, PasswordLong)
    else Check(true, PasswordOk)
  }

  /** The message alone tells the three outcomes apart. */
  lemma PasswordMessagesDistinct(p: string, q: string)
    ensures Password(p).message == Password(q).message ==> Password(p).valid == Password(q).valid
    ensures Password(p).message == Password(q).message <==>
              (|p| < 6 && |q| < 6) || (|p| > 20 && |q| > 20) || (6 <= |p| <= 20 && 6 <= |q| <= 20)
  {
  }

  datatype Outcome = Ok | Thrown(message: string)

  /** `Validator.required(value, fieldName)`: throws for a falsy value or a blank string. */
  function Required(v: JsValue, fieldName: string): (r: Outcome)
    ensures r.Ok? <==> Truthy(v) && !(v.Str? && IsBlank(v.s))
    ensures r.Thrown? ==> r.message == fieldName + "不能为空"
  {
    if !Truthy(v) || (v.Str? && Trim(v.s) == []) then Thrown(fieldName + "不能为空") else Ok
  }

  // ---------------------------------------------------------------------------------------------
  // storage

  /** What one `localStorage` entry holds, as `get` sees it: text that does not parse to an
      object (or parses to `null`), or an object whose `value` field (`Undefined` when missing). */
  datatype Item = Unreadable | Envelope(value: JsValue, timestamp: int, version: string)

  /** The wrapper: whether the availability probe succeeded, and the entries. */
  datatype Storage = Storage(isAvailable: bool, items: map<string, Item>)

  /** What `JSON.stringify` then `JSON.parse` does to a value: a missing value stays missing and
      `NaN` comes back as `null`. */
  function JsonRoundTrip(v: JsValue): JsValue {
    if v == NaN then Null else v
  }

  /** `StorageManager.set(key, value)` at `now`; `writeOk` is whether `setItem` succeeded (it throws
      when the quota is full). Returns the success flag and the new storage. */
  function Set(st: Storage, key: string, value: JsValue, now: int, writeOk: bool): (r: (bool, Storage))
    ensures r.0 <==> st.isAvailable && writeOk
    ensures !r.0 ==> r.1 == st
    ensures r.1.isAvailable == st.isAvailable
    ensures forall k :: k != key ==> (k in r.1.items <==> k in st.items) && (k in st.items ==> r.1.items[k] == st.items[k])
  {
    if !st.isAvailable || !writeOk then (false, st)
    else (true, st.(items := st.items[key := Envelope(JsonRoundTrip(value), now, "1.0")]))
  }

  /** `StorageManager.get(key, defaultValue)`. */
  function Get(st: Storage, key: string, default: JsValue): (r: JsValue)
    ensures !st.isAvailable || key !in st.items || st.items[key].Unreadable? ==> r == default
    ensures st.isAvailable && key in st.items && st.items[key].Envelope? ==>
              r == (if st.items[key].value == Undefined then default else st.items[key].value)
  {
    if !st.isAvailable || key !in st.items then default
    else match st.items[key]
      case Unreadable => default
      case Envelope(v, _, _) => if v == Undefined then default else v
  }

  /** A successful `set` is read back by `get` (with `NaN` turned into `null`, and a missing value
      into the default); other keys read as before; a failed `set` changes no read. */
  lemma SetThenGet(st: Storage, key: string, value: JsValue, now: int, writeOk: bool, other: string, default: JsValue)
    ensures var (ok, st') := Set(st, key, value, now, writeOk);
            && (ok ==> Get(st', key, default) == (if value == Undefined then default else JsonRoundTrip(value)))
            && (other != key || !ok ==> Get(st', other, default) == Get(st, other, default))
  {
  }

  // ---------------------------------------------------------------------------------------------
  // date formatting

  /** The calendar fields `formatDate` reads from its `Date` (`getMonth()` counts from 0). */
  datatype DateParts = DateParts(year: int, monthIndex: nat, day: nat, hours: nat, minutes: nat, seconds: nat)

  const DefaultFormat := "YYYY-MM-DD HH:mm:ss"

  /** `formatDate(date, format)`: each token replaced once, in the order `YYYY`, `MM`, `DD`, `HH`,
      `mm`, `ss`, by the field's decimal text, every field but the year padded to two digits. */
  function FormatDate(d: DateParts, format: string): string {
    Fill(format, IntToString(d.year), Pad2(d.monthIndex + 1), Pad2(d.day), Pad2(d.hours), Pad2(d.minutes),
         Pad2(d.seconds))
  }

  /** The chain of `replace` calls with the six field texts. */
  function Fill(format: string, y: string, mo: string, dd: string, hh: string, mi: string, ss: string): string {
    var s1 := ReplaceFirst(format, "YYYY", y);
    var s2 := ReplaceFirst(s1, "MM", mo);
    var s3 := ReplaceFirst(s2, "DD", dd);
    var s4 := ReplaceFirst(s3, "HH", hh);
    var s5 := ReplaceFirst(s4, "mm", mi);
    ReplaceFirst(s5, "ss", ss)
  }

  /** Text that cannot start a token. */
  predicate TokenFree(t: string) {
    'Y' !in t && 'M' !in t && 'D' !in t && 'H' !in t && 'm' !in t && 's' !in t
  }

  lemma NumberTextTokenFree(t: string)
    requires forall i :: 0 <= i < |t| ==> IsDigit(t[i]) || t[i] == '-'
    ensures TokenFree(t)
  {
  }

  lemma IntTextTokenFree(n: int)
    ensures TokenFree(IntToString(n))
  {
    var y := IntToString(n);
    if n < 0 {
      assert y == "-" + NatToString(-n);
      assert forall i :: 1 <= i < |y| ==> y[i] == NatToString(-n)[i - 1];
    }
    NumberTextTokenFree(y);
  }

  lemma PadTokenFree(n: nat)
    ensures TokenFree(Pad2(n))
  {
    NumberTextTokenFree(Pad2(n));
  }

  /** One replacement inside a partly filled format: the text before the separator is already
      token-free. */
  lemma FillStep(p: string, sep: string, pat: string, tail: string, rep: string)
    requires pat != [] && pat[0] !in p && pat[0] !in sep
    ensures ReplaceFirst(p + (sep + pat + tail), pat, rep) == p + sep + rep + tail
  {
    assert p + (sep + pat + tail) == (p + sep) + pat + tail;
    ReplaceFirstAt(p + sep, pat, tail, rep);
  }

  predicate AllTokenFree(ts: seq<string>) {
    forall i :: 0 <= i < |ts| ==> TokenFree(ts[i])
  }

  /** The six field texts of a date contain no token letter. */
  lemma FieldTextsTokenFree(d: DateParts)
    requires d.monthIndex < 12 && d.day < 100 && d.hours < 100 && d.minutes < 100 && d.seconds < 100
    ensures AllTokenFree([IntToString(d.year), Pad2(d.monthIndex + 1), Pad2(d.day), Pad2(d.hours),
                          Pad2(d.minutes), Pad2(d.seconds)])
  {
    IntTextTokenFree(d.year);
    PadTokenFree(d.monthIndex + 1);
    PadTokenFree(d.day);
    PadTokenFree(d.hours);
    PadTokenFree(d.minutes);
    PadTokenFree(d.seconds);
  }

  /** With field texts that contain no token letter, the default format is filled in place. */
  lemma FillDefault(f: string, y: string, mo: string, dd: string, hh: string, mi: string, ss: string)
    requires f == DefaultFormat
    requires AllTokenFree([y, mo, dd, hh, mi, ss])
    ensures Fill(f, y, mo, dd, hh, mi, ss) == y + "-" + mo + "-" + dd + " " + hh + ":" + mi + ":" + ss
  {
    var ts := [y, mo, dd, hh, mi, ss];
    assert TokenFree(ts[0]) && TokenFree(ts[1]) && TokenFree(ts[2]);
    assert TokenFree(ts[3]) && TokenFree(ts[4]);
    FillDate(f, y, mo, dd);
    FillTime(y + "-" + mo + "-" + dd, hh, mi, ss);
  }

  /** The date half of the default format. */
  lemma FillDate(f: string, y: string, mo: string, dd: string)
    requires f == DefaultFormat && TokenFree(y) && TokenFree(mo)
    ensures ReplaceFirst(ReplaceFirst(ReplaceFirst(f, "YYYY", y), "MM", mo), "DD", dd)
            == y + "-" + mo + "-" + dd + " HH:mm:ss"
  {
    FillYear(f, y);
    assert "-MM-DD HH:mm:ss" == "-" + "MM" + "-DD HH:mm:ss";
    FillAfterDash(y, "MM", "-DD HH:mm:ss", mo);
    assert "-DD HH:mm:ss" == "-" + "DD" + " HH:mm:ss";
    FillAfterDash(y + "-" + mo, "DD", " HH:mm:ss", dd);
  }

  lemma FillYear(f: string, y: string)
    requires f == DefaultFormat
    ensures ReplaceFirst(f, "YYYY", y) == y + "-MM-DD HH:mm:ss"
  {
    var none: string := [];
    assert f == "YYYY" + "-MM-DD HH:mm:ss";
    assert f == none + "YYYY" + "-MM-DD HH:mm:ss";
    ReplaceFirstAt(none, "YYYY", "-MM-DD HH:mm:ss", y);
  }

  /** A date token after a dash, behind token-free text, is the first one replaced. */
  lemma FillAfterDash(p: string, tok: string, tail: string, v: string)
    requires TokenFree(p) && (tok == "MM" || tok == "DD")
    ensures ReplaceFirst(p + ("-" + tok + tail), tok, v) == p + "-" + v + tail
  {
    FillStep(p, "-", tok, tail, v);
  }

  /** The time half of the default format, after a token-free date. */
  lemma FillTime(p: string, hh: string, mi: string, ss: string)
    requires TokenFree(p) && TokenFree(hh) && TokenFree(mi)
    ensures ReplaceFirst(ReplaceFirst(ReplaceFirst(p + " HH:mm:ss", "HH", hh), "mm", mi), "ss", ss)
            == p + " " + hh + ":" + mi + ":" + ss
  {
    var none: string := [];
    assert " HH:mm:ss" == " " + "HH" + ":mm:ss";
    FillStep(p, " ", "HH", ":mm:ss", hh);
    assert ":mm:ss" == ":" + "mm" + ":ss";
    FillStep(p + " " + hh, ":", "mm", ":ss", mi);
    assert ":ss" == ":" + "ss" + none;
    FillStep(p + " " + hh + ":" + mi, ":", "ss", none, ss);
  }

  /** The default format lays the fields out as `YYYY-MM-DD HH:mm:ss`; each padded field reads back
      as its value and, below 100, is exactly two digits. */
  lemma DefaultFormatLayout(d: DateParts)
    requires d.monthIndex < 12 && d.day < 100 && d.hours < 100 && d.minutes < 100 && d.seconds < 100
    ensures FormatDate(d, DefaultFormat) ==
              IntToString(d.year) + "-" + Pad2(d.monthIndex + 1) + "-" + Pad2(d.day) + " "
              + Pad2(d.hours) + ":" + Pad2(d.minutes) + ":" + Pad2(d.seconds)
    ensures |Pad2(d.monthIndex + 1)| == 2 && DigitsValue(Pad2(d.monthIndex + 1)) == d.monthIndex + 1
    ensures |Pad2(d.day)| == 2 && |Pad2(d.hours)| == 2 && |Pad2(d.minutes)| == 2 && |Pad2(d.seconds)| == 2
  {
    DefaultFill(d);
  }

  lemma DefaultFill(d: DateParts)
    requires d.monthIndex < 12 && d.day < 100 && d.hours < 100 && d.minutes < 100 && d.seconds < 100
    ensures FormatDate(d, DefaultFormat) ==
              IntToString(d.year) + "-" + Pad2(d.monthIndex + 1) + "-" + Pad2(d.day) + " "
              + Pad2(d.hours) + ":" + Pad2(d.minutes) + ":" + Pad2(d.seconds)
  {
    var y, mo, dd := IntToString(d.year), Pad2(d.monthIndex + 1), Pad2(d.day);
    var hh, mi, ss := Pad2(d.hours), Pad2(d.minutes), Pad2(d.seconds);
    FieldTextsTokenFree(d);
    FillDefault(DefaultFormat, y, mo, dd, hh, mi, ss);
    assert FormatDate(d, DefaultFormat) == Fill(DefaultFormat, y, mo, dd, hh, mi, ss);
  }

  /** With token-free month and day texts, `MM-DD` is filled in place and the other tokens are
      not found. */
  lemma FillMonthDay(f: string, y: string, mo: string, dd: string, hh: string, mi: string, ss: string)
    requires f == "MM-DD" && TokenFree(mo) && TokenFree(dd)
    ensures Fill(f, y, mo, dd, hh, mi, ss) == mo + "-" + dd
  {
    var s1 := ReplaceFirst(f, "YYYY", y);
    ReplaceFirstAbsent(f, "YYYY", y);
    var s2 := ReplaceFirst(s1, "MM", mo);
    var none: string := [];
    assert f == none + "MM" + "-DD";
    ReplaceFirstAt(none, "MM", "-DD", mo);
    var s3 := ReplaceFirst(s2, "DD", dd);
    assert s2 == (mo + "-") + "DD" + none;
    ReplaceFirstAt(mo + "-", "DD", none, dd);
    assert s3 == mo + "-" + dd;
    assert TokenFree(s3);
    ReplaceFirstAbsent(s3, "HH", hh);
    ReplaceFirstAbsent(s3, "mm", mi);
    ReplaceFirstAbsent(s3, "ss", ss);
  }

  /** `formatDate(date, 'MM-DD')`, the fallback of the relative formatter: month and day only. */
  lemma MonthDayLayout(d: DateParts)
    ensures FormatDate(d, "MM-DD") == Pad2(d.monthIndex + 1) + "-" + Pad2(d.day)
  {
    var mo, dd := Pad2(d.monthIndex + 1), Pad2(d.day);
    PadTokenFree(d.monthIndex + 1);
    PadTokenFree(d.day);
    FillMonthDay("MM-DD", IntToString(d.year), mo, dd, Pad2(d.hours), Pad2(d.minutes), Pad2(d.seconds));
    assert FormatDate(d, "MM-DD") == Fill("MM-DD", IntToString(d.year), mo, dd, Pad2(d.hours), Pad2(d.minutes),
                                          Pad2(d.seconds));
  }

  const SecondMs: int := 1000
  const MinuteMs: int := 60000
  const HourMs: int := 3600000
  const DayMs: int := 86400000

  /** `formatRelativeTime(date)` at `now` (both in milliseconds), with `date`'s calendar fields for
      the fallback: whole seconds, minutes, hours and days are floored in turn. The branch depends
      only on the elapsed time: under a minute (or in the future) is "just now"; then whole minutes
      under an hour, whole hours under a day, whole days under a week, and after that the date. */
  function FormatRelativeTime(date: int, now: int, parts: DateParts): (r: string)
    ensures now - date < MinuteMs ==> r == "刚刚"
    ensures MinuteMs <= now - date < HourMs ==> r == NatToString((now - date) / MinuteMs) + "分钟前"
    ensures HourMs <= now - date < DayMs ==> r == NatToString((now - date) / HourMs) + "小时前"
    ensures DayMs <= now - date < 7 * DayMs ==> r == NatToString((now - date) / DayMs) + "天前"
    ensures now - date >= 7 * DayMs ==> r == FormatDate(parts, "MM-DD")
  {
    FloorStages(now - date);
    var seconds := (now - date) / 1000;
    var minutes := seconds / 60;
    var hours := minutes / 60;
    var days := hours / 24;
    if seconds < 60 then "刚刚"
    else if minutes < 60 then NatToString(minutes) + "分钟前"
    else if hours < 24 then NatToString(hours) + "小时前"
    else if days < 7 then NatToString(days) + "天前"
    else FormatDate(parts, "MM-DD")
  }

  /** Flooring in stages is flooring once. */
  lemma FloorStages(diff: int)
    ensures diff / 1000 / 60 == diff / MinuteMs
    ensures diff / 1000 / 60 / 60 == diff / HourMs
    ensures diff / 1000 / 60 / 60 / 24 == diff / DayMs
  {
  }
}

=== FILE: validation.dfy ===
/** The input-validation library: HTML escaping, text sanitising, password scoring, the per-identifier
    sliding-window rate limiter, and the form validator's per-field rule logic. */
module Validation {
  import opened Values
  import opened Strings

  // ---------------------------------------------------------------------------------------------
  // HTML escaping

  /** The five characters `escapeHtml` replaces. */
  predicate Special(c: char) {
    c == '&' || c == '<' || c == '>' || c == '"' || c == '\''
  }

  predicate NoSpecial(s: string) {
    forall i :: 0 <= i < |s| ==> !Special(s[i])
  }

  /** The characters that may not appear raw in escaped text (`&` may: it starts every entity). */
  predicate NoRawMarkup(s: string) {
    forall i :: 0 <= i < |s| ==> s[i] != '<' && s[i] != '>' && s[i] != '"' && s[i] != '\''
  }

  function Entity(c: char): string {
    if c == '&' then "&amp;"
    else if c == '<' then "&lt;"
    else if c == '>' then "&gt;"
    else if c == '"' then "&quot;"
    else if c == '\'' then "&#039;"
    else [c]
  }

  /** `escapeHtml`: each special character becomes its entity; every other character is kept. */
  function EscapeHtml(s: string): (r: string)
    ensures NoRawMarkup(r)
    ensures |r| >= |s|
    ensures |r| == |s| <==> NoSpecial(s)
  {
    if s == [] then []
    else
      var rest := EscapeHtml(s[1..]);
      assert NoSpecial(s) <==> !Special(s[0]) && NoSpecial(s[1..]) by {
        assert forall i :: 1 <= i < |s| ==> s[i] == s[1..][i - 1];
      }
      Entity(s[0]) + rest
  }

  /** Decodes the five entities `escapeHtml` produces; any other text is copied. */
  function UnescapeHtml(s: string): string
    decreases |s|
  {
    if s == [] then []
    else if s[0] != '&' then [s[0]] + UnescapeHtml(s[1..])
    else if IsPrefix("&amp;", s) then "&" + UnescapeHtml(s[5..])
    else if IsPrefix("&lt;", s) then "<" + UnescapeHtml(s[4..])
    else if IsPrefix("&gt;", s) then ">" + UnescapeHtml(s[4..])
    else if IsPrefix("&quot;", s) then "\"" + UnescapeHtml(s[6..])
    else if IsPrefix("&#039;", s) then "'" + UnescapeHtml(s[6..])
    else "&" + UnescapeHtml(s[1..])
  }

  /** Unescaping the escaped text gives back the input, so escaping loses nothing. */
  lemma {:induction false} UnescapeEscape(s: string)
    ensures UnescapeHtml(EscapeHtml(s)) == s
  {
    if s != [] {
      UnescapeEscape(s[1..]);
      UnescapeEntity(s[0], EscapeHtml(s[1..]));
      assert s == [s[0]] + s[1..];
    }
  }

  /** Unescaping reads each entity back as the one character it encodes. */
  lemma UnescapeEntity(c: char, rest: string)
    ensures UnescapeHtml(Entity(c) + rest) == [c] + UnescapeHtml(rest)
  {
    if c == '&' {
      UnescapeAmp(rest);
    } else if c == '<' || c == '>' {
      UnescapeAngle(c, rest);
    } else if c == '"' || c == '\'' {
      UnescapeQuote(c, rest);
    } else {
      var e := Entity(c) + rest;
      assert e[0] == c && e[1..] == rest;
    }
  }

  lemma UnescapeAmp(rest: string)
    ensures UnescapeHtml("&amp;" + rest) == "&" + UnescapeHtml(rest)
  {
    var e := "&amp;" + rest;
    assert e[..5] == "&amp;" && e[5..] == rest;
  }

  lemma UnescapeAngle(c: char, rest: string)
    requires c == '<' || c == '>'
    ensures UnescapeHtml(Entity(c) + rest) == [c] + UnescapeHtml(rest)
  {
    if c == '<' {
      UnescapeLt(rest);
    } else {
      UnescapeGt(rest);
    }
  }

  lemma UnescapeLt(rest: string)
    ensures UnescapeHtml("&lt;" + rest) == "<" + UnescapeHtml(rest)
  {
    var e := "&lt;" + rest;
    assert e[1] == 'l' && e[4..] == rest;
    assert !IsPrefix("&amp;", e);
    assert e[..4] == "&lt;";
  }

  lemma UnescapeGt(rest: string)
    ensures UnescapeHtml("&gt;" + rest) == ">" + UnescapeHtml(rest)
  {
    var e := "&gt;" + rest;
    assert e[1] == 'g' && e[4..] == rest;
    assert !IsPrefix("&amp;", e) && !IsPrefix("&lt;", e);
    assert e[..4] == "&gt;";
  }

  lemma UnescapeQuote(c: char, rest: string)
    requires c == '"' || c == '\''
    ensures UnescapeHtml(Entity(c) + rest) == [c] + UnescapeHtml(rest)
  {
    if c == '"' {
      UnescapeQuot(rest);
    } else {
      UnescapeApos(rest);
    }
  }

  lemma UnescapeQuot(rest: string)
    ensures UnescapeHtml("&quot;" + rest) == "\"" + UnescapeHtml(rest)
  {
    var e := "&quot;" + rest;
    assert e[1] == 'q' && e[6..] == rest;
    assert !IsPrefix("&amp;", e) && !IsPrefix("&lt;", e) && !IsPrefix("&gt;", e);
    assert e[..6] == "&quot;";
  }

  lemma UnescapeApos(rest: string)
    ensures UnescapeHtml("&#039;" + rest) == "'" + UnescapeHtml(rest)
  {
    var e := "&#039;" + rest;
    assert e[1] == '#' && e[6..] == rest;
    assert !IsPrefix("&amp;", e) && !IsPrefix("&lt;", e) && !IsPrefix("&gt;", e) && !IsPrefix("&quot;", e);
    assert e[..6] == "&#039;";
  }

  /** Escaping is injective: different texts never escape to the same output. */
  lemma EscapeInjective(a: string, b: string)
    requires EscapeHtml(a) == EscapeHtml(b)
    ensures a == b
  {
    UnescapeEscape(a);
    UnescapeEscape(b);
  }

  /** Escaping is the identity exactly on text free of the five special characters. */
  lemma {:induction false} EscapeIdentity(s: string)
    ensures EscapeHtml(s) == s <==> NoSpecial(s)
  {
    if s != [] && NoSpecial(s) {
      assert NoSpecial(s[1..]) by {
        assert forall i :: 1 <= i < |s| ==> s[i] == s[1..][i - 1];
      }
      EscapeIdentity(s[1..]);
      assert s == [s[0]] + s[1..];
    }
  }

  /** Escaping a non-empty text escapes its first character, then the rest. */
  lemma EscapeFirst(s: string)
    requires s != []
    ensures EscapeHtml(s) == Entity(s[0]) + EscapeHtml(s[1..])
  {
  }

  /** Escaping works character by character: it distributes over concatenation. */
  lemma {:induction false} EscapeAppend(a: string, b: string)
    ensures EscapeHtml(a + b) == EscapeHtml(a) + EscapeHtml(b)
  {
    if a != [] {
      var ab := a + b;
      assert ab[0] == a[0] && ab[1..] == a[1..] + b;
      EscapeAppend(a[1..], b);
      EscapeFirst(ab);
      EscapeFirst(a);
      ConcatAssoc(Entity(a[0]), EscapeHtml(a[1..]), EscapeHtml(b));
    } else {
      assert a + b == b;
    }
  }

  // ---------------------------------------------------------------------------------------------
  // sanitizeText

  /** The options of `sanitizeText`. `maxLength` is `None` when not given; a given `0` is falsy and
      disables truncation just like an absent one. */
  datatype SanitizeOptions = SanitizeOptions(removeDangerous: bool, maxLength: Option<int>, escape: bool)

  const DefaultSanitize := SanitizeOptions(true, None, true)

  predicate Truncates(opts: SanitizeOptions) {
    opts.maxLength.Some? && opts.maxLength.value != 0
  }

  /** `sanitizeText`: trim, remove dangerous patterns (`strip`, the three regular-expression
      replacements), truncate to `maxLength` with `substring(0, maxLength)`, then escape. */
  function SanitizeText(input: JsValue, opts: SanitizeOptions, strip: string -> string): (r: string)
    ensures !input.Str? ==> r == []
    ensures input.Str? && opts.escape ==> NoRawMarkup(r) && UnescapeHtml(r) == Limited(input.s, opts, strip)
    ensures input.Str? && !opts.escape ==> r == Limited(input.s, opts, strip)
  {
    if !input.Str? then []
    else
      var limited := Limited(input.s, opts, strip);
      if opts.escape then UnescapeEscape(limited); EscapeHtml(limited) else limited
  }

  /** The text `sanitizeText` shows before escaping: the cleaned text, cut to its first `maxLength`
      characters when a limit is given (a negative limit cuts everything). */
  function Limited(s: string, opts: SanitizeOptions, strip: string -> string): (r: string)
    ensures IsPrefix(r, Cleaned(s, opts, strip))
    ensures !Truncates(opts) ==> r == Cleaned(s, opts, strip)
    ensures Truncates(opts) ==>
              |r| == (if opts.maxLength.value < 0 then 0
                      else if opts.maxLength.value < |Cleaned(s, opts, strip)| then opts.maxLength.value
                      else |Cleaned(s, opts, strip)|)
  {
    var cleaned := Cleaned(s, opts, strip);
    if Truncates(opts) then Substring(cleaned, 0, opts.maxLength.value) else cleaned
  }

  /** The trimmed text after the optional dangerous-pattern removal. */
  function Cleaned(s: string, opts: SanitizeOptions, strip: string -> string): string {
    var trimmed := Trim(s);
    if opts.removeDangerous then strip(trimmed) else trimmed
  }

  /** Truncation happens before escaping: the text the escaped output stands for is exactly the
      cleaned text's first `maxLength` characters (all of it when it is shorter), and escaping
      then adds nothing that unescaping does not take away. */
  lemma SanitizeTruncatesBeforeEscaping(s: string, opts: SanitizeOptions, strip: string -> string)
    requires opts.escape && Truncates(opts)
    ensures var shown := UnescapeHtml(SanitizeText(Str(s), opts, strip));
            var cleaned := Cleaned(s, opts, strip);
            && shown == Substring(cleaned, 0, opts.maxLength.value)
            && (|cleaned| <= opts.maxLength.value ==> shown == cleaned)
            && (0 <= opts.maxLength.value < |cleaned| ==> shown == cleaned[..opts.maxLength.value])
            && (opts.maxLength.value < 0 ==> shown == [])
  {
    var cleaned := Cleaned(s, opts, strip);
    UnescapeEscape(Substring(cleaned, 0, opts.maxLength.value));
  }

  /** The escaped output itself may be longer than `maxLength`: one `<` under a limit of 1. */
  lemma EscapedOutputMayExceedMaxLength()
    ensures SanitizeText(Str("<"), SanitizeOptions(false, Some(1), true), (t: string) => t) == "&lt;"
  {
    var opts := SanitizeOptions(false, Some(1), true);
    var keep := (t: string) => t;
    assert TrimStart("<") == "<" by {
      assert !IsWhitespace('<');
    }
    assert TrimEnd("<") == "<" by {
      assert !IsWhitespace('<');
    }
    assert Cleaned("<", opts, keep) == "<";
    assert Substring("<", 0, 1) == "<";
    assert EscapeHtml("<") == "&lt;" by {
      assert EscapeHtml("<") == Entity('<') + EscapeHtml([]);
    }
  }

  // ---------------------------------------------------------------------------------------------
  // validatePassword

  const PasswordTooShort: string := "密码长度至少6位"
  const PasswordWeak: string := "密码强度较弱，建议包含大小写字母、数字和特殊字符"
  const PasswordMedium: string := "密码强度中等"
  const PasswordGood: string := "密码强度良好"

  predicate IsLowerAscii(c: char) { 'a' <= c <= 'z' }
  predicate IsUpperAscii(c: char) { 'A' <= c <= 'Z' }

  /** The character class `[!@#$%^&*(),.?":{}|<>]`. */
  predicate IsPasswordSymbol(c: char) {
    c in "!@#$%^&*(),.?\":{}|<>"
  }

  predicate HasLower(s: string) { exists i :: 0 <= i < |s| && IsLowerAscii(s[i]) }
  predicate HasUpper(s: string) { exists i :: 0 <= i < |s| && IsUpperAscii(s[i]) }
  predicate HasDigit(s: string) { exists i :: 0 <= i < |s| && IsDigit(s[i]) }
  predicate HasSymbol(s: string) { exists i :: 0 <= i < |s| && IsPasswordSymbol(s[i]) }

  function Point(b: bool): nat { if b then 1 else 0 }

  /** One point per satisfied check: length 8, length 12, lower, upper, digit, symbol. */
  function PasswordScore(s: string): (n: nat)
    ensures n <= 6
  {
    Point(|s| >= 8) + Point(|s| >= 12) + Point(HasLower(s)) + Point(HasUpper(s))
    + Point(HasDigit(s)) + Point(HasSymbol(s))
  }

  datatype PasswordResult = PasswordResult(isValid: bool, score: nat, feedback: seq<string>)

  /** `validatePassword`: too short (under 6) scores 0 and is invalid; otherwise valid iff the
      score is at least 3. Exactly one feedback message either way. */
  function ValidatePassword(s: string): (r: PasswordResult)
    ensures |s| < 6 ==> r == PasswordResult(false, 0, [PasswordTooShort])
    ensures |s| >= 6 ==> r.score == PasswordScore(s) && (r.isValid <==> r.score >= 3)
    ensures r.score <= 6 && |r.feedback| == 1
    ensures r.isValid ==> |s| >= 6 && r.feedback[0] != PasswordTooShort
  {
    if |s| < 6 then PasswordResult(false, 0, [PasswordTooShort])
    else
      var score := PasswordScore(s);
      if score < 3 then PasswordResult(false, score, [PasswordWeak])
      else if score < 5 then PasswordResult(true, score, [PasswordMedium])
      else PasswordResult(true, score, [PasswordGood])
  }

  /** Extending a password never lowers its score, so a valid password stays valid. */
  lemma PasswordScoreMonotone(s: string, t: string)
    ensures PasswordScore(s + t) >= PasswordScore(s)
    ensures ValidatePassword(s).isValid ==> ValidatePassword(s + t).isValid
  {
    ClassesSurvive(s, t);
    assert PasswordScore(s + t) >= PasswordScore(s);
  }

  /** A character class present in a password is still present after appending. */
  lemma ClassesSurvive(s: string, t: string)
    ensures HasLower(s) ==> HasLower(s + t)
    ensures HasUpper(s) ==> HasUpper(s + t)
    ensures HasDigit(s) ==> HasDigit(s + t)
    ensures HasSymbol(s) ==> HasSymbol(s + t)
  {
    var st := s + t;
    assert forall i :: 0 <= i < |s| ==> st[i] == s[i];
    if HasLower(s) { var i :| 0 <= i < |s| && IsLowerAscii(s[i]); assert IsLowerAscii(st[i]); }
    if HasUpper(s) { var i :| 0 <= i < |s| && IsUpperAscii(s[i]); assert IsUpperAscii(st[i]); }
    if HasDigit(s) { var i :| 0 <= i < |s| && IsDigit(s[i]); assert IsDigit(st[i]); }
    if HasSymbol(s) { var i :| 0 <= i < |s| && IsPasswordSymbol(s[i]); assert IsPasswordSymbol(st[i]); }
  }

  // ---------------------------------------------------------------------------------------------
  // RateLimiter

  /** Per-identifier request timestamps, kept in call order. */
  datatype RateLimiter = RateLimiter(maxRequests: int, timeWindow: int, requests: map<string, seq<int>>)

  /** `new RateLimiter(maxRequests, timeWindow)`, each argument defaulting when not given (to 10
      calls and 60 seconds). */
  function NewRateLimiter(maxRequests: Option<int>, timeWindow: Option<int>): (rl: RateLimiter)
    ensures maxRequests.None? ==> rl.maxRequests == 10
    ensures timeWindow.None? ==> rl.timeWindow == 60000
    ensures forall id, now :: RemainingRequests(rl, id, now) == (if rl.maxRequests < 0 then 0 else rl.maxRequests)
    ensures forall id, now :: IsAllowed(rl, id, now).0 <==> rl.maxRequests > 0
  {
    RateLimiter(maxRequests.GetOr(10), timeWindow.GetOr(60000), map[])
  }

  /** The stored timestamps of `id` (`get(id) || []`). */
  function History(rl: RateLimiter, id: string): seq<int> {
    if id in rl.requests then rl.requests[id] else []
  }

  /** The timestamps still inside the window at `now` (`now - t < timeWindow`), in order. */
  function Recent(ts: seq<int>, now: int, window: int): (r: seq<int>)
    ensures |r| <= |ts|
    ensures forall t :: t in r <==> t in ts && now - t < window
  {
    if ts == [] then []
    else (if now - ts[0] < window then [ts[0]] else []) + Recent(ts[1..], now, window)
  }

  /** `isAllowed(id)` at `now`: rejected, with nothing recorded, when the window already holds
      `maxRequests` calls; otherwise the pruned history plus `now` is stored. */
  function IsAllowed(rl: RateLimiter, id: string, now: int): (r: (bool, RateLimiter))
    ensures r.0 <==> |Recent(History(rl, id), now, rl.timeWindow)| < rl.maxRequests
    ensures !r.0 ==> r.1 == rl
    ensures r.0 ==> History(r.1, id) == Recent(History(rl, id), now, rl.timeWindow) + [now]
    ensures r.1.maxRequests == rl.maxRequests && r.1.timeWindow == rl.timeWindow
    ensures forall other :: other != id ==> History(r.1, other) == History(rl, other)
  {
    var valid := Recent(History(rl, id), now, rl.timeWindow);
    if |valid| >= rl.maxRequests then (false, rl)
    else (true, rl.(requests := rl.requests[id := valid + [now]]))
  }

  /** `getRemainingRequests(id)` at `now`. */
  function RemainingRequests(rl: RateLimiter, id: string, now: int): (n: nat)
    ensures n == 0 || n == rl.maxRequests - |Recent(History(rl, id), now, rl.timeWindow)|
    ensures n >= rl.maxRequests - |Recent(History(rl, id), now, rl.timeWindow)|
  {
    var used := |Recent(History(rl, id), now, rl.timeWindow)|;
    if rl.maxRequests - used < 0 then 0 else rl.maxRequests - used
  }

  /** A call is allowed exactly when requests remain, and it uses up one of them. */
  lemma AllowedIffRemaining(rl: RateLimiter, id: string, now: int)
    ensures IsAllowed(rl, id, now).0 <==> RemainingRequests(rl, id, now) > 0
    ensures IsAllowed(rl, id, now).0 && rl.timeWindow > 0 ==>
              RemainingRequests(IsAllowed(rl, id, now).1, id, now) == RemainingRequests(rl, id, now) - 1
  {
    var h := History(rl, id);
    if IsAllowed(rl, id, now).0 && rl.timeWindow > 0 {
      RecentAppend(Recent(h, now, rl.timeWindow), [now], now, rl.timeWindow);
      RecentTwice(h, now, now, rl.timeWindow);
    }
  }

  /** Calls for one identifier never change what another identifier is allowed. */
  lemma IdentifiersIndependent(rl: RateLimiter, id: string, now: int, other: string, later: int)
    requires other != id
    ensures IsAllowed(IsAllowed(rl, id, now).1, other, later).0 == IsAllowed(rl, other, later).0
  {
  }

  lemma {:induction false} RecentAppend(a: seq<int>, b: seq<int>, now: int, w: int)
    ensures Recent(a + b, now, w) == Recent(a, now, w) + Recent(b, now, w)
  {
    if a != [] {
      assert (a + b)[1..] == a[1..] + b;
      RecentAppend(a[1..], b, now, w);
    } else {
      assert a + b == b;
    }
  }

  /** Pruning at `now` and then at a later `t` is the same as pruning at `t`. */
  lemma {:induction false} RecentTwice(a: seq<int>, now: int, t: int, w: int)
    requires now <= t
    ensures Recent(Recent(a, now, w), t, w) == Recent(a, t, w)
  {
    if a != [] {
      RecentTwice(a[1..], now, t, w);
      RecentAppend(if now - a[0] < w then [a[0]] else [], Recent(a[1..], now, w), t, w);
    }
  }

  /** Later windows hold no more timestamps than earlier ones. */
  lemma {:induction false} RecentShrinks(a: seq<int>, now: int, t: int, w: int)
    requires now <= t
    ensures |Recent(a, t, w)| <= |Recent(a, now, w)|
  {
    if a != [] {
      RecentShrinks(a[1..], now, t, w);
    }
  }

  /** The timestamps in the window that ends at `t`: `t - w < x <= t`. */
  function InWindow(ts: seq<int>, t: int, w: int): seq<int> {
    if ts == [] then []
    else (if ts[0] <= t && t - ts[0] < w then [ts[0]] else []) + InWindow(ts[1..], t, w)
  }

  lemma {:induction false} InWindowAppend(a: seq<int>, b: seq<int>, t: int, w: int)
    ensures InWindow(a + b, t, w) == InWindow(a, t, w) + InWindow(b, t, w)
  {
    if a != [] {
      assert (a + b)[1..] == a[1..] + b;
      InWindowAppend(a[1..], b, t, w);
    } else {
      assert a + b == b;
    }
  }

  lemma {:induction false} InWindowIsRecent(a: seq<int>, t: int, w: int)
    requires forall i :: 0 <= i < |a| ==> a[i] <= t
    ensures InWindow(a, t, w) == Recent(a, t, w)
  {
    if a != [] {
      InWindowIsRecent(a[1..], t, w);
    }
  }

  /** Once the stored history and the accepted calls agree from `now` on, they still agree after
      `now` is accepted (the stored history being pruned to the window first). */
  lemma AcceptedHistory(h: seq<int>, accepted: seq<int>, now: int, w: int)
    requires forall t :: now <= t ==> Recent(h, t, w) == Recent(accepted, t, w)
    ensures forall t :: now <= t ==> Recent(Recent(h, now, w) + [now], t, w) == Recent(accepted + [now], t, w)
  {
    forall t | now <= t
      ensures Recent(Recent(h, now, w) + [now], t, w) == Recent(accepted + [now], t, w)
    {
      RecentAppend(Recent(h, now, w), [now], t, w);
      RecentTwice(h, now, t, w);
      RecentAppend(accepted, [now], t, w);
    }
  }

  /** Accepting a call at `now` (no earlier than every accepted time) while fewer than `cap` accepted
      calls lie in the window ending at `now` keeps every window at `cap` or fewer. */
  lemma AcceptKeepsWindowBound(accepted: seq<int>, now: int, w: int, cap: int)
    requires forall i :: 0 <= i < |accepted| ==> accepted[i] <= now
    requires forall t :: |InWindow(accepted, t, w)| <= cap
    requires |Recent(accepted, now, w)| < cap
    ensures forall t :: |InWindow(accepted + [now], t, w)| <= cap
  {
    forall t ensures |InWindow(accepted + [now], t, w)| <= cap {
      InWindowAppend(accepted, [now], t, w);
      if t >= now {
        InWindowIsRecent(accepted, t, w);
        RecentShrinks(accepted, now, t, w);
      }
    }
  }

  predicate Sorted(ts: seq<int>) {
    forall i, j :: 0 <= i < j < |ts| ==> ts[i] <= ts[j]
  }

  /** Replays `times` (in call order) against `id`; returns the limiter and the accepted times. */
  function Run(rl: RateLimiter, id: string, times: seq<int>): (r: (RateLimiter, seq<int>))
    ensures r.0.maxRequests == rl.maxRequests && r.0.timeWindow == rl.timeWindow
  {
    if times == [] then (rl, [])
    else
      var (before, accepted) := Run(rl, id, times[..|times| - 1]);
      var now := times[|times| - 1];
      var (ok, after) := IsAllowed(before, id, now);
      (after, if ok then accepted + [now] else accepted)
  }

  function Cap(n: int): nat {
    if n < 0 then 0 else n
  }

  /** Whatever the call times (in clock order), no window of `timeWindow` ms ever contains more
      than `maxRequests` accepted calls for one identifier. */
  lemma {:induction false} NeverMoreThanMaxInWindow(rl: RateLimiter, id: string, times: seq<int>)
    requires id !in rl.requests && Sorted(times)
    ensures forall t :: |InWindow(Run(rl, id, times).1, t, rl.timeWindow)| <= Cap(rl.maxRequests)
  {
    RunInvariant(rl, id, times);
  }

  lemma {:induction false} RunInvariant(rl: RateLimiter, id: string, times: seq<int>)
    requires id !in rl.requests && Sorted(times)
    ensures forall i :: 0 <= i < |Run(rl, id, times).1| ==>
              |times| > 0 && Run(rl, id, times).1[i] <= times[|times| - 1]
    ensures forall t :: (times == [] || times[|times| - 1] <= t) ==>
              Recent(History(Run(rl, id, times).0, id), t, rl.timeWindow) == Recent(Run(rl, id, times).1, t, rl.timeWindow)
    ensures forall t :: |InWindow(Run(rl, id, times).1, t, rl.timeWindow)| <= Cap(rl.maxRequests)
  {
    var w := rl.timeWindow;
    if times != [] {
      var prefix := times[..|times| - 1];
      var now := times[|times| - 1];
      assert Sorted(prefix);
      RunInvariant(rl, id, prefix);
      var before, accepted := Run(rl, id, prefix).0, Run(rl, id, prefix).1;
      var ok, after := IsAllowed(before, id, now).0, IsAllowed(before, id, now).1;
      assert prefix == [] || prefix[|prefix| - 1] <= now;
      assert forall i :: 0 <= i < |accepted| ==> accepted[i] <= now;
      if ok {
        var accepted' := accepted + [now];
        var h := History(before, id);
        assert History(after, id) == Recent(h, now, w) + [now];
        AcceptedHistory(h, accepted, now, w);
        assert |Recent(accepted, now, w)| < rl.maxRequests by {
          assert Recent(h, now, w) == Recent(accepted, now, w);
        }
        AcceptKeepsWindowBound(accepted, now, w, Cap(rl.maxRequests));
        assert Run(rl, id, times) == (after, accepted');
        assert forall i :: 0 <= i < |accepted'| ==> accepted'[i] <= now;
      } else {
        assert Run(rl, id, times) == (after, accepted);
      }
    } else {
      assert Run(rl, id, times) == (rl, []);
    }
  }

  // ---------------------------------------------------------------------------------------------
  // FormValidator.validateField

  datatype FieldType = Email | Phone | Url | Password | Plain

  /** A field rule. A `minLength`/`maxLength` of 0 stands for an absent (falsy) limit. A custom
      validator returns `None` for `true` and `Some(message)` otherwise (an empty message falls back
      to the default text). Custom messages override the defaults by key. */
  datatype Rule = Rule(required: bool, minLength: int, maxLength: int, fieldType: FieldType,
                       validator: Option<string -> Option<string>>, messages: map<string, string>)

  /** `rule.messages?.[key] || fallback`. */
  function Message(rule: Rule, key: string, fallback: string): string {
    if key in rule.messages && rule.messages[key] != [] then rule.messages[key] else fallback
  }

  /** `/^[^\s@]+@[^\s@]+\.[^\s@]+$/`: no whitespace, exactly one `@`, and a dot after it with
      non-empty text on both sides. */
  predicate ValidEmail(s: string) {
    (forall i :: 0 <= i < |s| ==> !IsWhitespace(s[i]))
    && exists at, dot :: 0 < at < dot < |s| - 1 && s[at] == '@' && s[dot] == '.' && at + 1 < dot
                         && '@' !in s[..at] && '@' !in s[at + 1..]
  }

  /** `/^1[3-9]\d{9}$/`: eleven digits, a leading 1, the second digit 3 to 9. */
  predicate ValidPhone(s: string) {
    |s| == 11 && AllDigits(s) && s[0] == '1' && '3' <= s[1] <= '9'
  }

  /** A text free of whitespace and `@`: what each `[^\s@]+` part of the e-mail pattern matches. */
  predicate EmailPart(s: string) {
    s != [] && forall i :: 0 <= i < |s| ==> !IsWhitespace(s[i]) && s[i] != '@'
  }

  /** The e-mail pattern read as a grammar: a text matches iff it is a user part, `@`, a host part,
      `.` and a last part, each part non-empty and free of whitespace and `@`. */
  lemma {:induction false} EmailParts(user: string, host: string, tld: string)
    requires EmailPart(user) && EmailPart(host) && EmailPart(tld)
    ensures ValidEmail(user + "@" + host + "." + tld)
  {
    var s := user + "@" + host + "." + tld;
    var at, dot := |user|, |user| + 1 + |host|;
    assert s[at] == '@' && s[dot] == '.';
    assert s[..at] == user;
    assert s[at + 1..] == host + "." + tld;
    assert '@' !in host + "." + tld by {
      var t := host + "." + tld;
      forall i | 0 <= i < |t| ensures t[i] != '@' {
        if i < |host| { assert t[i] == host[i]; }
        else if i > |host| { assert t[i] == tld[i - |host| - 1]; }
      }
    }
    forall i | 0 <= i < |s| ensures !IsWhitespace(s[i]) {
      if i < at { assert s[i] == user[i]; }
      else if at < i < dot { assert s[i] == host[i - at - 1]; }
      else if i > dot { assert s[i] == tld[i - dot - 1]; }
    }
  }

  /** Conversely, every accepted address splits into those three parts around its one `@`. */
  lemma EmailSplits(s: string)
    requires ValidEmail(s)
    ensures exists at, dot :: 0 < at < dot < |s| - 1 && s[at] == '@' && s[dot] == '.'
                              && EmailPart(s[..at]) && EmailPart(s[at + 1..dot]) && EmailPart(s[dot + 1..])
  {
    var at, dot :| 0 < at < dot < |s| - 1 && s[at] == '@' && s[dot] == '.' && at + 1 < dot
                   && '@' !in s[..at] && '@' !in s[at + 1..];
    assert forall i :: at + 1 <= i < |s| ==> s[i] == s[at + 1..][i - at - 1];
    assert EmailPart(s[..at]);
    assert EmailPart(s[at + 1..dot]);
    assert EmailPart(s[dot + 1..]);
  }

  /** The phone pattern accepts exactly `1`, a digit from 3 to 9, and nine more digits. */
  lemma PhoneShape(d: char, rest: string)
    ensures ValidPhone(['1', d] + rest) <==> '3' <= d <= '9' && |rest| == 9 && AllDigits(rest)
  {
    var s := ['1', d] + rest;
    assert forall i :: 0 <= i < |rest| ==> rest[i] == s[i + 2];
  }

  /** The errors `validateField` collects for `value` under `rule`, in push order. `urlValid`
      stands for the `new URL(value)` check. */
  function FieldErrors(rule: Rule, value: string, urlValid: string -> bool): (errs: seq<string>)
    ensures rule.required && IsBlank(value) ==> errs == [Message(rule, "required", "此字段为必填项")]
    ensures !rule.required && IsBlank(value) ==> errs == []
    ensures !IsBlank(value) ==>
              (errs == [] <==>
                 && |value| >= rule.minLength
                 && (rule.maxLength == 0 || |value| <= rule.maxLength)
                 && (rule.fieldType == Email ==> ValidEmail(value))
                 && (rule.fieldType == Phone ==> ValidPhone(value))
                 && (rule.fieldType == Url ==> urlValid(value))
                 && (rule.validator.Some? ==> rule.validator.value(value).None?)
                 && (rule.fieldType == Password ==> ValidatePassword(value).isValid))
    ensures !IsBlank(value) && |value| < rule.minLength ==>
              errs[0] == Message(rule, "minLength", "最少需要" + IntToString(rule.minLength) + "个字符")
  {
    var required := if rule.required && IsBlank(value) then [Message(rule, "required", "此字段为必填项")] else [];
    if IsBlank(value) then required
    else
      var tooShort := if |value| < rule.minLength
        then [Message(rule, "minLength", "最少需要" + IntToString(rule.minLength) + "个字符")] else [];
      var tooLong := if rule.maxLength != 0 && |value| > rule.maxLength
        then [Message(rule, "maxLength", "最多允许" + IntToString(rule.maxLength) + "个字符")] else [];
      var email := if rule.fieldType == Email && !ValidEmail(value) then [Message(rule, "email", "请输入有效的邮箱地址")] else [];
      var phone := if rule.fieldType == Phone && !ValidPhone(value) then [Message(rule, "phone", "请输入有效的手机号码")] else [];
      var url := if rule.fieldType == Url && !urlValid(value) then [Message(rule, "url", "请输入有效的URL地址")] else [];
      var custom := match rule.validator
        case None => []
        case Some(check) =>
          match check(value)
          case None => []
          case Some(m) => [if m != [] then m else "输入格式不正确"];
      var password := if rule.fieldType == Password && !ValidatePassword(value).isValid
        then ValidatePassword(value).feedback else [];
      tooShort + tooLong + email + phone + url + custom + password
  }

  /** `validateField`: with no rule the field passes and the error map is untouched; otherwise the
      field passes iff no error was collected, and its error entry is set or deleted to match. */
  function ValidateField(rules: map<string, Rule>, errors: map<string, seq<string>>, name: string,
                         value: string, urlValid: string -> bool): (r: (bool, map<string, seq<string>>))
    ensures name !in rules ==> r == (true, errors)
    ensures name in rules ==> (r.0 <==> FieldErrors(rules[name], value, urlValid) == [])
    ensures name in rules && r.0 ==> r.1 == errors - {name}
    ensures name in rules && !r.0 ==> r.1 == errors[name := FieldErrors(rules[name], value, urlValid)]
  {
    if name !in rules then (true, errors)
    else
      var errs := FieldErrors(rules[name], value, urlValid);
      if |errs| > 0 then (false, errors[name := errs]) else (true, errors - {name})
  }

  /** A blank value is judged only by `required`: no length, format, custom or strength check
      applies to it. */
  lemma BlankValueOnlyRequired(rules: map<string, Rule>, errors: map<string, seq<string>>, name: string,
                               value: string, urlValid: string -> bool)
    requires name in rules && IsBlank(value)
    ensures ValidateField(rules, errors, name, value, urlValid).0 <==> !rules[name].required
  {
  }
}

=== FILE: values.dfy ===
/** JavaScript values as the scripts see them, reduced to what their decisions depend on. */
module Values {

  /** `null`/`undefined` versus a present value. */
  datatype Option<+T> = None | Some(value: T) {

    /** The value, or `default` when absent (the scripts' `x || default`). */
    function GetOr(default: T): T {
      match this
      case Some(v) => v
      case None => default
    }
  }

  /** A dynamically typed JavaScript value. Numbers are integers: no script here relies on fractions
      where the modelled decisions are made. */
  datatype JsValue = Undefined | Null | Bool(b: bool) | Num(n: int) | NaN | Str(s: string) | Obj

  /** JavaScript truthiness: `undefined`, `null`, `false`, `0`, `NaN` and `''` are falsy. */
  predicate Truthy(v: JsValue) {
    match v
    case Undefined => false
    case Null => false
    case Bool(b) => b
    case Num(n) => n != 0
    case NaN => false
    case Str(s) => s != []
    case Obj => true
  }
}
